=== FILE: README.md ===
# Telehealth backend and client flows, modelled in Dafny

This project models the decision logic of a telehealth web application. The
backend is an Express server over a MongoDB document store. It handles local
signup and signin, Google and Twitter sign-in, bearer-token checks, doctor
profiles, bookable slots, bookings, an intake questionnaire and face-emotion
analysis. The React client adds several small state machines: two stepper
forms, a mood tracker, a music player, a seller dashboard, a community feed, a
chat page and the signup and login forms.

Each request handler is a pure function from a store and a request to a
reply and a new store. The store is a record of maps from document id to
record (`Documents.Db`). Ids are handed out in increasing order, so `findOne`
finds the least matching id (`Store.FindOne`). A reply (`Http.Reply`) carries
a status, a message, a thrown fault or both, and an optional payload.

Mongoose validation is a predicate per schema, and a document builder returns
`None` on a validation error (`Models.NewUser`, `Models.NewSlot`, …).
Password hashing, token signing, the OAuth handshakes and the hosted model
are parameters or symbolic values. Each client component is a datatype of its
state, with pure transition functions.

Modules follow the program's files:

- `Models`: the schema files.
- `Auth`, `Tokens`: `auth.js`.
- `Federation`: `passport.js`.
- `Guard`: `verifyToken.js`.
- `Bookings`, `Slots`, `Doctors`, `Intake`, `Emotion`: the controllers.
- `Upload`, `Validators`, `Errors`: the middleware and `validators.js`.
- `Routes`: `index.js` and the routers.
- `IntakeStepper`, `Screening`, `Mood`, `Player`, `Seller`, `Blog`, `Chat`, `Accounts`: the client components.

`Text`, `Store`, `Http`, `Documents` and `Wrappers` are shared support.

## Model

| member | source | states |
|---|---|---|
| Models.NewUser | backend/models/authModel.js:3-55 | A stored user satisfies the schema. The name is trimmed, userName and email are lowercased (as far as `Text.Lower` folds case), and the role defaults to "user". isVerified is false and wellbeingScore is null. |
| Models.NewUserRefusal | backend/models/authModel.js:3-55 | A user draft is refused exactly when a rule fails. The rules are a missing name or email, a bad email pattern, and a missing userName or password on an account with no federated id. A role outside user, doctor, seller and organizer is refused too. |
| Models.EmailNeedsAt | backend/models/authModel.js:22 | An address without "@" never matches the email pattern. |
| Models.NewDoctorInfo | backend/models/doctorinfoModel.js:3-12 | A profile is stored exactly when the owner is given, the five texts are non-empty, speciality is psychiatrist or psychologist, and experience and feePerHour cast to numbers. It keeps every text and the cast numbers, fractions included. A value that fails the cast means no profile. |
| Models.CastNumber | backend/models/doctorinfoModel.js:9-11 | A Number path keeps a number. Empty text becomes null, other text is read as `Number(text)` reads it, and text that reads as NaN is a cast error. |
| Models.WholeNumberTextCasts | backend/models/doctorinfoModel.js:9-11 | The text of a whole number, such as "500", casts to exactly that number. |
| Models.PointTextCasts | backend/models/doctorinfoModel.js:9-11 | Digits, a point and digits, such as "49.5", cast to their exact value. |
| Models.WordyTextRefused | backend/models/doctorinfoModel.js:9-11 | Text with anything but digits and a point after its first character, such as "15 years", is a cast error. |
| Models.NewSlot | backend/models/slotModel.js:3-9 | A slot is stored exactly when doctorId, startTime and endTime are present and the date is present and casts to a Date. isBooked defaults to false. |
| Models.NewBooking | backend/models/bookingModel.js:3-15 | A booking is stored exactly when the user is known and the status is pending, confirmed or cancelled. Status defaults to pending. The razorpay fields and meetLink start unset. |
| Models.NewUserForm | backend/models/userInfoModel.js:3-39 | A form is stored exactly when the owner is known, age is in 1..120 and each answer is in its enumeration. It holds exactly the given answers. |
| Models.AnswersOf | backend/models/userInfoModel.js:11-36 | A stored form is valid exactly when its five answers are. |
| Models.NewEmotionAnalysis | backend/models/emotionModel.js:5-19 | An analysis is stored exactly when a user is given and the emotion is one of the seven enumerated words. |
| Documents.InsertUserKeepsInvariants | backend/models/authModel.js:9-48 | Inserting a valid user that no unique index refuses keeps every stored user valid. It also keeps userName, email, googleId and twitterId unique. |
| Documents.ById | backend/config/passport.js:14-21 | `findById` finds a record exactly when the id is defined and stored. |
| Tokens.AccessToken | backend/controllers/auth.js:46-55 | The access token carries the id and role, is signed with the access secret, and lasts seven days. |
| Tokens.RefreshToken | backend/controllers/auth.js:56-65 | The refresh token carries the id but no role, is signed with the refresh secret, and lasts thirty days. |
| Tokens.Verify | backend/middleware/verifyToken.js:15 | Verification yields the token's claims exactly when the secret it was signed with has the same value as the secret checked against, and the token has not expired. |
| Tokens.AccessRoundTrip | backend/middleware/verifyToken.js:15 | An unexpired access token verifies back to the claims it was issued with. |
| Tokens.RefreshNotAccess | backend/middleware/verifyToken.js:15 | When the configured access and refresh secrets differ, a refresh token never verifies under the access secret. |
| Tokens.SharedSecretAdmitsRefresh | backend/controllers/auth.js:56-65 | When both secrets are configured to the same value, an unexpired refresh token verifies under the access secret. |
| Tokens.TokensShareIdentity | backend/controllers/auth.js:116-126 | Apart from the role claim, the two tokens carry the same claims. |
| Tokens.TokenCookie | backend/controllers/auth.js:67-72 | The "token" cookie is httpOnly, strict same-site and one week long. It is secure exactly in production. |
| Auth.SessionFor | backend/controllers/auth.js:128-146 | A sign-in hands back both tokens of the account, the cookie of the access token, and the user's public fields. |
| Auth.Signup | backend/controllers/auth.js:5-90 | A missing field is refused first, then differing passwords. Only a 201 writes, and a 201 implies both checks passed. |
| Auth.SignupSucceeds | backend/controllers/auth.js:9-44 | A signup answers 201 exactly when every field is given, the passwords agree, no account has the email or userName, and the new user passes the schema. |
| Auth.SignupSucceedsWhen | backend/controllers/auth.js:9-44 | Those four conditions are enough for a 201. |
| Auth.SignupDraftFields | backend/controllers/auth.js:34-42 | The new user has the lowercased email and userName, the hash as password, and no federated ids. |
| Auth.NothingTaken | backend/controllers/auth.js:24-27 | An empty uniqueness query means no stored user holds the lowercased email or userName. |
| Auth.SignupNeverClashes | backend/controllers/auth.js:24-44 | After a passed uniqueness query, the insert meets no duplicate key. |
| Auth.SignupCreates | backend/controllers/auth.js:36-44 | A successful signup adds exactly one user, under the next id. |
| Auth.SignupStores | backend/controllers/auth.js:36-85 | The stored user and the reply agree: the reply's tokens and view belong to the new id and user. |
| Auth.SignupTwiceRefused | backend/controllers/auth.js:24-32 | After a signup, a second signup with the same email or userName in any letter case is refused and writes nothing. |
| Auth.SignupRefusesTaken | backend/controllers/auth.js:24-32 | A taken email or userName is answered 400 "Email or username already exists" with no write. |
| Auth.Signin | backend/controllers/auth.js:92-151 | A blank identifier or password gets 400 "Please provide valid credentials". A 200 belongs to the user the identifier finds, and only when bcrypt accepts the password. |
| Auth.SigninAccepts | backend/controllers/auth.js:100-146 | A found user whose password bcrypt accepts signs in with 200 and that user's session. |
| Auth.SigninDoesNotRevealWhichFactorFailed | backend/controllers/auth.js:107-114 | An unknown identifier and a wrong password both get 401 "Invalid credentials". |
| Auth.SigninAfterSignup | backend/controllers/auth.js:100-114 | Right after the signup insert, signing in by email with the same password succeeds for the new id. |
| Auth.SignupThenSignin | backend/controllers/auth.js:5-151 | After a successful signup, signin with the same email and password answers 200 for the new account. |
| Federation.RequestedRole | backend/config/passport.js:33 | The granted role is "doctor" exactly when state is "doctor", and "user" otherwise. |
| Federation.Reconcile | backend/config/passport.js:44-47 | A found account takes the requested role. Nothing is written when the role already matches. |
| Federation.Create | backend/config/passport.js:37-43 | An account is created exactly when the schema accepts the draft and no unique index objects. A failure writes nothing. |
| Federation.GoogleVerify | backend/config/passport.js:31-52 | A successful Google callback yields an account holding the requested role, stored under the returned id. A failure writes nothing. |
| Federation.TwitterUserName | backend/config/passport.js:77-78 | The Twitter userName is the handle, else the display name lowercased with whitespace removed. |
| Federation.TwitterVerify | backend/config/passport.js:69-91 | A successful Twitter callback yields an account holding the requested role. A failure writes nothing. |
| Federation.Deserialize | backend/config/passport.js:14-21 | A session key reads back as the stored user with that id, if any. |
| Federation.SessionRoundTrip | backend/config/passport.js:10-21 | The key an account serializes to deserializes to that same account. |
| Federation.GoogleMatchingRoleWritesNothing | backend/config/passport.js:44 | A returning user whose role already matches signs in with no write. |
| Federation.GoogleOverwritesRole | backend/config/passport.js:44-47 | A returning user with any other role, even seller or organizer, is switched to the requested role. Nothing else changes. |
| Federation.GoogleCreatesAccount | backend/config/passport.js:35-43 | A first Google sign-in stores the provider id, the trimmed display name, the first address, the requested role, no password, and the address up to "@" as userName. |
| Federation.GoogleWithoutEmailFails | backend/config/passport.js:40 | A new Google profile without addresses fails before any write. |
| Federation.GoogleDoesNotLinkByEmail | backend/config/passport.js:35 | A local account holding the same address is not linked. The create fails and writes nothing. |
| Federation.UserThenDoctor | backend/config/passport.js:31-52 | Signing in as user and then as doctor keeps one account under the same id, now with the doctor role. |
| Federation.GoogleFindsAgain | backend/config/passport.js:35 | After a successful callback, a lookup by the same provider id finds the same account. |
| Federation.ReconcileFindsAgain | backend/config/passport.js:44-47 | A role change does not change what a role-blind query finds. |
| Federation.TwitterWithoutEmailFails | backend/config/passport.js:80 | A new Twitter profile without an address fails the required email rule and writes nothing. |
| Federation.TwitterCreatesAccount | backend/config/passport.js:74-82 | A first Twitter sign-in stores the handle, or the squeezed display name, as userName, along with the requested role. |
| Guard.ObjectId | backend/middleware/verifyToken.js:18-30 | `req.user._id` is defined exactly for a stored account, not for admin claims. |
| Guard.IdField | backend/middleware/verifyToken.js:18-30 | `req.user.id` is the account's id, or the admin token's id claim. |
| Guard.VerifyToken | backend/middleware/verifyToken.js:7-35 | A missing or non-Bearer header is refused. The only refusal messages are the three fixed texts. A pass means the token decoded, is unexpired and is signed under the access secret's value. A passed account is the stored user its id claim names, and passed admin claims are the token's own. |
| Guard.ThrownErrorsRefused | backend/middleware/verifyToken.js:14-34 | Text that is not a token, another secret's signature, an expired token, or a failed lookup for a non-admin token all get 401 "Invalid or expired token". |
| Guard.TokenIsHeaderTail | backend/middleware/verifyToken.js:14 | The checked token is the header with the "Bearer " prefix removed. |
| Guard.AccessTokenAttachesUser | backend/middleware/verifyToken.js:24-30 | An unexpired access token of a stored user attaches exactly that user. |
| Guard.IssuedTokensAreNotAdmin | backend/middleware/verifyToken.js:18-21 | A token issued for a schema-valid user never takes the admin branch. |
| Guard.RefreshTokenRefused | backend/middleware/verifyToken.js:15-17 | When the two secrets differ, a refresh token is refused as "Invalid or expired token". |
| Guard.SharedSecretAttachesRefreshHolder | backend/middleware/verifyToken.js:14-30 | When the two secrets are equal, a refresh token of a stored user passes the check and attaches that user. |
| Guard.UnknownUserRefused | backend/middleware/verifyToken.js:24-27 | A non-admin token naming no stored user gets "Invalid token - user not found". |
| Bookings.BookSlot | backend/controllers/bookingController.js:6-38 | A missing or unavailable slot gets 400 and no write. For a valid id, 500 comes exactly when the slot is free and either its profile is gone or the caller has no `_id`. The slot is then saved as booked and no booking is added. A missing profile gives the null-dereference error. |
| Bookings.BookSlotAtomic | backend/controllers/bookingController.js:6-38 | It gives the same reply as `bookSlot`, but only a 201 writes anything. |
| Bookings.BookSlotSucceeds | backend/controllers/bookingController.js:10-34 | A valid slot id gets 201 exactly when the slot is free, its doctor's profile exists and the caller is an account. |
| Bookings.MissingProfileOrphansSlot | backend/controllers/bookingController.js:13-20 | On every store, a free slot whose profile is gone gets 500, is saved as booked, and gets no booking. |
| Bookings.BookingConfirmed | backend/controllers/bookingController.js:18-34 | A success creates exactly one booking. It holds the caller, the slot, the slot's doctor, the doctor's fee at that moment and status "confirmed". The reply adds the doctor's name and speciality. |
| Bookings.DoubleBookingRefused | backend/controllers/bookingController.js:10-16 | A second booking of the same slot, by anyone, gets 400 "Slot not available" and writes nothing. |
| Bookings.BookedSlotNotListed | backend/controllers/slotController.js:23 | A booked slot disappears from its doctor's free slots. |
| Bookings.BookingKeepsSlotsBooked | backend/controllers/bookingController.js:15-16 | `isBooked` only ever goes from false to true. |
| Bookings.GetUserBookings | backend/controllers/bookingController.js:41-50 | It lists exactly the caller's bookings, in insertion order, with doctor and slot looked up. An admin caller gets none. |
| Bookings.BookedThenListed | backend/controllers/bookingController.js:41-50 | A confirmed booking shows up in its owner's list. |
| Slots.Stamped | backend/controllers/slotController.js:13 | Every submitted item gets the caller's profile as doctorId, whatever it carried. The batch is accepted only if every item validates. |
| Slots.AddSlots | backend/controllers/slotController.js:5-18 | A missing or non-array `slots` gets 400 and a caller without a profile gets 404, both with no write. The batch gets 500 with the validation error, and writes nothing, exactly when some item fails validation. Only slots and the id counter change. |
| Slots.BadDateRefused | backend/controllers/slotController.js:13-16 | One item whose date does not cast to a Date makes the whole batch fail with the validation error, and nothing is written. |
| Slots.AddSlotsCreates | backend/controllers/slotController.js:13-14 | A success creates one slot per item, under the reported ids. Each slot is owned by the caller's profile and keeps the item's date and times. |
| Slots.AddNoSlots | backend/controllers/slotController.js:8-14 | An empty array is accepted and creates nothing. |
| Slots.AddSlotsKeepsExisting | backend/controllers/slotController.js:13 | Existing slots are never changed. |
| Slots.GetSlotsByDoctor | backend/controllers/slotController.js:21-28 | It returns exactly the free slots of that profile. A malformed id makes the query throw. |
| Doctors.ProfileOf | backend/controllers/doctorController.js:8 | The found profile is owned by the caller. Finding none means the caller owns none. |
| Doctors.AddOrUpdateDoctorInfo | backend/controllers/doctorController.js:5-22 | An existing profile is overwritten with 200 "Doctor info updated". Otherwise one is created with 201 "Doctor info added". A failed save gets 500 with the error and writes nothing. The error is a cast error exactly when experience or feePerHour fails the Number cast. |
| Doctors.WordyExperienceRefused | backend/controllers/doctorController.js:7-21 | Experience sent as text like "15 years" gets 500 with the cast error, and nothing is written. |
| Doctors.PointFeeStored | backend/controllers/doctorController.js:7-17 | A fee sent as text like "49.5" is stored as its exact value, fraction included. |
| Doctors.WholeExperienceStored | backend/controllers/doctorController.js:7-17 | Experience sent as the text of a whole number is stored as that number. |
| Doctors.ListDoctors | backend/controllers/doctorController.js:25-32 | It returns every stored profile and nothing else. |
| Doctors.SaveKeepsOneProfilePerUser | backend/controllers/doctorController.js:8-18 | Saving never gives an account a second profile. |
| Doctors.SubmitTwiceKeepsOneProfile | backend/controllers/doctorController.js:8-18 | Two identical calls leave exactly one profile, holding those fields. |
| Doctors.UpdateLeavesBookings | backend/controllers/doctorController.js:10-14 | A profile update leaves bookings, and so their copied fees, untouched. |
| Intake.FormOf | backend/controllers/userInfoController.js:12 | The found form belongs to the caller. Finding none means the caller has none. |
| Intake.AnswersIn | backend/controllers/userInfoController.js:6-31 | The answers hold the cast age and the four given texts. There are none exactly when the age does not cast, and then the cast reports an error. |
| Intake.SubmitUserForm | backend/controllers/userInfoController.js:3-39 | A falsy field gets 400. A zero age and an empty text are falsy, but the text "0" is not. An existing form is replaced with 200, otherwise one is created with 201. A failed save (an age that does not cast, a value the schema refuses, a caller without an id) gets 500 with "Server error" and the error beside it, and writes nothing. |
| Intake.GetUserForm | backend/controllers/userInfoController.js:41-55 | It returns the caller's form with 200, or 404 "Form not found for this user" when there is none. |
| Intake.ReviseKeepsOneFormPerUser | backend/controllers/userInfoController.js:14-22 | Replacing a form's answers keeps one form per user. |
| Intake.AddKeepsOneFormPerUser | backend/controllers/userInfoController.js:23-34 | Creating a form for a user without one keeps one form per user. |
| Intake.SubmitKeepsOneFormPerUser | backend/controllers/userInfoController.js:12-34 | Sequential submissions never give a user a second form. |
| Intake.FormFoundAfterInsert | backend/controllers/userInfoController.js:23-34 | A newly created form is the one found for its owner. |
| Intake.SubmitThenGet | backend/controllers/userInfoController.js:41-55 | What a submission stores is what `getUserForm` returns afterwards. |
| Intake.WholeAgeStored | backend/models/userInfoModel.js:11-16 | An age typed as a whole number is stored as that number, and is accepted only within 1..120. |
| Intake.FractionalAgePassesStepperOnly | frontend/src/components/forms/StepperForm.jsx:73-78 | For an age such as "120.5", the questionnaire judges only the whole part. The server stores the exact value, which is larger, so "120.5" passes the questionnaire and the server refuses it with 500. |
| Emotion.ParseKeys | backend/controllers/emotionController.js:4-6 | The key list is empty exactly when the setting is unset or empty. Otherwise it holds the comma-free pieces that join back to the setting. |
| Emotion.NextKey | backend/controllers/emotionController.js:9-13 | A key is handed out exactly when the index is inside the list, and the index stays inside. On an empty list the index becomes NaN. |
| Emotion.StepInRange | backend/controllers/emotionController.js:11 | The index moves to the next position, or wraps to 0 after the last. |
| Emotion.DrawSplit | backend/controllers/emotionController.js:9-13 | Drawing a + b keys is drawing a keys and then b more. |
| Emotion.Draw | backend/controllers/emotionController.js:9-13 | `n` calls in a row hand out `n` keys, one per call. |
| Emotion.DrawRun | backend/controllers/emotionController.js:9-13 | Until the end of the list, calls hand out keys in list order. |
| Emotion.RunToEnd | backend/controllers/emotionController.js:9-13 | Drawing from the index to the end hands out that suffix, then the index is back at 0. |
| Emotion.RunFromStart | backend/controllers/emotionController.js:9-13 | Drawing from index 0 hands out the keys in list order. |
| Emotion.EveryKeyOnce | backend/controllers/emotionController.js:9-13 | n calls on n keys hand out every key exactly once, from the current one round the list, and restore the index. |
| Emotion.NoKeys | backend/controllers/emotionController.js:9-13 | With no keys, every call hands out an undefined key. |
| Emotion.AnalyzeEmotion | backend/controllers/emotionController.js:24-72 | The file is checked before the caller, and the index moves only after both checks. Every later failure is 500 with no write. A 200 stores one analysis. |
| Emotion.AnalysisStored | backend/controllers/emotionController.js:47-58 | The trimmed answer is stored exactly when it is one of the seven words, with the caller and the picture. Otherwise the reply is 500. |
| Emotion.PromptMatchesSchema | backend/controllers/emotionController.js:39-40 | The words the prompt allows are exactly the words the schema accepts. |
| Upload.Extension | backend/middleware/uploadMemory.js:7 | The extension is the segment after the first "/". It is absent without a "/", and stays empty for an empty mimetype. |
| Upload.FileFilter | backend/middleware/uploadMemory.js:5-10 | A missing or empty mimetype is rejected with the type error, and only a slashed mimetype can pass. |
| Upload.Receive | backend/middleware/uploadMemory.js:5-14 | A file is received exactly when the filter accepts it and it is at most 2 MiB. |
| Upload.UndefinedNotAdmitted | backend/middleware/uploadMemory.js:7-8 | The text an absent extension reads as is not an image type. |
| Upload.ExtensionIsSecondSegment | backend/middleware/uploadMemory.js:7 | For `a/e` or `a/e/…`, the extension is `e`. |
| Upload.NoSlashRejected | backend/middleware/uploadMemory.js:7-9 | A mimetype without "/" is rejected. |
| Upload.FilterAcceptsExactly | backend/middleware/uploadMemory.js:6-9 | `a/e` passes exactly when `e` contains jpeg, jpg or png anywhere. |
| Upload.SizeBoundary | backend/middleware/uploadMemory.js:14 | 2097152 bytes are accepted, and one byte more is refused. |
| Validators.Instances | backend/middleware/validate.js:4 | A field rule selects one value. A wildcard rule selects, in order, one value per array element or per object property, each named by its position or property name. It selects nothing in a scalar. |
| Validators.Failing | backend/middleware/validate.js:4 | Every check of a chain runs. A value has no failure exactly when it passes every check. |
| Validators.RunOn | backend/middleware/validate.js:4 | A rule fails nowhere exactly when every selected value is absent-and-optional or passes. |
| Validators.RunRule | backend/middleware/validate.js:4 | A rule reports no failure exactly when it holds of the request. |
| Validators.RunAll | backend/middleware/validate.js:4-5 | No failure is collected exactly when every rule holds. |
| Validators.Validate | backend/middleware/validate.js:3-10 | The request passes to `next` exactly when every rule holds, wildcards reaching array elements and object properties alike. Otherwise the reply is 422 "Validation failed" with the full failure list. |
| Validators.RejectionListsFailedChecks | backend/middleware/validate.js:7 | Every listed failure names a check that its value does not pass. |
| Validators.OneCheckRule | backend/middleware/validate.js:4 | A one-check rule holds when the value is absent and optional, or when the check passes. |
| Validators.TextRule | backend/utils/validators.js:4 | A bounded string rule holds exactly for a string whose length is within the bounds. |
| Validators.EachRule | backend/utils/validators.js:9 | A wildcard rule holds exactly when every element of an array, or every property value of an object, is absent-and-optional or passes. It always holds of a scalar. |
| Validators.MemberRule | backend/utils/validators.js:36-37 | A member rule holds exactly when the member of every array element, or of every object property value, passes. It always holds of a scalar. |
| Validators.FilledRule | backend/utils/validators.js:41-43 | `isString().notEmpty()` holds exactly for a non-empty string. |
| Validators.AllHoldEach | backend/middleware/validate.js:4 | A rule set holds exactly when each of its rules holds. |
| Validators.AllHoldConcat | backend/middleware/validate.js:4 | Two concatenated rule sets hold exactly when each does. |
| Validators.ProductFieldsAccept | backend/utils/validators.js:6-10 | The optional product fields hold exactly when description ≤ 2000, category ≤ 120, images are URLs and stock is an integer ≥ 0. |
| Validators.ProductCreateAccepts | backend/utils/validators.js:3-11 | Product creation passes exactly for a 2..120 character name, a price above 0 and valid optional fields. |
| Validators.ProductUpdateAccepts | backend/utils/validators.js:13-22 | A product update passes exactly for a Mongo id and every body field optional with the creation bounds. |
| Validators.PaginationAccepts | backend/utils/validators.js:24-27 | Pagination passes exactly for page ≥ 1 and limit in 1..100, each optional. |
| Validators.CartAddAccepts | backend/utils/validators.js:29-32 | Adding to the cart passes exactly for a Mongo product id and an integer quantity ≥ 1. |
| Validators.CartUpdateAccepts | backend/utils/validators.js:34-38 | A cart update passes exactly for a non-empty item array whose items have a Mongo id and an integer quantity ≥ 0. |
| Validators.PaymentVerifyAccepts | backend/utils/validators.js:40-45 | Payment verification passes exactly for three non-empty razorpay strings and a Mongo order id. |
| Validators.LimitBoundary | backend/utils/validators.js:26 | A limit of "100" passes, and "101" and 0 do not. |
| Validators.ObjectItemsReported | backend/utils/validators.js:34-38 | A cart update whose `items` is the object `{a: {quantity: -1}}` gets three failures: `items` is not an array, and `items.a.productId` and `items.a.quantity` fail. |
| Validators.CartQuantityZero | backend/utils/validators.js:35-37 | A cart update may set quantity 0, but may not send an empty list. |
| Errors.NotFound | backend/middleware/errorHandler.js:1-3 | A request that reaches `notFound` gets 404 "Route not found". The server never mounts it (`Routes.UnmatchedMissesNotFound`). |
| Errors.OrElse | backend/middleware/errorHandler.js:7 | `code \|\| fallback` is the code when it is present and non-zero, and the fallback otherwise. |
| Errors.ErrorHandler | backend/middleware/errorHandler.js:5-13 | The status is statusCode, else 500. The message is generic in production, else the error's own, falling back when empty. |
| Errors.InlineHandler | backend/index.js:59-64 | The status is `err.status \|\| 500` and the message is `err.message \|\| "Internal Server Error"`. |
| Errors.ProductionHidesMessage | backend/middleware/errorHandler.js:8-10 | In production, errors with the same status get identical replies. |
| Errors.ServerErrorByDefault | backend/middleware/errorHandler.js:7 | A status other than 500 requires a non-zero statusCode on the error. |
| Errors.HandlersDisagree | backend/index.js:59-64 | A statusCode-404 error is a 404 for `errorHandler` but a 500 for the inline handler. |
| Routes.ListenPort | backend/index.js:22 | The port is the configured text, or 7000 when unset or empty. |
| Routes.FirstMatch | backend/index.js:51-56 | The search returns the earliest matching entry from the start position, or none when nothing matches. |
| Routes.FirstMatchIsEarliest | backend/index.js:51-56 | A matching entry with no earlier match is the answer. |
| Routes.Dispatch | backend/index.js:51-56 | A request is answered by the first matching route in mount order, and by none exactly when no route matches. |
| Routes.Serve | backend/index.js:51-64 | A request is answered by a route exactly when one matches. Otherwise the answer is a 404 from Express itself. |
| Routes.DefaultNotFound | backend/index.js:51-56 | With no route matching after the last mount, Express answers 404 with the text "Cannot <METHOD> <path>". |
| Routes.UnmatchedMissesNotFound | backend/index.js:51-64 | An unmatched request gets a 404, but never the "Route not found" reply of `notFound`, which the server does not mount. |
| Routes.OutsideMountsUnmatched | backend/index.js:51-56 | Every request outside /auth and /api is unmatched and gets Express's "Cannot <method> <path>" 404. |
| Routes.Prefixes | backend/index.js:51-56 | The table has 17 entries: eight under /auth, then nine under /api. |
| Routes.PostAddAnsweredByAddSlots | backend/routes/slotRoutes.js:7 | `POST /api/add` always reaches `addSlots`, behind the token check only. |
| Routes.SingleSegmentGetIsSlotLookup | backend/routes/slotRoutes.js:8 | Every single-segment `GET /api/<x>` reaches the unguarded `getSlotsByDoctor`. |
| Routes.ShadowedRoutesNeverAnswer | backend/index.js:52-56 | The my-bookings, me, getDoctor and doctor-add routes never answer any request. |
| Routes.BookReachable | backend/routes/bookingRoutes.js:7 | `POST /api/book` reaches `bookSlot` behind the token check. |
| Routes.SubmitReachable | backend/routes/userInfoRoutes.js:7 | `POST /api/submit` reaches `submitUserForm` behind the token check. |
| Routes.AnalyzeReachable | backend/routes/emotionRoutes.js:10 | `POST /api/analyze` runs the token check, the user-role check and the unfiltered file parser, in that order. |
| Routes.TokenCheckedBeforeFile | backend/routes/emotionRoutes.js:8-10 | Every file parser in the table comes after a token check and applies no type filter. |
| Routes.AuthAnswer | backend/routes/authRoutes.js:7-57 | An /auth request is answered by the first auth route that matches. |
| Routes.GoogleStates | backend/routes/authRoutes.js:11-25 | The Google entry points send state "user" and "doctor". |
| Routes.TwitterStates | backend/routes/authRoutes.js:35-49 | The Twitter entry points send state "user" and "doctor". |
| Routes.OAuthCallbacks | backend/routes/authRoutes.js:27-57 | Both callbacks authenticate without a session and redirect successes to "/dashboard". Each is configured with failureRedirect "/signin", which only a strategy `fail()` reaches. |
| Routes.CallbackEnd | backend/config/passport.js:48-50 | A signed-in user reaches the callback's redirect. An error passed to `done(err, null)` is answered by the inline handler with 500, not redirected. |
| Routes.VerifyErrorsAnswer500 | backend/config/passport.js:31-90 | Whenever Google's or Twitter's verify step fails, the callback answers 500. Whenever it signs a user in, the callback redirects to "/dashboard". |
| Routes.GoogleWithoutEmailAnswers500 | backend/config/passport.js:35-50 | A first Google sign-in without an address ends in a 500 rather than at "/signin". |
| Routes.CredentialsUnguarded | backend/routes/authRoutes.js:7-9 | Signup and signin have no token check. |
| Screening.SubmissionHasNoRoute | frontend/src/components/pages/StepperForm.jsx:134-138 | No route answers `POST /api/phq9`, where the screening submits. |
| IntakeStepper.UndefinedIsNaN | frontend/src/components/forms/StepperForm.jsx:77 | `parseInt(undefined)` is NaN. |
| IntakeStepper.Next | frontend/src/components/forms/StepperForm.jsx:87-91 | The step advances by one exactly when it is not the last step and the answer allows it. Otherwise nothing changes. |
| IntakeStepper.Prev | frontend/src/components/forms/StepperForm.jsx:93-97 | The step goes back only above 0, so it stays within the five steps. |
| IntakeStepper.SetAnswer | frontend/src/components/forms/StepperForm.jsx:83-85 | Only the given key changes. |
| IntakeStepper.StartSubmit | frontend/src/components/forms/StepperForm.jsx:99-119 | Given no token or an empty one, the page shows the fixed error and sends nothing. Otherwise the answers are posted with a bearer header and the form stays in submission. |
| IntakeStepper.ScriptCookie | frontend/src/components/forms/StepperForm.jsx:104 | `Cookies.get` finds a value exactly when some cookie of that name is visible to scripts. An httpOnly cookie never is. |
| IntakeStepper.SubmitFromCookie | frontend/src/components/forms/StepperForm.jsx:104-110 | As written, the page posts only if a script-visible "token" cookie exists. Otherwise it stops with the fixed error. |
| IntakeStepper.ServerCookieNeverFound | backend/controllers/auth.js:67-72 | The server's only "token" cookie is httpOnly, so the page as written never finds a token and never posts the answers. |
| IntakeStepper.SubmitFromStorage | frontend/src/components/forms/Login.jsx:40 | Reading the token from local storage, where sign-in keeps it: the answers are posted exactly when a non-empty token is stored, with that token in the bearer header. |
| IntakeStepper.LoginThenSubmitSends | frontend/src/components/forms/Login.jsx:38-41 | After a successful sign-in, the corrected submit posts the answers with the token the server returned. |
| IntakeStepper.SignupThenSubmitSends | frontend/src/components/forms/SignUp.jsx:53-56 | After a successful sign-up it does the same. |
| IntakeStepper.FinishSubmit | frontend/src/components/forms/StepperForm.jsx:121-136 | Success navigates to the dashboard. A refusal shows the server message or "Failed to submit form.". Submitting always ends. |
| IntakeStepper.AgePrefix | frontend/src/components/forms/StepperForm.jsx:76-79 | The age step passes exactly when the input starts with a number in 1..120, so "25abc" passes. |
| IntakeStepper.AgeMissing | frontend/src/components/forms/StepperForm.jsx:75-78 | An unanswered age never passes. |
| IntakeStepper.WalkReachesLast | frontend/src/components/forms/StepperForm.jsx:87-91 | With every step answerable, repeated Next reaches the last step, where Submit shows. |
| IntakeStepper.PrevUndoesNext | frontend/src/components/forms/StepperForm.jsx:87-97 | Back undoes a Next that moved. |
| IntakeStepper.CanProceed | frontend/src/components/forms/StepperForm.jsx:73-81 | A step passes only with a stored, non-empty answer. On the age step that answer must read as an integer from 1 to 120. |
| IntakeStepper.Progress | frontend/src/components/forms/StepperForm.jsx:248 | The percentage is (current + 1) / count × 100 rounded to the nearest integer, halves up. It is at most 100, and exactly 100 on the last step. |
| IntakeStepper.ProgressSteps | frontend/src/components/forms/StepperForm.jsx:248 | Progress is 20% per step, and 100% exactly on the last step. |
| IntakeStepper.OptionsWithinSchema | frontend/src/components/forms/StepperForm.jsx:43-65 | Every offered option is one the stored form's schema accepts. |
| IntakeStepper.NonBinaryNotOffered | frontend/src/components/forms/StepperForm.jsx:43-47 | The schema accepts "non-binary", but the form never offers it. |
| Screening.Select | frontend/src/components/pages/StepperForm.jsx:107-109 | Choosing an option records it for the current question only and lets the form proceed. |
| Screening.Next | frontend/src/components/pages/StepperForm.jsx:111-115 | It moves forward only from an answered question that is not the last. |
| Screening.Prev | frontend/src/components/pages/StepperForm.jsx:116-118 | It moves back only above the first question. |
| Screening.Payload | frontend/src/components/pages/StepperForm.jsx:126-129 | There is one entry per question, in order, with its title and its answer or null. |
| Screening.Submit | frontend/src/components/pages/StepperForm.jsx:120-131 | Loading starts and the payload of the current answers is posted. |
| Screening.Toast | frontend/src/components/pages/StepperForm.jsx:141-146 | The toast is the success text, or "Error: " with the server message or "Submission failed". |
| Screening.ZeroCounts | frontend/src/components/pages/StepperForm.jsx:104 | Answer 0 lets the form proceed and is sent as 0, not null. |
| Screening.UnansweredLastIsSentAsNull | frontend/src/components/pages/StepperForm.jsx:188-198 | Submit is enabled on an unanswered last question, which is then sent as null. |
| Screening.StepStaysInRange | frontend/src/components/pages/StepperForm.jsx:111-118 | Any run of Next and Back keeps the step in 0..3. |
| Mood.SelectEmoji | frontend/src/components/moodtracker/MoodTracker.jsx:83-99 | The gauges and the selection take the emoji's values. The history keeps its length and every day but the last. The last day keeps its name and takes the emoji's scores. |
| Mood.Reset | frontend/src/components/moodtracker/MoodTracker.jsx:109-115 | Reset restores 35, 30 and 3.9, no selection, and the sample week. |
| Mood.ToggleCollapsed | frontend/src/components/moodtracker/MoodTracker.jsx:166 | The toggle flips the sidebar flag only. |
| Mood.SelectIdempotent | frontend/src/components/moodtracker/MoodTracker.jsx:83-99 | Choosing the same emoji twice is choosing it once. |
| Mood.LastChoiceWins | frontend/src/components/moodtracker/MoodTracker.jsx:83-99 | Of two choices, the second wins. |
| Mood.SelectMakesConsistent | frontend/src/components/moodtracker/MoodTracker.jsx:89-99 | After a choice the gauges agree with the last day. The initial page does not agree. |
| Mood.ResetForgets | frontend/src/components/moodtracker/MoodTracker.jsx:109-115 | Reset forgets every choice. |
| Mood.ToggleSwapsWidth | frontend/src/components/moodtracker/MoodTracker.jsx:126-166 | On every page state the collapse button moves the sidebar to the other of the two widths, 64 px and 256 px, and a second press restores the page. |
| Player.FormatTime | frontend/src/components/MusicTherapyPage.jsx/MusdicTherapyPage.jsx:161-165 | The digits before the colon read as the whole minutes, and the two digits after it as the leftover seconds. `FormatReadsBack` proves the label reads back as the input. |
| Player.FormatReadsBack | frontend/src/components/MusicTherapyPage.jsx/MusdicTherapyPage.jsx:161-165 | Reading `formatTime(s)` back as minutes and two-digit seconds gives s. |
| Player.PaddedValue | frontend/src/components/MusicTherapyPage.jsx/MusdicTherapyPage.jsx:164 | Seconds below 100 pad to two digits with the same value. |
| Player.Tick | frontend/src/components/MusicTherapyPage.jsx/MusdicTherapyPage.jsx:168-175 | A tick adds one second exactly while playing and before the end. It never passes the duration. |
| Player.TicksStopAtEnd | frontend/src/components/MusicTherapyPage.jsx/MusdicTherapyPage.jsx:168-175 | k ticks while playing advance by k, capped at the duration. |
| Player.PausedTicksStill | frontend/src/components/MusicTherapyPage.jsx/MusdicTherapyPage.jsx:168-175 | Ticks while paused change nothing. |
| Player.Seek | frontend/src/components/MusicTherapyPage.jsx/MusdicTherapyPage.jsx:295 | Seeking sets the time within the track and nothing else. |
| Player.TogglePlay | frontend/src/components/MusicTherapyPage.jsx/MusdicTherapyPage.jsx:317 | The play toggle flips the playing flag only. |
| Player.ToggleLike | frontend/src/components/MusicTherapyPage.jsx/MusdicTherapyPage.jsx:337 | The like toggle flips the liked flag only. |
| Seller.ReadSign | frontend/src/components/sections/Seller/SellerPage.jsx:189 | Whitespace-only text reads as 0 for `Number(text) <= 0`. |
| Seller.ReadSignIsSignOfNumber | frontend/src/components/sections/Seller/SellerPage.jsx:189 | `ReadSign` is NaN exactly when `Number` reads nothing, and otherwise it is the sign of the number read. |
| Text.NumberOfWhole | frontend/src/components/sections/Seller/SellerPage.jsx:189 | `Number` reads the decimal notation of a whole number as that number. |
| Text.NumberOfDecimal | backend/models/userInfoModel.js:11-12 | `Number` reads digits, a point and more digits as the exact value they write. |
| Text.NumberOfFractionAbove | backend/models/userInfoModel.js:11-15 | A non-zero fraction after a whole number reads as more than that number. |
| Text.DecimalTextZero | frontend/src/components/sections/Seller/SellerPage.jsx:189 | Plain decimal notation reads as 0 exactly when every digit in it is 0. |
| Seller.ReadSignUnpadded | frontend/src/components/sections/Seller/SellerPage.jsx:189 | On unpadded text, the sign is read from the sign character and the digits. |
| Seller.ValidateForm | frontend/src/components/sections/Seller/SellerPage.jsx:185-198 | The form is valid exactly when no key fails. The error object holds exactly the failing keys, each with its message. |
| Seller.DecimalIsPlain | frontend/src/components/sections/Seller/SellerPage.jsx:189 | A whole number's notation is plain decimal text. |
| Seller.PriceSigns | frontend/src/components/sections/Seller/SellerPage.jsx:189-190 | A positive whole price passes, and 0 is flagged. |
| Seller.NegativePrice | frontend/src/components/sections/Seller/SellerPage.jsx:189-190 | A negative price is flagged. |
| Seller.NoDigitsNotFlagged | frontend/src/components/sections/Seller/SellerPage.jsx:189-190 | Non-blank text without digits reads as NaN and is not flagged. |
| Seller.ImagesOnlyWhenAdding | frontend/src/components/sections/Seller/SellerPage.jsx:194-195 | Images are required only when adding. |
| Seller.EmptyFormFailsEverywhere | frontend/src/components/sections/Seller/SellerPage.jsx:185-198 | The empty form gets an error under every key when adding. |
| Seller.Insert | frontend/src/components/sections/Seller/SellerPage.jsx:181 | Insertion adds one product and keeps the others. |
| Seller.InsertKeepsOrder | frontend/src/components/sections/Seller/SellerPage.jsx:181 | Insertion keeps the list ordered by sales. |
| Seller.SortBySales | frontend/src/components/sections/Seller/SellerPage.jsx:181 | The sorted copy is a permutation of the products. |
| Seller.InsertAmongEqual | frontend/src/components/sections/Seller/SellerPage.jsx:181 | An inserted product goes ahead of every product with equal sales and passes only products that sold more. |
| Seller.SortIsStable | frontend/src/components/sections/Seller/SellerPage.jsx:181 | The sort is stable: for every sales figure, the products with that figure keep their relative order. |
| Seller.SortedBySales | frontend/src/components/sections/Seller/SellerPage.jsx:181 | The sorted copy is in non-increasing order of sales, missing counts as 0. |
| Seller.TopSellers | frontend/src/components/sections/Seller/SellerPage.jsx:180-182 | The top sellers are at most three of the products. |
| Seller.TopSellersAreTop | frontend/src/components/sections/Seller/SellerPage.jsx:180-182 | The top sellers are ordered by sales and are the front of the sorted copy. |
| Seller.Orders | frontend/src/components/sections/Seller/SellerPage.jsx:154 | The order total is at least each product's sales. It is 0 exactly when no product has sold. |
| Seller.OrdersAppend | frontend/src/components/sections/Seller/SellerPage.jsx:154 | The order total adds up over concatenation. |
| Seller.TopSellersWithinOrders | frontend/src/components/sections/Seller/SellerPage.jsx:154 | Sorting keeps the order total, and the top sellers account for at most all of it. |
| Seller.RemoveId | frontend/src/components/sections/Seller/SellerPage.jsx:268 | It removes exactly the products with the pending id. |
| Seller.RemoveIdAppend | frontend/src/components/sections/Seller/SellerPage.jsx:268 | The survivors keep their order. |
| Seller.RemoveIdAbsent | frontend/src/components/sections/Seller/SellerPage.jsx:268 | Without the id, the list is unchanged. |
| Seller.AskDelete | frontend/src/components/sections/Seller/SellerPage.jsx:260-263 | It remembers the id and opens the dialog. |
| Seller.ConfirmDelete | frontend/src/components/sections/Seller/SellerPage.jsx:265-275 | Success removes the pending id's products, and failure sets the error. The dialog always closes and the pending id clears. |
| Seller.Find | frontend/src/components/sections/Seller/SellerPage.jsx:245 | It finds the first product with the id, or none. |
| Seller.Edit | frontend/src/components/sections/Seller/SellerPage.jsx:244-258 | An unknown id changes nothing. A known one loads the first match and opens the form for editing. |
| Seller.EditLoadsFirstMatch | frontend/src/components/sections/Seller/SellerPage.jsx:244-254 | Editing loads the match's fields. A product without a description cannot be resubmitted as is. |
| Blog.NewPost | frontend/src/components/pages/BlogPage.jsx:162-173 | A new post is by "You", holds the untrimmed draft, and starts with 0 likes, 0 comments and 1 view. |
| Blog.AddNewPost | frontend/src/components/pages/BlogPage.jsx:266 | The post goes in front, and the feed follows in order. |
| Blog.Publish | frontend/src/components/pages/BlogPage.jsx:160-174 | A blank draft changes nothing. Otherwise the draft is posted in front and cleared. |
| Blog.PublishAllPrepends | frontend/src/components/pages/BlogPage.jsx:160-174 | Posting several drafts puts them in front, newest first, with the old feed behind. |
| Blog.PublishAll | frontend/src/components/pages/BlogPage.jsx:160-174 | Each draft adds at most one post, always in front, so the old feed stays at the back in its order. |
| Blog.NewestFirstAt | frontend/src/components/pages/BlogPage.jsx:266 | The i-th post from the front comes from the i-th draft from the end. |
| Blog.BlankDraftIgnored | frontend/src/components/pages/BlogPage.jsx:161 | A blank draft never changes the feed. |
| Blog.FormatCount | frontend/src/components/pages/BlogPage.jsx:31-34 | Below 1000 a count is shown as it is. |
| Chat.StartSend | frontend/src/components/AIInput/AiRender.jsx:118-134 | A blank input or a send in flight changes nothing. Otherwise the trimmed text is appended as the user's message and posted. |
| Chat.Send | frontend/src/components/AIInput/AiRender.jsx:118-150 | A blank input or a send in flight changes nothing. Otherwise the trimmed question and then the answer are appended, loading ends and the input is cleared. |
| Chat.BotText | frontend/src/components/AIInput/AiRender.jsx:137-146 | The bot text is the answer, or the fixed apology matching how the request ended. It is never empty. |
| Chat.FinishSend | frontend/src/components/AIInput/AiRender.jsx:140-149 | One bot message is appended, loading ends and the input clears. |
| Chat.SendKeepsAlternation | frontend/src/components/AIInput/AiRender.jsx:118-149 | A send appends the question and one answer, so the log keeps alternating user, bot. |
| Chat.IgnoredSend | frontend/src/components/AIInput/AiRender.jsx:120 | An ignored send leaves the page exactly as it was. |
| Chat.ConversationLength | frontend/src/components/AIInput/AiRender.jsx:118-149 | n questions add 2n messages, and the log keeps alternating. |
| Accounts.ChangeSignup | frontend/src/components/forms/SignUp.jsx:20-22 | An edit sets the named input only. |
| Accounts.SubmitSignup | frontend/src/components/forms/SignUp.jsx:27-51 | An empty input stops with "Please fill in all fields", and different passwords stop with "Passwords do not match". Otherwise the whole form, role included, is sent. |
| Accounts.RoleStaysUser | frontend/src/components/forms/SignUp.jsx:13 | Whatever the user types, the role stays "user". |
| Accounts.SentSignupPassesServerChecks | frontend/src/components/forms/SignUp.jsx:27-51 | A body the form sends clears the server's presence and password checks. |
| Accounts.ServerMessageOr | frontend/src/components/forms/SignUp.jsx:62 | The server's message is shown when it is non-empty, else the fallback. |
| Accounts.FinishSignup | frontend/src/components/forms/SignUp.jsx:55-62 | Success stores the token and user and navigates. Failure shows the server message or "Something went wrong". |
| Accounts.ChangeLogin | frontend/src/components/forms/Login.jsx:15-18 | An edit sets the input and takes down any banner. |
| Accounts.SubmitLogin | frontend/src/components/forms/Login.jsx:20-37 | Error and banner are cleared first. An empty input stops with "Please fill in both fields.". Otherwise both inputs are sent. |
| Accounts.FinishLogin | frontend/src/components/forms/Login.jsx:38-53 | Success stores the token and user and shows the server's message or "Login successful". Failure shows the server's message or "Invalid credentials. Please try again.". Loading ends. |
| Accounts.SentLoginPassesServerCheck | frontend/src/components/forms/Login.jsx:25-37 | A body the login form sends never draws the server's blank-field refusal. |
| Accounts.FailureBannerClearedByEditing | frontend/src/components/forms/Login.jsx:15-51 | A failed login leaves a banner, and editing either input takes it down. |

## Left out

- Concurrency: requests are modelled one at a time. The check-then-write race in `bookSlot` between two simultaneous requests is not modelled.
- Password hashing and comparison are function parameters of `Auth.Signup` and `Auth.Signin`. JWT signing is symbolic (`Tokens.Jwt`), and expiry is a boolean parameter.
- The OAuth handshakes, PKCE and the provider redirects are not modelled. Routes record only the `state` value, the session flag and the redirect targets.
- The hosted language model is a parameter of `Emotion.AnalyzeEmotion`. Its text answer, or its failure, is an input.
- Emotion.AnalyzeEmotion: the image bytes are kept as an opaque upload value. The base64 encoding of the inline part is not modelled.
- Store failures other than validation, casting and null dereferences are not modelled. Timestamps, `populate` beyond a lookup by id, and connection handling are not modelled either.
- Doctors.ProfileOf: an admin caller has no `_id`, so the filter is on an undefined value. The model chooses to let it match nothing. Mongoose documents the opposite reading: `findOne({ _id: undefined })` is equivalent to `findOne({})` and returns an arbitrary document. The model does not cover that case.
- Intake.FormOf: the same choice for an undefined `req.user.id`.
- verifyRole is not part of this model. It appears in the route table as a named stage only.
- `isMongoId` and `isURL` are opaque predicates of the `Validators.Library` parameter.
- Validators: `isFloat` and `isInt` read decimal text without exponents or hexadecimal forms.
- Validators.Instances: an object's properties are taken in the order the value lists them. The model does not move integer-like keys to the front, as `Object.keys` does. A wildcard's path is kept as its segment, a position or a property name, not spelled out as express-validator's path text.
- Routes.CallbackEnd: the error passed to `done` is assumed to carry no `status`, as the store's and the runtime's errors do not. Its message text is a parameter.
- Routes.Dispatch: case-insensitive matching and trailing-slash tolerance of Express are not modelled. Paths are compared segment by segment exactly.
- Seller.ReadSign: `Number()` is modelled for plain decimal text with an optional sign (`Text.NumberOf`). Exponent notation, hexadecimal and "Infinity" read as NaN here. So "-1e5" and "-Infinity" are not flagged by the model, although the page flags them.
- Text.NumberOf: reads plain decimal notation only, as an exact rational. Exponents, hexadecimal, "Infinity" and binary floating-point rounding are not modelled.
- Text.Lower: folds the capitals of ASCII, Latin-1, basic Greek and basic Cyrillic. Σ is kept as it is, because `toLowerCase` gives σ or ς depending on where it stands in the word. Other capitals are kept: Latin Extended, accented Greek, other scripts, and İ, which lowercases to two characters.
- Models.NewUser: the lowercased email and userName are those of `Text.Lower`, so capitals it does not fold stay as typed.
- Auth.SignupTwiceRefused: "in any letter case" means the capitals `Text.Lower` folds.
- Federation.TwitterUserName: the display name is lowercased by `Text.Lower`, with its limits.
- Auth.Signup: JSON body fields are strings or absent. A non-string userName or email, which makes `toLowerCase` throw, is not modelled.
- Intake.SubmitUserForm: the age is a JSON number or a string, and the other fields are strings. Booleans, arrays and objects are not modelled. Numbers are exact rationals, and `Number` on strings has the limits of `Text.NumberOf`.
- Models.CastNumber: `Number` on text has the limits of `Text.NumberOf`, so exponent, hexadecimal and "Infinity" texts are cast errors here. Booleans, arrays and objects sent for a Number path are not modelled. Mongoose reports a failed cast inside its validation error; the model names that fault `CastFailure`.
- `notFound` and `errorHandler` are modelled as written, but index.js mounts neither. Handler errors reach the inline handler, and unmatched requests reach Express's own 404 (`Routes.Serve`).
- Routes.DefaultNotFound: Express sends its 404 text inside a small HTML page. Only the text is modelled.
- Models.NewSlot: whether a date string casts to a Date is the `isDate` parameter. The Date parser itself is not modelled.
- Seller: revenue, average price, the random visitor count and the random chart data are left out. They are floating point and randomness.
- Seller: `handleSubmit` (the create and update requests) and the fetch on view change are network plumbing and are not modelled.
- Blog.FormatCount: for 1000 and above only the branch is modelled. The `toFixed(1)` text with "k" is not spelled out.
- Mood: scores are kept in tenths (3.9 is 39). This represents every value the page uses exactly. The mobile drawer and the DOM feedback animation are not modelled.
- Player: the volume slider and the progress-bar percentage are floating point and are left out.
- IntakeStepper.Progress: `Math.round` is modelled on exact rationals with halves rounded up. This agrees with the five values the page can show.
- Screening: the payload's placeholder `userId` constant is not modelled. The POST is only recorded as a path.
- Chat: the `/api/chat` endpoint is not part of this model. Only its reply field `botResponse`, or a thrown error, is an input.
- Accounts: local storage holds the user as opaque JSON text. React's batching of state updates is not modelled.
- Email sending, helmet, CORS, morgan, the session store and the database connection are not modelled.

## Findings

| source | as written | input that shows it | evidently intended | confidence | as-written member | corrected member |
|---|---|---|---|---|---|---|
| backend/controllers/bookingController.js:10-25 | The profile is looked up (line 13), but the slot is saved as booked (lines 15-16) before the profile is dereferenced (line 20) and before the booking is validated (line 25). | A free slot whose `doctorId` names a deleted profile: the request fails with 500, yet the slot stays booked and no booking reserves it. An admin caller without `_id` has the same effect through the booking validation. | A failed booking writes nothing, so every booked slot has a booking. | not executed | Bookings.BookSlot (`Bookings.MissingProfileOrphansSlot`, counterexample `Bookings.BookSlotOrphansSlot`) | Bookings.BookSlotAtomic (`Bookings.BookSlotAtomicKeepsSlotsReserved`) |
| frontend/src/components/forms/StepperForm.jsx:104-110 | The questionnaire reads its bearer token with `Cookies.get("token")`. | A signed-in user submits. The only "token" cookie is the one sign-in sets, and it is httpOnly (backend/controllers/auth.js:67-72), so scripts cannot read it. Sign-in and sign-up keep the token in local storage instead. The page stops with "Authentication token not found. Please log in." | The page reads the token where sign-in keeps it, local storage under "token", and posts the answers. | not executed | IntakeStepper.SubmitFromCookie (`IntakeStepper.ServerCookieNeverFound`) | IntakeStepper.SubmitFromStorage (`IntakeStepper.LoginThenSubmitSends`, `IntakeStepper.SignupThenSubmitSends`) |

=== FILE: accounts.dfy ===
/**
 * The signup and login forms in the browser: the checks they make before
 * sending anything, the body they send, and what they keep from the answer.
 */
module Accounts {
  import opened Wrappers
  import opened Store
  import opened Http
  import opened Models
  import opened Documents
  import Auth

  // ---------------------------------------------------------------------------
  // Signup
  // ---------------------------------------------------------------------------

  /** The signup inputs; `role` has no input and keeps its initial "user". */
  datatype SignupForm = SignupForm(
    name: string, userName: string, email: string, password: string, confirmPassword: string, role: string)

  const InitialSignup := SignupForm("", "", "", "", "", "user")

  /** The five text inputs. */
  datatype SignupInput = NameInput | UserNameInput | EmailInput | PasswordInput | ConfirmInput

  /** `handleChange`: sets the named input and nothing else. */
  function ChangeSignup(f: SignupForm, input: SignupInput, value: string): (r: SignupForm)
    ensures r.role == f.role
    ensures input.NameInput? ==> r == f.(name := value)
    ensures input.UserNameInput? ==> r == f.(userName := value)
    ensures input.EmailInput? ==> r == f.(email := value)
    ensures input.PasswordInput? ==> r == f.(password := value)
    ensures input.ConfirmInput? ==> r == f.(confirmPassword := value)
  {
    match input
    case NameInput => f.(name := value)
    case UserNameInput => f.(userName := value)
    case EmailInput => f.(email := value)
    case PasswordInput => f.(password := value)
    case ConfirmInput => f.(confirmPassword := value)
  }

  const FillAll := "Please fill in all fields"
  const Mismatch := "Passwords do not match"

  /** Some input is still empty. */
  predicate Unfilled(f: SignupForm) {
    f.name == [] || f.userName == [] || f.email == [] || f.password == [] || f.confirmPassword == []
  }

  /** Either the error the form shows without sending, or the body it posts. */
  datatype Gate<T> = Stopped(error: string) | Sent(body: T)

  /**
   * `handleSubmit` up to the request: an empty input stops with one error,
   * different passwords with another, and otherwise the whole form, role
   * included, is posted.
   */
  function SubmitSignup(f: SignupForm): (r: Gate<Auth.SignupBody>)
    ensures r.Stopped? <==> (Unfilled(f) || f.password != f.confirmPassword)
    ensures r.Stopped? && Unfilled(f) ==> r.error == FillAll
    ensures r.Stopped? && !Unfilled(f) ==> r.error == Mismatch
    ensures r.Sent? ==> r.body == Auth.SignupBody(Some(f.name), Some(f.userName), Some(f.email),
      Some(f.password), Some(f.confirmPassword), Some(f.role))
  {
    if Unfilled(f) then Stopped(FillAll)
    else if f.password != f.confirmPassword then Stopped(Mismatch)
    else Sent(Auth.SignupBody(Some(f.name), Some(f.userName), Some(f.email),
      Some(f.password), Some(f.confirmPassword), Some(f.role)))
  }

  /** Whatever the user types, the role stays "user". */
  lemma RoleStaysUser(changes: seq<(SignupInput, string)>)
    ensures ApplySignup(InitialSignup, changes).role == "user"
  {
    RoleKept(InitialSignup, changes);
  }

  /** Edits never touch the role. */
  lemma {:induction false} RoleKept(f: SignupForm, changes: seq<(SignupInput, string)>)
    ensures ApplySignup(f, changes).role == f.role
    decreases |changes|
  {
    if changes != [] {
      RoleKept(ChangeSignup(f, changes[0].0, changes[0].1), changes[1..]);
    }
  }

  /** A run of edits. */
  function ApplySignup(f: SignupForm, changes: seq<(SignupInput, string)>): SignupForm
    decreases |changes|
  {
    if changes == [] then f else ApplySignup(ChangeSignup(f, changes[0].0, changes[0].1), changes[1..])
  }

  /**
   * A body the form sends always clears the server's first two checks (every
   * field present, passwords equal): the server either creates the account or
   * refuses for a taken name, never for the reasons the form already checks.
   * This holds for every form the page can reach by typing.
   */
  lemma SentSignupPassesServerChecks(
    changes: seq<(SignupInput, string)>, db: Db, hash: (string, nat) -> string, production: bool)
    requires SubmitSignup(ApplySignup(InitialSignup, changes)).Sent?
    ensures var b := SubmitSignup(ApplySignup(InitialSignup, changes)).body;
      Auth.SignupComplete(b) && b.role == Some("user")
      && Auth.Signup(db, b, hash, production).0.message != Text("All fields are required")
      && Auth.Signup(db, b, hash, production).0.message != Text("Passwords do not match")
  {
    RoleStaysUser(changes);
  }

  /** What the browser keeps: local storage entries. */
  type Storage = map<string, string>

  /** How the request ended: a success with the token and the user as JSON, or a failure with an optional server message. */
  datatype Answer = Accepted(token: string, userJson: string, serverMessage: Option<string>)
                  | Refused(message: Option<string>)

  /** `err.response?.data?.message || fallback`. */
  function ServerMessageOr(m: Option<string>, fallback: string): (r: string)
    ensures m.Some? && m.value != [] ==> r == m.value
    ensures m.None? || m == Some([]) ==> r == fallback
  {
    if m.Some? && m.value != [] then m.value else fallback
  }

  /** After the signup request: either storage holds the token and user and the page moves on, or the error shows. */
  function FinishSignup(store: Storage, a: Answer): (r: (Storage, Option<string>, Option<string>))
    ensures a.Accepted? ==>
      r.0 == store["token" := a.token]["user" := a.userJson] && r.1 == Some("/user-dashboard") && r.2.None?
    ensures a.Refused? ==> r.0 == store && r.1.None? && r.2 == Some(ServerMessageOr(a.message, "Something went wrong"))
  {
    match a
    case Accepted(token, user, _) => (store["token" := token]["user" := user], Some("/user-dashboard"), None)
    case Refused(m) => (store, None, Some(ServerMessageOr(m, "Something went wrong")))
  }

  // ---------------------------------------------------------------------------
  // Login
  // ---------------------------------------------------------------------------

  datatype Kind = NoKind | Success | Failure

  /** The banner under the form; an empty text is no banner. */
  datatype Banner = Banner(kind: Kind, text: string)

  const NoBanner := Banner(NoKind, "")

  datatype Login = Login(identifier: string, password: string, error: string, banner: Banner, loading: bool)

  const InitialLogin := Login("", "", "", NoBanner, false)

  datatype LoginInput = IdentifierInput | PasswordField

  /** `handleChange`: sets the input and takes down any banner. */
  function ChangeLogin(l: Login, input: LoginInput, value: string): (r: Login)
    ensures input.IdentifierInput? ==> r.identifier == value && r.password == l.password
    ensures input.PasswordField? ==> r.password == value && r.identifier == l.identifier
    ensures r.banner.text == []
    ensures r.error == l.error && r.loading == l.loading
  {
    var l' := match input
      case IdentifierInput => l.(identifier := value)
      case PasswordField => l.(password := value);
    if l.banner.text != [] then l'.(banner := NoBanner) else l'
  }

  const FillBoth := "Please fill in both fields."

  /**
   * `handleSubmit` up to the request: error and banner are cleared first; an
   * empty input stops with an error; otherwise both inputs are posted.
   */
  function SubmitLogin(l: Login): (r: (Login, Gate<Auth.SigninBody>))
    ensures r.0.banner == NoBanner && r.0.identifier == l.identifier && r.0.password == l.password
    ensures r.1.Stopped? <==> l.identifier == [] || l.password == []
    ensures r.1.Stopped? ==> r.0.error == FillBoth && r.1.error == FillBoth && r.0.loading == l.loading
    ensures r.1.Sent? ==>
      r.0.error == [] && r.0.loading && r.1.body == Auth.SigninBody(Some(l.identifier), Some(l.password))
  {
    var cleared := l.(error := "", banner := NoBanner);
    if l.identifier == [] || l.password == [] then (cleared.(error := FillBoth), Stopped(FillBoth))
    else (cleared.(loading := true), Sent(Auth.SigninBody(Some(l.identifier), Some(l.password))))
  }

  const LoginRefused := "Invalid credentials. Please try again."

  /**
   * After the signin request: a success stores the token and user, shows the
   * server's message or "Login successful" and moves on; a failure shows the
   * server's message or a fixed text both as error and banner.
   */
  function FinishLogin(l: Login, store: Storage, a: Answer): (r: (Login, Storage, Option<string>))
    ensures !r.0.loading
    ensures a.Accepted? ==>
      r.1 == store["token" := a.token]["user" := a.userJson] && r.2 == Some("/user-dashboard")
      && r.0.banner == Banner(Success, ServerMessageOr(a.serverMessage, "Login successful"))
    ensures a.Refused? ==>
      r.1 == store && r.2.None?
      && r.0.error == ServerMessageOr(a.message, LoginRefused)
      && r.0.banner == Banner(Failure, r.0.error)
  {
    match a
    case Accepted(token, user, m) =>
      (l.(banner := Banner(Success, ServerMessageOr(m, "Login successful")), loading := false),
       store["token" := token]["user" := user], Some("/user-dashboard"))
    case Refused(m) =>
      var text := ServerMessageOr(m, LoginRefused);
      (l.(error := text, banner := Banner(Failure, text), loading := false), store, None)
  }

  /** A signin body the form sends never draws the server's "Please provide valid credentials". */
  lemma SentLoginPassesServerCheck(l: Login, db: Db, compare: (string, string) -> bool, production: bool)
    requires SubmitLogin(l).1.Sent?
    ensures var b := SubmitLogin(l).1.body;
      !Auth.Blank(b.identifier) && !Auth.Blank(b.password)
      && Auth.Signin(db, b, compare, production) != Fail(400, "Please provide valid credentials")
  {
  }

  /** A failed login always leaves a banner; editing either input then takes it down. */
  lemma FailureBannerClearedByEditing(l: Login, store: Storage, m: Option<string>, input: LoginInput, value: string)
    ensures var failed := FinishLogin(l, store, Refused(m)).0;
      failed.banner.text != [] && ChangeLogin(failed, input, value).banner == NoBanner
  {
  }
}

=== FILE: auth.dfy ===
/** Local signup and signin. */
module Auth {
  import opened Wrappers
  import opened Store
  import opened Text
  import opened Http
  import opened Models
  import opened Documents
  import opened Tokens

  /** The work factor passed to bcrypt. */
  const HashCost: nat := 12

  datatype SignupBody = SignupBody(
    name: Option<string>,
    userName: Option<string>,
    email: Option<string>,
    password: Option<string>,
    confirmPassword: Option<string>,
    role: Option<string>)

  datatype SigninBody = SigninBody(identifier: Option<string>, password: Option<string>)

  /** The user as the response describes it. */
  datatype UserView = UserView(id: Id, userName: string, role: string, name: string, isVerified: bool)

  /** What a successful signup or signin hands back: both tokens, the user and the cookie. */
  datatype Session = Session(token: Jwt, refreshToken: Jwt, user: UserView, cookie: Cookie)

  function SessionFor(id: Id, u: User, production: bool): (s: Session)
    ensures s.token == AccessToken(id, u) && s.refreshToken == RefreshToken(id, u)
    ensures s.cookie == TokenCookie(AccessToken(id, u), production)
    ensures s.user == UserView(id, u.userName, u.role, u.name, u.isVerified)
  {
    Session(AccessToken(id, u), RefreshToken(id, u), UserView(id, u.userName, u.role, u.name, u.isVerified),
            TokenCookie(AccessToken(id, u), production))
  }

  /** `!x` for a body field: missing or empty. */
  predicate Blank(s: Option<string>) {
    !Filled(s)
  }

  predicate SignupComplete(b: SignupBody) {
    !Blank(b.name) && !Blank(b.userName) && !Blank(b.email) && !Blank(b.password)
    && !Blank(b.confirmPassword) && !Blank(b.role)
  }

  /** A stored user the signup uniqueness query finds: same lowercased email or userName. */
  function TakenBy(email: string, userName: string): User -> bool {
    (u: User) => u.email == Lower(email) || u.userName == Lower(userName)
  }

  /** The user document signup builds: the hash replaces the password, userName and email are lowercased. */
  function SignupDraft(b: SignupBody, hashed: string): UserDraft
    requires SignupComplete(b)
  {
    UserDraft(b.name, Some(Lower(b.userName.value)), Some(Lower(b.email.value)), Some(hashed), b.role, None, None)
  }

  /**
   * `signupHandler`. `hash` is bcrypt's hash function, `production` whether
   * NODE_ENV is "production".
   */
  function Signup(db: Db, b: SignupBody, hash: (string, nat) -> string, production: bool): (res: (Reply<Session>, Db))
    ensures !SignupComplete(b) ==> res == (Fail(400, "All fields are required"), db)
    ensures SignupComplete(b) && b.password != b.confirmPassword ==> res == (Fail(400, "Passwords do not match"), db)
    ensures res.0.status != 201 ==> res.1 == db
    ensures res.0.status == 201 ==> SignupComplete(b) && b.password == b.confirmPassword
  {
    if !SignupComplete(b) then (Fail(400, "All fields are required"), db)
    else if b.password != b.confirmPassword then (Fail(400, "Passwords do not match"), db)
    else if FindOne(db.users, TakenBy(b.email.value, b.userName.value), db.next).Some? then
      (Fail(400, "Email or username already exists"), db)
    else
      match NewUser(SignupDraft(b, hash(b.password.value, HashCost)))
      case None => (Fail(500, "Something went wrong"), db)
      case Some(u) =>
        if !Admissible(db.users, u) then (Fail(500, "Something went wrong"), db)
        else
          var id := db.next;
          (Done(201, "User created successfully", SessionFor(id, u, production)),
           db.(users := db.users[id := u], next := id + 1))
  }

  /** A signin identifier finds users by lowercased email or userName. */
  function Identifies(identifier: string): User -> bool {
    (u: User) => u.email == Lower(identifier) || u.userName == Lower(identifier)
  }

  /** `signinHandler`. `compare` is bcrypt's comparison of a password with a stored hash. */
  function Signin(db: Db, b: SigninBody, compare: (string, string) -> bool, production: bool): (r: Reply<Session>)
    ensures Blank(b.identifier) || Blank(b.password) ==> r == Fail(400, "Please provide valid credentials")
    ensures r.status == 200 ==>
      && !Blank(b.identifier) && !Blank(b.password)
      && FindOne(db.users, Identifies(b.identifier.value), db.next).Some?
      && var id := FindOne(db.users, Identifies(b.identifier.value), db.next).value;
      && id in db.users && db.users[id].password.Some?
      && compare(b.password.value, db.users[id].password.value)
      && r.payload == Some(SessionFor(id, db.users[id], production))
  {
    if Blank(b.identifier) || Blank(b.password) then Fail(400, "Please provide valid credentials")
    else
      match FindOne(db.users, Identifies(b.identifier.value), db.next)
      case None => Fail(401, "Invalid credentials")
      case Some(id) =>
        var u := db.users[id];
        // bcrypt rejects a missing hash with an exception
        if u.password.None? then Fail(500, "Something went wrong")
        else if !compare(b.password.value, u.password.value) then Fail(401, "Invalid credentials")
        else Done(200, "Signin successful", SessionFor(id, u, production))
  }

  /** The user signup builds carries the lowercased email and userName and no federated ids. */
  lemma SignupDraftFields(b: SignupBody, hashed: string, u: User)
    requires SignupComplete(b)
    requires NewUser(SignupDraft(b, hashed)) == Some(u)
    ensures u.email == Lower(b.email.value) && u.userName == Lower(b.userName.value)
    ensures u.googleId == None && u.twitterId == None && u.password == Some(hashed)
  {
    LowerIdempotent(b.email.value);
    LowerIdempotent(b.userName.value);
  }

  /** A uniqueness query that finds nothing rules out every stored user. */
  lemma NothingTaken(users: map<Id, User>, bound: nat, email: string, userName: string)
    requires Below(users, bound)
    requires FindOne(users, TakenBy(email, userName), bound).None?
    ensures forall k :: k in users ==> users[k].email != Lower(email) && users[k].userName != Lower(userName)
  {
    var p := TakenBy(email, userName);
    forall k | k in users ensures users[k].email != Lower(email) && users[k].userName != Lower(userName) {
      assert !p(users[k]);
    }
  }

  /** A user whose email and userName no stored user holds, and with no federated ids, clashes with nobody. */
  lemma FreshNamesAdmissible(users: map<Id, User>, u: User)
    requires u.googleId == None && u.twitterId == None
    requires forall k :: k in users ==> users[k].email != u.email && users[k].userName != u.userName
    ensures Admissible(users, u)
  {
  }

  /** The insert after a passed uniqueness query never meets a duplicate key. */
  lemma SignupNeverClashes(db: Db, b: SignupBody, hashed: string, u: User)
    requires Below(db.users, db.next)
    requires SignupComplete(b)
    requires FindOne(db.users, TakenBy(b.email.value, b.userName.value), db.next).None?
    requires NewUser(SignupDraft(b, hashed)) == Some(u)
    ensures Admissible(db.users, u)
  {
    SignupDraftFields(b, hashed, u);
    NothingTaken(db.users, db.next, b.email.value, b.userName.value);
    FreshNamesAdmissible(db.users, u);
  }

  /** The database after a successful signup: one new user under the next id. */
  lemma SignupCreates(db: Db, b: SignupBody, hash: (string, nat) -> string, production: bool)
    requires Signup(db, b, hash, production).0.status == 201
    ensures SignupComplete(b) && b.password == b.confirmPassword
    ensures var db1 := Signup(db, b, hash, production).1;
      && db.next in db1.users
      && db1 == db.(users := db.users[db.next := db1.users[db.next]], next := db.next + 1)
      && NewUser(SignupDraft(b, hash(b.password.value, HashCost))) == Some(db1.users[db.next])
      && FindOne(db.users, TakenBy(b.email.value, b.userName.value), db.next).None?
  {
  }

  /**
   * When signup succeeds: exactly for a complete body with matching passwords,
   * an email and userName no stored user holds, and a draft the schema
   * accepts.
   */
  lemma SignupSucceeds(db: Db, b: SignupBody, hash: (string, nat) -> string, production: bool)
    requires Below(db.users, db.next)
    ensures Signup(db, b, hash, production).0.status == 201 <==> SignupAdmits(db, b, hash)
  {
    if SignupAdmits(db, b, hash) {
      SignupSucceedsWhen(db, b, hash, production);
    } else if Signup(db, b, hash, production).0.status == 201 {
      SignupCreates(db, b, hash, production);
    }
  }

  /** What the handler's checks demand before it writes. */
  predicate SignupAdmits(db: Db, b: SignupBody, hash: (string, nat) -> string) {
    && SignupComplete(b) && b.password == b.confirmPassword
    && FindOne(db.users, TakenBy(b.email.value, b.userName.value), db.next).None?
    && NewUser(SignupDraft(b, hash(b.password.value, HashCost))).Some?
  }

  /** A body every check admits is stored and answered 201. */
  lemma SignupSucceedsWhen(db: Db, b: SignupBody, hash: (string, nat) -> string, production: bool)
    requires Below(db.users, db.next)
    requires SignupAdmits(db, b, hash)
    ensures Signup(db, b, hash, production).0.status == 201
  {
    var hashed := hash(b.password.value, HashCost);
    var u := NewUser(SignupDraft(b, hashed)).value;
    SignupNeverClashes(db, b, hashed, u);
  }

  /**
   * What signup stores: userName and email lowercased, the name trimmed by the
   * schema, the requested role, the cost-12 hash and an unverified flag; and
   * what it answers: the session for the new id.
   */
  lemma SignupStores(db: Db, b: SignupBody, hash: (string, nat) -> string, production: bool)
    requires Signup(db, b, hash, production).0.status == 201
    ensures SignupComplete(b)
    ensures var after := Signup(db, b, hash, production); var r, db1 := after.0, after.1;
      var u := db1.users[db.next];
      && u.userName == Lower(b.userName.value) && u.email == Lower(b.email.value)
      && u.name == Trim(b.name.value) && u.role == b.role.value
      && u.password == Some(hash(b.password.value, 12)) && !u.isVerified
      && r.payload == Some(SessionFor(db.next, u, production))
  {
    SignupCreates(db, b, hash, production);
    LowerIdempotent(b.email.value);
    LowerIdempotent(b.userName.value);
  }

  /** A second signup with the same email or userName, in any letter case, is refused and stores nothing. */
  lemma SignupTwiceRefused(db: Db, b: SignupBody, b2: SignupBody, hash: (string, nat) -> string, production: bool)
    requires Signup(db, b, hash, production).0.status == 201
    requires SignupComplete(b2) && b2.password == b2.confirmPassword
    requires Lower(b2.email.value) == Lower(b.email.value) || Lower(b2.userName.value) == Lower(b.userName.value)
    ensures var db1 := Signup(db, b, hash, production).1;
            Signup(db1, b2, hash, production) == (Fail(400, "Email or username already exists"), db1)
  {
    SignupStores(db, b, hash, production);
    SignupCreates(db, b, hash, production);
    var db1 := Signup(db, b, hash, production).1;
    var u := db1.users[db.next];
    var p := TakenBy(b2.email.value, b2.userName.value);
    assert p(u);
    FindOneFindsInserted(db.users, p, db.next, u);
    SignupRefusesTaken(db1, b2, hash, production);
  }

  /** Signup refuses, without writing, a body whose email or userName the uniqueness query finds. */
  lemma SignupRefusesTaken(db: Db, b: SignupBody, hash: (string, nat) -> string, production: bool)
    requires SignupComplete(b) && b.password == b.confirmPassword
    requires FindOne(db.users, TakenBy(b.email.value, b.userName.value), db.next).Some?
    ensures Signup(db, b, hash, production) == (Fail(400, "Email or username already exists"), db)
  {
  }

  /**
   * A user inserted after a uniqueness query found nothing is what a signin by
   * its email finds, when no earlier user has that email text as userName.
   */
  lemma IdentifiedByEmail(users: map<Id, User>, next: nat, u: User, email: string, userName: string)
    requires Below(users, next)
    requires FindOne(users, TakenBy(email, userName), next).None?
    requires forall k :: k in users ==> users[k].userName != Lower(email)
    requires u.email == Lower(email)
    ensures FindOne(users[next := u], Identifies(email), next + 1) == Some(next)
  {
    NothingTaken(users, next, email, userName);
    var p := Identifies(email);
    forall k | k in users ensures !p(users[k]) {
    }
    FindOneAfterInsert(users, p, next, u);
  }

  /** Signin by email and password right after the insert that a successful signup performs. */
  lemma SigninAfterSignup(db: Db, b: SignupBody, hash: (string, nat) -> string, compare: (string, string) -> bool,
                          production: bool, u: User)
    requires Below(db.users, db.next)
    requires SignupComplete(b)
    requires FindOne(db.users, TakenBy(b.email.value, b.userName.value), db.next).None?
    requires u.email == Lower(b.email.value) && u.password == Some(hash(b.password.value, HashCost))
    requires forall k :: k in db.users ==> db.users[k].userName != Lower(b.email.value)
    requires compare(b.password.value, hash(b.password.value, HashCost))
    ensures Signin(db.(users := db.users[db.next := u], next := db.next + 1), SigninBody(b.email, b.password), compare, production)
            == Done(200, "Signin successful", SessionFor(db.next, u, production))
  {
    var db1 := db.(users := db.users[db.next := u], next := db.next + 1);
    IdentifiedByEmail(db.users, db.next, u, b.email.value, b.userName.value);
    SigninAccepts(db1, SigninBody(b.email, b.password), compare, production, db.next);
  }


  /** Signin answers 200 for the user its query finds when bcrypt accepts the password. */
  lemma SigninAccepts(db: Db, b: SigninBody, compare: (string, string) -> bool, production: bool, id: Id)
    requires !Blank(b.identifier) && !Blank(b.password)
    requires FindOne(db.users, Identifies(b.identifier.value), db.next) == Some(id)
    requires db.users[id].password.Some? && compare(b.password.value, db.users[id].password.value)
    ensures Signin(db, b, compare, production) == Done(200, "Signin successful", SessionFor(id, db.users[id], production))
  {
  }

  /** An unknown identifier and a wrong password produce the same reply. */
  lemma SigninDoesNotRevealWhichFactorFailed(db: Db, b: SigninBody, compare: (string, string) -> bool, production: bool)
    requires !Blank(b.identifier) && !Blank(b.password)
    requires var found := FindOne(db.users, Identifies(b.identifier.value), db.next);
             found.None? || (db.users[found.value].password.Some? && !compare(b.password.value, db.users[found.value].password.value))
    ensures Signin(db, b, compare, production) == Fail(401, "Invalid credentials")
  {
  }

  /**
   * A fresh signup can sign in with its email and password: signin answers 200
   * for the new user, provided bcrypt accepts the password it hashed and no
   * earlier user holds that email text as a userName.
   */
  lemma SignupThenSignin(db: Db, b: SignupBody, hash: (string, nat) -> string, compare: (string, string) -> bool, production: bool)
    requires Below(db.users, db.next)
    requires Signup(db, b, hash, production).0.status == 201
    requires forall k :: k in db.users ==> db.users[k].userName != Lower(b.email.value)
    requires compare(b.password.value, hash(b.password.value, HashCost))
    ensures var db1 := Signup(db, b, hash, production).1;
            var r := Signin(db1, SigninBody(b.email, b.password), compare, production);
            r.status == 200 && r.payload.value.user.id == db.next
  {
    SignupCreates(db, b, hash, production);
    var u := Signup(db, b, hash, production).1.users[db.next];
    SignupDraftFields(b, hash(b.password.value, HashCost), u);
    SigninAfterSignup(db, b, hash, compare, production, u);
  }

}

=== FILE: blog.dfy ===
/**
 * The community feed: the post composer's guard and the post it builds, the
 * feed that puts new posts first, and the short form of counters.
 */
module Blog {
  import opened Wrappers
  import opened Text

  datatype Post = Post(
    title: string, author: string, avatar: string, content: string, image: Option<string>,
    community: string, time: string, likes: nat, comments: nat, views: nat)

  /** The post the composer hands to the feed: the draft as typed, by "You", with one view. */
  function NewPost(draft: string): (r: Post)
    ensures r.content == draft && r.author == "You" && r.title == ""
    ensures r.likes == 0 && r.comments == 0 && r.views == 1
    ensures r.image.None? && r.community == "Your feed" && r.time == "Just now"
  {
    Post("", "You", "https://placehold.co/40x40", draft, None, "Your feed", "Just now", 0, 0, 1)
  }

  /** `addNewPost`: the post goes in front of the feed. */
  function AddNewPost(posts: seq<Post>, p: Post): (r: seq<Post>)
    ensures |r| == |posts| + 1 && r[0] == p && r[1..] == posts
  {
    [p] + posts
  }

  /** The composer's draft and the feed. */
  datatype Feed = Feed(draft: string, posts: seq<Post>)

  /**
   * The Post button: a draft that trims to nothing does nothing, not even
   * clearing the draft; otherwise the untrimmed draft is posted in front of
   * the feed and the draft is cleared.
   */
  function Publish(f: Feed): (r: Feed)
    ensures AllSpace(f.draft) ==> r == f
    ensures !AllSpace(f.draft) ==> r.draft == "" && r.posts == AddNewPost(f.posts, NewPost(f.draft))
  {
    TrimEmptyIffAllSpace(f.draft);
    if Trim(f.draft) == [] then f else Feed("", AddNewPost(f.posts, NewPost(f.draft)))
  }

  /** Typing into the composer replaces the draft and leaves the feed alone. */
  function Type(f: Feed, text: string): (r: Feed)
    ensures r.draft == text && r.posts == f.posts
  {
    f.(draft := text)
  }

  /**
   * Posting `drafts` in order, typing each one first: each draft adds at
   * most one post, always in front, so the old feed stays at the back.
   */
  function PublishAll(f: Feed, drafts: seq<string>): (r: Feed)
    ensures |f.posts| <= |r.posts| <= |f.posts| + |drafts|
    ensures r.posts[|r.posts| - |f.posts|..] == f.posts
    decreases |drafts|
  {
    if drafts == [] then f else PublishAll(Publish(Type(f, drafts[0])), drafts[1..])
  }

  /** The posts made from `drafts`, the last draft first. */
  function NewestFirst(drafts: seq<string>): (r: seq<Post>)
    ensures |r| == |drafts|
  {
    if drafts == [] then [] else NewestFirst(drafts[1..]) + [NewPost(drafts[0])]
  }

  /**
   * Posting several non-blank drafts puts them in front of the feed newest
   * first, and the feed that was there stays behind them in its order.
   */
  lemma {:induction false} PublishAllPrepends(f: Feed, drafts: seq<string>)
    requires forall i :: 0 <= i < |drafts| ==> !AllSpace(drafts[i])
    ensures PublishAll(f, drafts).posts == NewestFirst(drafts) + f.posts
    decreases |drafts|
  {
    if drafts != [] {
      var q := [NewPost(drafts[0])];
      var g := Feed("", q + f.posts);
      PublishFirst(f, drafts);
      var rest := drafts[1..];
      PublishAllPrepends(g, rest);
      var a := NewestFirst(rest);
      assert NewestFirst(drafts) == a + q;
      AfterNewer(a, q, f.posts);
    }
  }

  /**
   * Associativity of concatenation, the regrouping step `PublishAllPrepends`
   * needs to put the later drafts' posts in front of the first one's.
   */
  lemma AfterNewer(newer: seq<Post>, first: seq<Post>, feed: seq<Post>)
    ensures newer + (first + feed) == (newer + first) + feed
  {
  }

  /** Posting a non-blank first draft leaves the rest to be posted on the grown feed. */
  lemma PublishFirst(f: Feed, drafts: seq<string>)
    requires drafts != [] && !AllSpace(drafts[0])
    ensures PublishAll(f, drafts) == PublishAll(Feed("", [NewPost(drafts[0])] + f.posts), drafts[1..])
  {
    assert Publish(Type(f, drafts[0])) == Feed("", [NewPost(drafts[0])] + f.posts);
  }

  /** The `i`-th post from the front is made from the `i`-th draft from the end. */
  lemma {:induction false} NewestFirstAt(drafts: seq<string>, i: nat)
    requires i < |drafts|
    ensures NewestFirst(drafts)[i] == NewPost(drafts[|drafts| - 1 - i])
    decreases |drafts|
  {
    var rest := drafts[1..];
    if i < |rest| {
      NewestFirstAt(rest, i);
      assert rest[|rest| - 1 - i] == drafts[|drafts| - 1 - i];
    }
  }

  lemma PublishOne(f: Feed, draft: string)
    requires !AllSpace(draft)
    ensures Publish(Type(f, draft)).posts == [NewPost(draft)] + f.posts
  {
  }

  /** A blank draft never changes the feed, however often it is posted. */
  lemma BlankDraftIgnored(f: Feed)
    requires AllSpace(f.draft)
    ensures Publish(f) == f && Publish(Publish(f)) == f
  {
  }

  /** How a counter is shown. */
  datatype Shown = Plain(n: nat) | Thousands(n: nat)

  /**
   * `formatCount`: a number below 1000 is shown as it is; from 1000 on it is
   * shown in thousands with one decimal, a text this model does not spell out.
   */
  function FormatCount(n: nat): (r: Shown)
    ensures r.n == n
    ensures r.Plain? <==> n < 1000
  {
    if n >= 1000 then Thousands(n) else Plain(n)
  }

  /** A new post shows its counters plainly: 0 likes, 0 comments, 1 view. */
  lemma NewPostCounters(draft: string)
    ensures var p := NewPost(draft);
      FormatCount(p.likes) == Plain(0) && FormatCount(p.comments) == Plain(0) && FormatCount(p.views) == Plain(1)
  {
  }
}

=== FILE: bookings.dfy ===
/**
 * The booking controller: a user books a free slot, which marks it booked
 * and records a confirmed booking at the doctor's fee; a user lists their
 * bookings.
 */
module Bookings {
  import opened Wrappers
  import opened Store
  import opened Http
  import opened Models
  import opened Documents
  import opened Guard
  import opened Slots
  import Tokens

  /** The booking as the reply shows it: the stored document plus the doctor's name and speciality. */
  datatype BookingView = BookingView(id: Id, booking: Booking, doctorName: string, speciality: string)

  /** The slot may be booked: it exists and is not booked yet. */
  predicate Available(db: Db, sid: Id) {
    sid in db.slots && !db.slots[sid].isBooked
  }

  /**
   * `bookSlot` as written. The slot is marked booked and saved before the
   * doctor is dereferenced and before the booking is validated, so a slot
   * whose profile is gone, or a caller without an `_id`, leaves the slot
   * booked with no booking behind it.
   */
  function BookSlot(db: Db, c: Caller, slotId: IdText): (res: (Reply<BookingView>, Db))
    ensures res.0.status in {201, 400, 500}
    ensures res.0.status == 400 <==> slotId.Missing? || (slotId.Valid? && !Available(db, slotId.id))
    ensures res.0.status == 400 ==> res == (Fail(400, "Slot not available"), db)
    ensures slotId.Malformed? ==> res == (Crash(CastFailure), db)
    ensures res.0.status != 400 && slotId.Valid? ==>
      res.1.slots == db.slots[slotId.id := db.slots[slotId.id].(isBooked := true)]
    ensures slotId.Valid? ==> (res.0.status == 500 <==>
      Available(db, slotId.id) && (db.slots[slotId.id].doctorId !in db.doctors || !c.Account?))
    ensures slotId.Valid? && res.0.status == 500 ==> res.1.bookings == db.bookings && res.1.next == db.next
    ensures slotId.Valid? && Available(db, slotId.id) && db.slots[slotId.id].doctorId !in db.doctors ==>
      res.0 == Crash(NullDereference)
  {
    match slotId
    case Malformed => (Crash(CastFailure), db)
    case Missing => (Fail(400, "Slot not available"), db)
    case Valid(sid) =>
      if !Available(db, sid) then (Fail(400, "Slot not available"), db)
      else
        var slot := db.slots[sid];
        var db1 := db.(slots := db.slots[sid := slot.(isBooked := true)]);
        if slot.doctorId !in db.doctors then (Crash(NullDereference), db1)
        else
          var doctor := db.doctors[slot.doctorId];
          match NewBooking(ObjectId(c), slot.doctorId, sid, doctor.feePerHour, Some("confirmed"))
          case None => (Crash(SchemaViolation), db1)
          case Some(b) =>
            (Done(201, "Booking confirmed", BookingView(db.next, b, doctor.name, doctor.speciality)),
             db1.(bookings := db.bookings[db.next := b], next := db.next + 1))
  }

  /**
   * `bookSlot` with the slot written together with the booking: the doctor
   * and the booking are checked first, and a failure writes nothing.
   */
  function BookSlotAtomic(db: Db, c: Caller, slotId: IdText): (res: (Reply<BookingView>, Db))
    ensures res.0 == BookSlot(db, c, slotId).0
    ensures res.0.status != 201 ==> res.1 == db
    ensures res.0.status == 201 ==> res.1 == BookSlot(db, c, slotId).1
  {
    match slotId
    case Malformed => (Crash(CastFailure), db)
    case Missing => (Fail(400, "Slot not available"), db)
    case Valid(sid) =>
      if !Available(db, sid) then (Fail(400, "Slot not available"), db)
      else
        var slot := db.slots[sid];
        if slot.doctorId !in db.doctors then (Crash(NullDereference), db)
        else
          var doctor := db.doctors[slot.doctorId];
          match NewBooking(ObjectId(c), slot.doctorId, sid, doctor.feePerHour, Some("confirmed"))
          case None => (Crash(SchemaViolation), db)
          case Some(b) =>
            (Done(201, "Booking confirmed", BookingView(db.next, b, doctor.name, doctor.speciality)),
             db.(slots := db.slots[sid := slot.(isBooked := true)],
                 bookings := db.bookings[db.next := b], next := db.next + 1))
  }

  /** Every booked slot has a booking that reserves it. */
  ghost predicate BookedSlotsReserved(db: Db) {
    forall k :: k in db.slots && db.slots[k].isBooked ==>
      exists b :: b in db.bookings && db.bookings[b].slotId == k
  }

  /**
   * A successful booking reserves the slot for the caller at the doctor's
   * fee, with status "confirmed", as the one new booking document; the reply
   * carries the doctor's name and speciality.
   */
  lemma BookingConfirmed(db: Db, c: Caller, sid: Id)
    requires BookSlotAtomic(db, c, Valid(sid)).0.status == 201
    ensures Available(db, sid) && db.slots[sid].doctorId in db.doctors && c.Account?
    ensures var after := BookSlotAtomic(db, c, Valid(sid)); var r, db1 := after.0, after.1;
      var doctor := db.doctors[db.slots[sid].doctorId];
      && r.message == Text("Booking confirmed")
      && r.payload.Some? && r.payload.value.id == db.next
      && r.payload.value.doctorName == doctor.name && r.payload.value.speciality == doctor.speciality
      && db1.bookings == db.bookings[db.next := r.payload.value.booking]
      && r.payload.value.booking.userId == c.id
      && r.payload.value.booking.slotId == sid
      && r.payload.value.booking.doctorId == db.slots[sid].doctorId
      && r.payload.value.booking.fee == doctor.feePerHour
      && r.payload.value.booking.status == "confirmed"
      && db1.slots[sid].isBooked
  {
  }

  /**
   * A request for a valid slot id is confirmed exactly when the slot is free,
   * its doctor's profile exists and the caller is an account.
   */
  lemma BookSlotSucceeds(db: Db, c: Caller, sid: Id)
    ensures BookSlotAtomic(db, c, Valid(sid)).0.status == 201 <==>
      Available(db, sid) && db.slots[sid].doctorId in db.doctors && c.Account?
  {
  }

  /**
   * On any store, a free slot whose profile is gone is answered 500, yet it
   * is saved as booked and no booking is added for it.
   */
  lemma MissingProfileOrphansSlot(db: Db, c: Caller, sid: Id)
    requires Available(db, sid) && db.slots[sid].doctorId !in db.doctors
    ensures var after := BookSlot(db, c, Valid(sid));
      && after.0 == Crash(NullDereference)
      && sid in after.1.slots && after.1.slots[sid].isBooked
      && after.1.bookings == db.bookings
  {
  }

  /** Once a slot is booked, every later attempt on it is refused and writes nothing. */
  lemma DoubleBookingRefused(db: Db, c: Caller, other: Caller, sid: Id)
    requires BookSlotAtomic(db, c, Valid(sid)).0.status == 201
    ensures var db1 := BookSlotAtomic(db, c, Valid(sid)).1;
      BookSlotAtomic(db1, other, Valid(sid)) == (Fail(400, "Slot not available"), db1)
  {
  }

  /** A booked slot no longer appears among its doctor's free slots. */
  lemma BookedSlotNotListed(db: Db, c: Caller, sid: Id)
    requires BookSlotAtomic(db, c, Valid(sid)).0.status == 201
    ensures var db1 := BookSlotAtomic(db, c, Valid(sid)).1;
      sid !in GetSlotsByDoctor(db1, Valid(db.slots[sid].doctorId)).payload.value
  {
  }

  /** Booking never frees a slot: `isBooked` only goes from false to true. */
  lemma BookingKeepsSlotsBooked(db: Db, c: Caller, slotId: IdText)
    ensures var db1 := BookSlot(db, c, slotId).1; var db2 := BookSlotAtomic(db, c, slotId).1;
      forall k :: k in db.slots && db.slots[k].isBooked ==>
        k in db1.slots && db1.slots[k].isBooked && k in db2.slots && db2.slots[k].isBooked
  {
  }

  /**
   * The written order breaks `BookedSlotsReserved`: with a slot whose
   * profile was deleted, the request fails with 500 yet the slot stays booked
   * and no booking reserves it.
   */
  lemma BookSlotOrphansSlot()
    ensures var db := Db(map[], map[], map[0 := Slot(7, "2025-01-01", "10:00", "11:00", false)], map[], map[], map[], 1);
      var after := BookSlot(db, Admin(Tokens.Claims(None, None, Some("admin"), None)), Valid(0));
      && BookedSlotsReserved(db)
      && after.0 == Crash(NullDereference)
      && !BookedSlotsReserved(after.1)
  {
    var db := Db(map[], map[], map[0 := Slot(7, "2025-01-01", "10:00", "11:00", false)], map[], map[], map[], 1);
    var db1 := BookSlot(db, Admin(Tokens.Claims(None, None, Some("admin"), None)), Valid(0)).1;
    assert db1.bookings == map[];
    assert 0 in db1.slots && db1.slots[0].isBooked;
  }

  /** The corrected order keeps `BookedSlotsReserved`. */
  lemma BookSlotAtomicKeepsSlotsReserved(db: Db, c: Caller, slotId: IdText)
    requires Below(db.bookings, db.next) && BookedSlotsReserved(db)
    ensures BookedSlotsReserved(BookSlotAtomic(db, c, slotId).1)
  {
    var after := BookSlotAtomic(db, c, slotId);
    if after.0.status == 201 {
      var sid := slotId.id;
      var db1 := after.1;
      var b := after.0.payload.value.booking;
      assert db1.bookings == db.bookings[db.next := b] && b.slotId == sid;
      forall k | k in db1.slots && db1.slots[k].isBooked
        ensures exists j :: j in db1.bookings && db1.bookings[j].slotId == k
      {
        if k == sid {
          assert db1.bookings[db.next].slotId == k;
        } else {
          assert db.slots[k].isBooked;
          var j :| j in db.bookings && db.bookings[j].slotId == k;
          assert j != db.next;
          assert db1.bookings[j].slotId == k;
        }
      }
    }
  }

  /** A booking in `getUserBookings`: the document with its doctor and slot looked up, `null` when gone. */
  datatype BookingListing = BookingListing(id: Id, booking: Booking, doctor: Option<DoctorInfo>, slot: Option<Slot>)

  function HeldBy(owner: Id): Booking -> bool {
    (b: Booking) => b.userId == owner
  }

  /**
   * `getUserBookings`: the caller's bookings in insertion order with
   * `doctorId` and `slotId` populated. An admin caller has no `_id` and gets
   * none.
   */
  function GetUserBookings(db: Db, c: Caller): (r: Reply<seq<BookingListing>>)
    ensures r.status == 200 && r.payload.Some?
    ensures c.Admin? ==> r.payload.value == []
    ensures forall i :: 0 <= i < |r.payload.value| ==> var l := r.payload.value[i];
      && c.Account? && l.id in db.bookings && l.booking == db.bookings[l.id] && l.booking.userId == c.id
      && l.doctor == ById(db.doctors, Some(l.booking.doctorId))
      && l.slot == ById(db.slots, Some(l.booking.slotId))
    ensures forall i, j :: 0 <= i < j < |r.payload.value| ==> r.payload.value[i].id < r.payload.value[j].id
    ensures c.Account? && Below(db.bookings, db.next) ==> forall k :: k in db.bookings && db.bookings[k].userId == c.id ==>
      exists i :: 0 <= i < |r.payload.value| && r.payload.value[i].id == k
  {
    match ObjectId(c)
    case None => Done(200, "", [])
    case Some(owner) =>
      var ids := Find(db.bookings, HeldBy(owner), db.next);
      var listed := Populate(db, ids);
      assert forall k :: k in ids ==> exists i :: 0 <= i < |listed| && listed[i].id == k by {
        forall k | k in ids
          ensures exists i :: 0 <= i < |listed| && listed[i].id == k
        {
          var i :| 0 <= i < |ids| && ids[i] == k;
          assert listed[i].id == k;
        }
      }
      Done(200, "", listed)
  }

  /** The listed bookings with `doctorId` and `slotId` populated, in the order of `ids`. */
  function Populate(db: Db, ids: seq<Id>): (r: seq<BookingListing>)
    requires forall k :: k in ids ==> k in db.bookings
    ensures |r| == |ids|
    ensures forall i :: 0 <= i < |ids| ==>
      && r[i].id == ids[i] && r[i].booking == db.bookings[ids[i]]
      && r[i].doctor == ById(db.doctors, Some(r[i].booking.doctorId))
      && r[i].slot == ById(db.slots, Some(r[i].booking.slotId))
  {
    seq(|ids|, i requires 0 <= i < |ids| =>
      BookingListing(ids[i], db.bookings[ids[i]],
        ById(db.doctors, Some(db.bookings[ids[i]].doctorId)), ById(db.slots, Some(db.bookings[ids[i]].slotId))))
  }

  /** A confirmed booking shows up in the caller's list. */
  lemma BookedThenListed(db: Db, c: Caller, sid: Id)
    requires Below(db.bookings, db.next)
    requires BookSlotAtomic(db, c, Valid(sid)).0.status == 201
    ensures var db1 := BookSlotAtomic(db, c, Valid(sid)).1;
      exists i :: 0 <= i < |GetUserBookings(db1, c).payload.value| &&
        GetUserBookings(db1, c).payload.value[i].id == db.next
  {
    var db1 := BookSlotAtomic(db, c, Valid(sid)).1;
    BookingConfirmed(db, c, sid);
    assert Below(db1.bookings, db1.next);
    var ids := Find(db1.bookings, HeldBy(c.id), db1.next);
    assert HeldBy(c.id)(db1.bookings[db.next]);
    assert db.next in ids;
    var i :| 0 <= i < |ids| && ids[i] == db.next;
    assert GetUserBookings(db1, c).payload.value[i].id == db.next;
  }
}

=== FILE: chat.dfy ===
/**
 * The chat page: sending a message appends the trimmed user text, then one
 * bot reply (the server's answer or a fixed apology), and clears the input.
 */
module Chat {
  import opened Wrappers
  import opened Text

  datatype Sender = User | Bot

  datatype Message = Message(sender: Sender, text: string)

  datatype Chat = Chat(messages: seq<Message>, input: string, loading: bool)

  const NoAnswer := "I'm sorry, I couldn't get a response right now. Please try again."
  const Broken := "I'm sorry, something went wrong. Please try again later."

  /**
   * The first half of `handleSendMessage`: a blank input or a send in flight
   * changes nothing and sends nothing; otherwise the trimmed text is appended
   * as the user's message, loading starts, and the trimmed text is posted.
   */
  function StartSend(c: Chat): (r: (Chat, Option<string>))
    ensures r.1.None? <==> AllSpace(c.input) || c.loading
    ensures r.1.None? ==> r.0 == c
    ensures r.1.Some? ==>
      r.1.value == Trim(c.input) && r.1.value != []
      && r.0 == Chat(c.messages + [Message(User, Trim(c.input))], c.input, true)
  {
    TrimEmptyIffAllSpace(c.input);
    if Trim(c.input) == [] || c.loading then (c, None)
    else (c.(messages := c.messages + [Message(User, Trim(c.input))], loading := true), Some(Trim(c.input)))
  }

  /** How the request ended: a reply body with an optional `botResponse`, or an exception. */
  datatype Outcome = Answered(botResponse: Option<string>) | Threw

  /** The bot's text: the answer when it is a non-empty string, else the matching apology. */
  function BotText(o: Outcome): (r: string)
    ensures r != []
    ensures o.Answered? && o.botResponse.Some? && o.botResponse.value != [] ==> r == o.botResponse.value
    ensures o.Answered? && (o.botResponse.None? || o.botResponse == Some([])) ==> r == NoAnswer
    ensures o.Threw? ==> r == Broken
  {
    match o
    case Answered(b) => if b.Some? && b.value != [] then b.value else NoAnswer
    case Threw => Broken
  }

  /** The second half: one bot message is appended, loading ends and the input is cleared. */
  function FinishSend(c: Chat, o: Outcome): (r: Chat)
    ensures r.messages == c.messages + [Message(Bot, BotText(o))]
    ensures !r.loading && r.input == []
  {
    Chat(c.messages + [Message(Bot, BotText(o))], "", false)
  }

  /**
   * `handleSendMessage` with its outcome: nothing happens when the start
   * refuses; otherwise the question and then the answer are appended, and
   * the page is ready for the next question.
   */
  function Send(c: Chat, o: Outcome): (r: Chat)
    ensures AllSpace(c.input) || c.loading ==> r == c
    ensures !AllSpace(c.input) && !c.loading ==>
      && r.messages == c.messages + [Message(User, Trim(c.input)), Message(Bot, BotText(o))]
      && !r.loading && r.input == []
  {
    var started := StartSend(c);
    if started.1.None? then c else FinishSend(started.0, o)
  }

  /** The log reads user, bot, user, bot, … */
  ghost predicate Alternating(messages: seq<Message>) {
    |messages| % 2 == 0
    && forall i :: 0 <= i < |messages| ==> messages[i].sender == (if i % 2 == 0 then User else Bot)
  }

  /**
   * A completed send appends exactly the trimmed question and one non-empty
   * answer, so a log that alternated keeps alternating and every exchange is
   * a question followed by its answer.
   */
  lemma SendKeepsAlternation(c: Chat, o: Outcome)
    requires Alternating(c.messages) && !c.loading && !AllSpace(c.input)
    ensures var r := Send(c, o);
      r.messages == c.messages + [Message(User, Trim(c.input)), Message(Bot, BotText(o))]
      && Alternating(r.messages) && !r.loading && r.input == []
  {
    var u := Message(User, Trim(c.input));
    var b := Message(Bot, BotText(o));
    assert c.messages + [u] + [b] == c.messages + [u, b];
    AppendExchange(c.messages, u, b);
  }

  /** A question and its answer appended to an alternating log keep it alternating. */
  lemma AppendExchange(m: seq<Message>, u: Message, b: Message)
    requires Alternating(m) && u.sender == User && b.sender == Bot
    ensures Alternating(m + [u, b])
  {
    var r := m + [u, b];
    forall i | 0 <= i < |r|
      ensures r[i].sender == (if i % 2 == 0 then User else Bot)
    {
      if i == |m| {
        assert r[i] == u;
      } else if i == |m| + 1 {
        assert r[i] == b;
      } else {
        assert r[i] == m[i];
      }
    }
  }

  /** A blank input or a send in flight leaves the page exactly as it was. */
  lemma IgnoredSend(c: Chat, o: Outcome)
    requires AllSpace(c.input) || c.loading
    ensures Send(c, o) == c
  {
  }

  /** Sending a sequence of questions, each answered with the same outcome. */
  function Conversation(c: Chat, questions: seq<string>, o: Outcome): (r: Chat)
    decreases |questions|
  {
    if questions == [] then c else Conversation(Send(c.(input := questions[0]), o), questions[1..], o)
  }

  /** `n` non-blank questions add `2n` messages to an alternating log, which stays alternating. */
  lemma {:induction false} ConversationLength(c: Chat, questions: seq<string>, o: Outcome)
    requires Alternating(c.messages) && !c.loading
    requires forall i :: 0 <= i < |questions| ==> !AllSpace(questions[i])
    ensures var r := Conversation(c, questions, o);
      |r.messages| == |c.messages| + 2 * |questions| && Alternating(r.messages) && !r.loading
    decreases |questions|
  {
    if questions != [] {
      var c' := c.(input := questions[0]);
      SendKeepsAlternation(c', o);
      ConversationLength(Send(c', o), questions[1..], o);
    }
  }
}

=== FILE: doctors.dfy ===
/** The doctor-profile controller: a doctor account creates or edits its one profile; users list them all. */
module Doctors {
  import opened Wrappers
  import opened Store
  import opened Http
  import opened Models
  import opened Documents
  import opened Guard
  import opened Text

  /** Profiles owned by one account. */
  function OwnedBy(owner: Id): DoctorInfo -> bool {
    (d: DoctorInfo) => d.userId == owner
  }

  /**
   * The caller's profile: `findOne({ userId: req.user._id })`. An admin
   * caller has no `_id`; the model chooses to let a filter on an undefined
   * value find nothing (see README, "Left out").
   */
  function ProfileOf(db: Db, c: Caller): (r: Option<Id>)
    ensures r.Some? ==> c.Account? && r.value in db.doctors && db.doctors[r.value].userId == c.id
    ensures r.None? && c.Account? && Below(db.doctors, db.next) ==> ProfilesOf(db.doctors, c.id) == {}
  {
    match ObjectId(c)
    case None => None
    case Some(owner) => FindOne(db.doctors, OwnedBy(owner), db.next)
  }

  /**
   * Why a profile save failed: a number that does not cast, or another check
   * of the schema (a required field, the speciality's enumeration).
   */
  function DoctorFault(f: DoctorFields): (r: Fault)
    ensures r == CastFailure <==> CastFails(f.experience) || CastFails(f.feePerHour)
    ensures r != CastFailure ==> r == SchemaViolation
  {
    if CastFails(f.experience) || CastFails(f.feePerHour) then CastFailure else SchemaViolation
  }

  /**
   * `addOrUpdateDoctorInfo`. An existing profile gets all seven fields
   * overwritten (a field the body leaves out becomes unset and fails the
   * required check) and keeps its owner; otherwise a new profile is created
   * for the caller. Experience and fee are cast to numbers on assignment. A
   * failed save is answered 500 with the error's text and writes nothing.
   */
  function AddOrUpdateDoctorInfo(db: Db, c: Caller, f: DoctorFields): (res: (Reply<DoctorInfo>, Db))
    ensures res.0.status in {200, 201, 500}
    ensures res.0.status == 500 <==> !DoctorFieldsValid(f) || c.Admin?
    ensures res.0.status == 500 ==> res == (Crash(DoctorFault(f)), db)
    ensures res.0.status == 200 <==> ProfileOf(db, c).Some? && DoctorFieldsValid(f)
    ensures res.0.status == 200 ==> res.0.message == Text("Doctor info updated")
    ensures res.0.status == 201 ==> res.0.message == Text("Doctor info added")
    ensures res.0.status != 500 ==> res.1 == db.(doctors := res.1.doctors, next := res.1.next)
    ensures res.0.status != 500 ==>
      c.Account? && res.0.payload.Some? && res.0.payload == NewDoctorInfo(Some(c.id), f)
  {
    match ProfileOf(db, c)
    case Some(id) =>
      (match NewDoctorInfo(Some(db.doctors[id].userId), f)
       case None => (Crash(DoctorFault(f)), db)
       case Some(d) => (Done(200, "Doctor info updated", d), db.(doctors := db.doctors[id := d])))
    case None =>
      match NewDoctorInfo(ObjectId(c), f)
      case None => (Crash(DoctorFault(f)), db)
      case Some(d) => (Done(201, "Doctor info added", d), db.(doctors := db.doctors[db.next := d], next := db.next + 1))
  }

  function EveryProfile(d: DoctorInfo): bool { true }

  /** `listDoctors`: every profile, in insertion order. */
  function ListDoctors(db: Db): (r: Reply<seq<DoctorInfo>>)
    ensures r.status == 200 && r.payload.Some?
    ensures forall d :: d in r.payload.value ==> d in db.doctors.Values
    ensures Below(db.doctors, db.next) ==> forall d :: d in db.doctors.Values ==> d in r.payload.value
  {
    var ids := Find(db.doctors, EveryProfile, db.next);
    var docs := Records(db.doctors, ids);
    assert forall d :: d in docs ==> d in db.doctors.Values by {
      forall d | d in docs ensures d in db.doctors.Values {
        var i :| 0 <= i < |docs| && docs[i] == d;
        assert ids[i] in db.doctors;
      }
    }
    assert Below(db.doctors, db.next) ==> forall d :: d in db.doctors.Values ==> d in docs by {
      if Below(db.doctors, db.next) {
        forall d | d in db.doctors.Values ensures d in docs {
          var k :| k in db.doctors && db.doctors[k] == d;
          assert EveryProfile(d);
          assert k in ids;
          var i :| 0 <= i < |ids| && ids[i] == k;
          assert docs[i] == d;
        }
      }
    }
    Done(200, "", docs)
  }

  /** Saving a profile never gives an account a second one. */
  lemma SaveKeepsOneProfilePerUser(db: Db, c: Caller, f: DoctorFields)
    requires Below(db.doctors, db.next) && OneProfilePerUser(db.doctors)
    ensures OneProfilePerUser(AddOrUpdateDoctorInfo(db, c, f).1.doctors)
  {
    var db1 := AddOrUpdateDoctorInfo(db, c, f).1;
    match ProfileOf(db, c)
    case Some(id) =>
    case None =>
      if c.Account? && DoctorFieldsValid(f) {
        assert ProfilesOf(db.doctors, c.id) == {};
        forall k | k in db.doctors ensures db.doctors[k].userId != c.id {
          assert k !in ProfilesOf(db.doctors, c.id);
        }
      }
  }

  /**
   * Submitting the same profile twice leaves the account with one profile:
   * the first call creates it, the second finds and overwrites it.
   */
  lemma SubmitTwiceKeepsOneProfile(db: Db, c: Caller, f: DoctorFields)
    requires Below(db.doctors, db.next)
    requires AddOrUpdateDoctorInfo(db, c, f).0.status == 201
    ensures var db1 := AddOrUpdateDoctorInfo(db, c, f).1;
      && AddOrUpdateDoctorInfo(db1, c, f).0.status == 200
      && ProfilesOf(AddOrUpdateDoctorInfo(db1, c, f).1.doctors, c.id) == {db.next}
  {
    var d := NewDoctorInfo(Some(c.id), f).value;
    var m := db.doctors;
    assert ProfilesOf(m, c.id) == {};
    forall k | k in m ensures !OwnedBy(c.id)(m[k]) {
      assert k !in ProfilesOf(m, c.id);
    }
    FindOneAfterInsert(m, OwnedBy(c.id), db.next, d);
    var m1 := m[db.next := d];
    var m2 := m1[db.next := d];
    forall k | k in m2 && m2[k].userId == c.id ensures k == db.next {
      assert k !in ProfilesOf(m, c.id) || k == db.next;
    }
  }

  /**
   * Experience given as text with a word in it, like "15 years", fails the
   * Number cast: the reply is 500 with the cast error and nothing is written.
   */
  lemma WordyExperienceRefused(db: Db, c: Caller, f: DoctorFields, i: nat)
    requires f.experience.Some? && f.experience.value.NumberText?
    requires var t := Trim(f.experience.value.text);
      0 < i < |t| && !IsDigit(t[i]) && t[i] != '.'
    ensures AddOrUpdateDoctorInfo(db, c, f) == (Crash(CastFailure), db)
  {
    WordyTextRefused(f.experience.value.text, i);
    assert CastFails(f.experience) && NumberIn(f.experience).None?;
    assert DoctorFault(f) == CastFailure;
  }

  /**
   * A fee sent as the text "w.f" (such as "49.5") is stored as its exact
   * value, fraction included, whenever the save succeeds.
   */
  lemma PointFeeStored(db: Db, c: Caller, f: DoctorFields, w: string, fraction: string)
    requires AllDigits(w) && AllDigits(fraction) && w != []
    requires f.feePerHour == Some(NumberText(w + ['.'] + fraction))
    requires AddOrUpdateDoctorInfo(db, c, f).0.status != 500
    ensures AddOrUpdateDoctorInfo(db, c, f).0.payload.value.feePerHour == PointValue(w, fraction)
  {
    PointTextCasts(w, fraction);
  }

  /** Experience sent as the text of a whole number is stored as that number. */
  lemma WholeExperienceStored(db: Db, c: Caller, f: DoctorFields, n: nat)
    requires f.experience == Some(NumberText(Decimal(n)))
    requires AddOrUpdateDoctorInfo(db, c, f).0.status != 500
    ensures AddOrUpdateDoctorInfo(db, c, f).0.payload.value.experience == n as real
  {
    WholeNumberTextCasts(n);
  }

  /** Editing a profile leaves every other collection alone, bookings included. */
  lemma UpdateLeavesBookings(db: Db, c: Caller, f: DoctorFields)
    ensures var db1 := AddOrUpdateDoctorInfo(db, c, f).1;
      db1.bookings == db.bookings && db1.slots == db.slots && db1.users == db.users
  {
  }
}

=== FILE: documents.dfy ===
/** The collections the backend reads and writes, and the invariants kept across them. */
module Documents {
  import opened Wrappers
  import opened Store
  import opened Models

  datatype Db = Db(
    users: map<Id, User>,
    doctors: map<Id, DoctorInfo>,
    slots: map<Id, Slot>,
    bookings: map<Id, Booking>,
    forms: map<Id, UserForm>,
    analyses: map<Id, EmotionAnalysis>,
    next: nat)                          // the next id to hand out

  /** Every id in use was handed out before `next`. */
  ghost predicate Fresh(db: Db) {
    && Below(db.users, db.next) && Below(db.doctors, db.next) && Below(db.slots, db.next)
    && Below(db.bookings, db.next) && Below(db.forms, db.next) && Below(db.analyses, db.next)
  }

  /** The unique indexes on userName, email, googleId and twitterId hold. */
  ghost predicate UniqueUsers(users: map<Id, User>) {
    forall i, j :: i in users && j in users && i != j ==> !Clash(users[i], users[j])
  }

  /** Every stored user passed schema validation. */
  ghost predicate ValidUsers(users: map<Id, User>) {
    forall i :: i in users ==> UserValid(users[i])
  }

  /** At most one profile per owning user. */
  ghost predicate OneProfilePerUser(doctors: map<Id, DoctorInfo>) {
    forall i, j :: i in doctors && j in doctors && doctors[i].userId == doctors[j].userId ==> i == j
  }

  /** At most one intake form per user (the unique index on `user`). */
  ghost predicate OneFormPerUser(forms: map<Id, UserForm>) {
    forall i, j :: i in forms && j in forms && forms[i].user == forms[j].user ==> i == j
  }

  /** The ids of the profiles owned by `owner`. */
  function ProfilesOf(doctors: map<Id, DoctorInfo>, owner: Id): set<Id> {
    set k | k in doctors && doctors[k].userId == owner
  }

  /** The ids of the forms belonging to `owner`. */
  function FormsOf(forms: map<Id, UserForm>, owner: Id): set<Id> {
    set k | k in forms && forms[k].user == owner
  }

  /** Looking a record up by id: `findById`, where an absent id finds nothing. */
  function ById<T>(m: map<Id, T>, id: Option<Id>): (r: Option<T>)
    ensures r.Some? <==> id.Some? && id.value in m
    ensures r.Some? ==> r.value == m[id.value]
  {
    if id.Some? && id.value in m then Some(m[id.value]) else None
  }

  /** A user document that may be inserted: no unique index objects. */
  predicate Admissible(users: map<Id, User>, u: User) {
    forall k :: k in users ==> !Clash(users[k], u) && !Clash(u, users[k])
  }

  /** Inserting one user keeps the unique indexes and the schema invariant. */
  lemma InsertUserKeepsInvariants(db: Db, u: User)
    requires Fresh(db) && UniqueUsers(db.users) && ValidUsers(db.users)
    requires UserValid(u) && Admissible(db.users, u)
    ensures UniqueUsers(db.users[db.next := u]) && ValidUsers(db.users[db.next := u])
  {
  }
}

=== FILE: emotion.dfy ===
/**
 * The emotion controller: an uploaded face picture is sent to a hosted
 * model with the next API key in a round-robin list, and the one-word answer
 * is stored.
 */
module Emotion {
  import opened Wrappers
  import opened Store
  import opened Text
  import opened Http
  import opened Models
  import opened Documents
  import opened Guard

  // ---------------------------------------------------------------------------
  // The API-key ring
  // ---------------------------------------------------------------------------

  /**
   * The key list from the GOOGLE_API_KEYS setting: the comma-separated
   * entries, or none when the setting is unset or empty.
   */
  function ParseKeys(setting: Option<string>): (keys: seq<string>)
    ensures setting.None? || setting.value == [] <==> keys == []
    ensures keys != [] ==> Join(keys, ',') == setting.value
    ensures forall i :: 0 <= i < |keys| ==> ',' !in keys[i]
  {
    match setting
    case None => []
    case Some(s) => if s == [] then [] else SplitJoin(s, ','); Split(s, ',')
  }

  /** `currentKeyIndex`: a position, or NaN once `% 0` has been taken on an empty list. */
  datatype KeyIndex = At(i: nat) | NaN

  datatype KeyRing = KeyRing(keys: seq<string>, index: KeyIndex)

  /** The state at start-up. */
  function StartRing(setting: Option<string>): KeyRing {
    KeyRing(ParseKeys(setting), At(0))
  }

  /** The index names an existing key. */
  predicate InRange(r: KeyRing) {
    r.index.At? && r.index.i < |r.keys|
  }

  /**
   * `getNextApiKey`: the key at the index (undefined past the end or at NaN),
   * then the index advanced modulo the list length; on an empty list the
   * modulo yields NaN, and NaN stays NaN.
   */
  function NextKey(r: KeyRing): (res: (Option<string>, KeyRing))
    ensures res.1.keys == r.keys
    ensures res.0.Some? <==> InRange(r)
    ensures InRange(r) ==> res.0 == Some(r.keys[r.index.i]) && InRange(res.1)
    ensures r.keys == [] ==> res.1.index == NaN
  {
    match r.index
    case NaN => (None, r)
    case At(i) =>
      var key := if i < |r.keys| then Some(r.keys[i]) else None;
      if |r.keys| == 0 then (key, r.(index := NaN))
      else (key, r.(index := At((i + 1) % |r.keys|)))
  }

  /** The keys handed out by `n` calls in a row. */
  function Draw(r: KeyRing, n: nat): (keys: seq<Option<string>>)
    ensures |keys| == n
    decreases n
  {
    if n == 0 then [] else [NextKey(r).0] + Draw(NextKey(r).1, n - 1)
  }

  /** The ring after `n` calls. */
  function After(r: KeyRing, n: nat): (r1: KeyRing)
    ensures r1.keys == r.keys
    decreases n
  {
    if n == 0 then r else After(NextKey(r).1, n - 1)
  }

  /** Every entry of `s`, each as a defined key. */
  function Defined(s: seq<string>): (r: seq<Option<string>>)
    ensures |r| == |s|
  {
    if s == [] then [] else [Some(s[0])] + Defined(s[1..])
  }

  lemma {:induction false} DefinedConcat(a: seq<string>, b: seq<string>)
    ensures Defined(a + b) == Defined(a) + Defined(b)
  {
    if a != [] {
      DefinedConcat(a[1..], b);
      assert (a + b)[0] == a[0];
      assert (a + b)[1..] == a[1..] + b;
      assert Defined(a + b) == [Some(a[0])] + Defined(a[1..] + b);
    } else {
      assert a + b == b;
    }
  }

  /** One call from an index inside the list moves to the following index, or back to 0 after the last. */
  lemma StepInRange(r: KeyRing)
    requires InRange(r)
    ensures NextKey(r).1.index == At(if r.index.i + 1 < |r.keys| then r.index.i + 1 else 0)
  {
    var n := |r.keys|;
    var i := r.index.i;
    if i + 1 < n {
      assert (i + 1) % n == i + 1;
    } else {
      assert i + 1 == n;
      assert n % n == 0;
    }
  }

  /** Drawing `a + b` keys is drawing `a`, then `b` more from where that left off. */
  lemma {:induction false} DrawSplit(r: KeyRing, a: nat, b: nat)
    ensures Draw(r, a + b) == Draw(r, a) + Draw(After(r, a), b)
    ensures After(r, a + b) == After(After(r, a), b)
    decreases a
  {
    if a > 0 {
      DrawSplit(NextKey(r).1, a - 1, b);
      assert a + b - 1 == (a - 1) + b;
    }
  }

  /** Until the end of the list, calls hand out the keys in list order. */
  lemma {:induction false} DrawRun(r: KeyRing, n: nat)
    requires InRange(r) && r.index.i + n <= |r.keys|
    ensures Draw(r, n) == Defined(r.keys[r.index.i..r.index.i + n])
    ensures After(r, n).index == At(if r.index.i + n < |r.keys| then r.index.i + n else 0)
    decreases n
  {
    if n > 0 {
      var i := r.index.i;
      StepInRange(r);
      var r1 := NextKey(r).1;
      var run := r.keys[i..i + n];
      assert Draw(r, n) == [Some(r.keys[i])] + Draw(r1, n - 1);
      assert Defined(run) == [Some(r.keys[i])] + Defined(run[1..]);
      if n > 1 {
        DrawRun(r1, n - 1);
        assert run[1..] == r.keys[i + 1..i + n];
      }
    }
  }

  /** From the current index to the end of the list, then back at the start. */
  lemma RunToEnd(r: KeyRing)
    requires InRange(r)
    ensures Draw(r, |r.keys| - r.index.i) == Defined(r.keys[r.index.i..])
    ensures After(r, |r.keys| - r.index.i) == KeyRing(r.keys, At(0))
  {
    var n := |r.keys| - r.index.i;
    DrawRun(r, n);
    assert r.keys[r.index.i..r.index.i + n] == r.keys[r.index.i..];
  }

  /** From the start of the list up to index `i`. */
  lemma RunFromStart(keys: seq<string>, i: nat)
    requires i <= |keys|
    ensures Draw(KeyRing(keys, At(0)), i) == Defined(keys[..i])
    ensures i < |keys| ==> After(KeyRing(keys, At(0)), i) == KeyRing(keys, At(i))
  {
    if i > 0 {
      DrawRun(KeyRing(keys, At(0)), i);
      assert keys[0..0 + i] == keys[..i];
    }
  }

  /**
   * With `n` keys, `n` calls in a row hand out every key exactly once, in
   * list order, starting at the current one and wrapping around, and leave
   * the index where it was.
   */
  lemma EveryKeyOnce(r: KeyRing)
    requires InRange(r)
    ensures Draw(r, |r.keys|) == Defined(r.keys[r.index.i..] + r.keys[..r.index.i])
    ensures After(r, |r.keys|) == r
  {
    var L := |r.keys|;
    var i := r.index.i;
    var n := L - i;
    DrawSplit(r, n, i);
    assert n + i == L;
    RunToEnd(r);
    RunFromStart(r.keys, i);
    DefinedConcat(r.keys[i..], r.keys[..i]);
  }

  /** Without keys every call hands out an undefined key, and the index is NaN from the first call on. */
  lemma {:induction false} NoKeys(r: KeyRing, n: nat)
    requires r.keys == [] && n > 0
    ensures Draw(r, n) == seq(n, j => None)
    ensures forall j :: 0 <= j < n ==> Draw(r, n)[j] == None
    decreases n
  {
    if n > 1 {
      NoKeys(NextKey(r).1, n - 1);
    }
  }

  // ---------------------------------------------------------------------------
  // analyzeEmotion
  // ---------------------------------------------------------------------------

  /** The uploaded picture as multer's memory storage hands it over. */
  datatype Upload = Upload(buffer: seq<bv8>, mimetype: string)

  /** The answer words the prompt allows, in the prompt's order. */
  const PromptChoices: seq<string> := ["Anger", "Disgust", "Fear", "Happiness", "Sadness", "Surprise", "Neutral"]

  /** What the success reply reports. */
  datatype AnalysisView = AnalysisView(userId: Id, emotion: string, imageId: Id)

  /**
   * `analyzeEmotion`. `caller` is `req.user`; `model` is the hosted model
   * called with a key and the picture, answering text or failing. The file
   * is checked before the caller, and the key index moves only once both
   * checks pass; any later failure is answered 500 with the fixed message.
   */
  function AnalyzeEmotion(file: Option<Upload>, caller: Option<Caller>, ring: KeyRing,
                          model: (Option<string>, Upload) -> Option<string>, db: Db)
    : (res: (Reply<AnalysisView>, KeyRing, Db))
    ensures file.None? ==> res == (Fail(400, "No image file uploaded."), ring, db)
    ensures file.Some? && (caller.None? || IdField(caller.value).None?) ==>
      res == (Fail(401, "Unauthorized. User ID not found in token."), ring, db)
    ensures res.0.status in {200, 400, 401, 500}
    ensures res.0.status == 500 ==> res.0 == Fail(500, "Failed to analyze the image.") && res.2 == db
    ensures res.0.status in {200, 500} ==> res.1 == NextKey(ring).1
    ensures res.0.status == 200 ==>
      && res.0.message == Text("Emotion analyzed and saved successfully")
      && res.0.payload.Some? && res.0.payload.value.imageId == db.next
      && res.2 == db.(analyses := res.2.analyses, next := db.next + 1)
  {
    if file.None? then (Fail(400, "No image file uploaded."), ring, db)
    else
      var userId := if caller.None? then None else IdField(caller.value);
      if userId.None? then (Fail(401, "Unauthorized. User ID not found in token."), ring, db)
      else
        var step := NextKey(ring);
        var key, ring1 := step.0, step.1;
        match model(key, file.value)
        case None => (Fail(500, "Failed to analyze the image."), ring1, db)
        case Some(text) =>
          var emotion := Trim(text);
          match NewEmotionAnalysis(userId, Image(Some(file.value.buffer), Some(file.value.mimetype)), emotion)
          case None => (Fail(500, "Failed to analyze the image."), ring1, db)
          case Some(a) =>
            (Done(200, "Emotion analyzed and saved successfully", AnalysisView(userId.value, emotion, db.next)),
             ring1, db.(analyses := db.analyses[db.next := a], next := db.next + 1))
  }

  /**
   * A stored analysis holds the caller's id, the picture with its type, and
   * the model's answer trimmed; it is stored exactly when that trimmed
   * answer is one of the seven words.
   */
  lemma AnalysisStored(file: Upload, c: Caller, ring: KeyRing,
                       model: (Option<string>, Upload) -> Option<string>, db: Db)
    requires IdField(c).Some?
    requires model(NextKey(ring).0, file).Some?
    ensures var after := AnalyzeEmotion(Some(file), Some(c), ring, model, db);
      var answer := Trim(model(NextKey(ring).0, file).value);
      && (after.0.status == 200 <==> answer in Emotions)
      && (after.0.status == 200 ==>
            && after.0.payload.value == AnalysisView(IdField(c).value, answer, db.next)
            && after.2.analyses == db.analyses[db.next := EmotionAnalysis(IdField(c).value,
                 Image(Some(file.buffer), Some(file.mimetype)), answer)])
  {
    var answer := Trim(model(NextKey(ring).0, file).value);
    var image := Image(Some(file.buffer), Some(file.mimetype));
    var stored := NewEmotionAnalysis(IdField(c), image, answer);
    var after := AnalyzeEmotion(Some(file), Some(c), ring, model, db);
    if answer in Emotions {
      assert stored == Some(EmotionAnalysis(IdField(c).value, image, answer));
      assert after.0.status == 200;
    } else {
      assert stored.None?;
      assert after.0.status == 500;
    }
  }

  /** The words the prompt asks for are exactly the ones the schema accepts. */
  lemma PromptMatchesSchema()
    ensures forall w :: w in PromptChoices <==> w in Emotions
  {
  }
}

=== FILE: errors.dfy ===
/**
 * The error-to-reply mapping: the `notFound` and `errorHandler` middleware,
 * which the server defines but does not mount, and the inline fallback
 * handler it installs after its routers.
 */
module Errors {
  import opened Wrappers
  import opened Http

  /**
   * An error handed to `next(err)`: the optional `statusCode` and `status`
   * properties (0 stands for a falsy number) and the message text.
   */
  datatype Error = Error(statusCode: Option<nat>, status: Option<nat>, message: string)

  const GenericMessage := "Internal server error"

  /** The inline handler spells its fallback with capitals. */
  const InlineMessage := "Internal Server Error"

  /** `code || fallback` on an optional number: an absent or zero code falls back. */
  function OrElse(code: Option<nat>, fallback: nat): (r: nat)
    ensures r == fallback || (code.Some? && r == code.value && r != 0)
    ensures code.Some? && code.value != 0 ==> r == code.value
  {
    if code.Some? && code.value != 0 then code.value else fallback
  }

  /**
   * `notFound`: a request that reaches it gets 404 "Route not found". The
   * server never mounts it (see `Routes.UnmatchedMissesNotFound`).
   */
  function NotFound(): (r: Reply<()>)
    ensures r.status == 404 && r.message == Text("Route not found") && r.payload.None?
  {
    Fail(404, "Route not found")
  }

  /** True when `NODE_ENV` is "production". */
  predicate Production(nodeEnv: Option<string>) {
    nodeEnv == Some("production")
  }

  /**
   * `errorHandler`: the status is the error's `statusCode`, else 500; the
   * message is hidden in production and otherwise the error's own, with a
   * generic fallback for an empty one.
   */
  function ErrorHandler(err: Error, nodeEnv: Option<string>): (r: Reply<()>)
    ensures r.status == OrElse(err.statusCode, 500)
    ensures r.message.Text? && r.message.text != []
    ensures Production(nodeEnv) ==> r.message == Text(GenericMessage)
    ensures !Production(nodeEnv) && err.message != [] ==> r.message == Text(err.message)
    ensures r.payload.None?
  {
    var message := if Production(nodeEnv) then GenericMessage
      else if err.message != [] then err.message else GenericMessage;
    Fail(OrElse(err.statusCode, 500), message)
  }

  /** The inline fallback handler: `err.status || 500` and `err.message || "Internal Server Error"`. */
  function InlineHandler(err: Error): (r: Reply<()>)
    ensures r.status == OrElse(err.status, 500)
    ensures r.message == Text(if err.message != [] then err.message else InlineMessage)
    ensures r.payload.None?
  {
    Fail(OrElse(err.status, 500), if err.message != [] then err.message else InlineMessage)
  }

  /** In production two errors with the same status code get the same reply, whatever their messages. */
  lemma ProductionHidesMessage(a: Error, b: Error, nodeEnv: Option<string>)
    requires Production(nodeEnv)
    requires OrElse(a.statusCode, 500) == OrElse(b.statusCode, 500)
    ensures ErrorHandler(a, nodeEnv) == ErrorHandler(b, nodeEnv)
  {
  }

  /** Every error reply is a 500 unless the error carries a non-zero status code. */
  lemma ServerErrorByDefault(err: Error, nodeEnv: Option<string>)
    ensures ErrorHandler(err, nodeEnv).status != 500 ==> err.statusCode.Some? && err.statusCode.value !in {0, 500}
  {
  }

  /**
   * The two handlers read different properties: an error with `statusCode`
   * 404 and no `status` is a 404 for `errorHandler` but a 500 for the inline
   * handler, and an empty message falls back to differently spelt texts.
   */
  lemma HandlersDisagree(nodeEnv: Option<string>)
    requires !Production(nodeEnv)
    ensures var err := Error(Some(404), None, "");
      ErrorHandler(err, nodeEnv) == Fail(404, GenericMessage) && InlineHandler(err) == Fail(500, InlineMessage)
  {
  }
}

=== FILE: federation.dfy ===
/**
 * The Google and Twitter verify callbacks. Each finds the account by its
 * provider id, creates it on first sight with the role the OAuth 2.0 `state`
 * parameter asked for, and overwrites a stored role that differs. Whatever
 * the callback throws is handed to `done` as a failure.
 */
module Federation {
  import opened Wrappers
  import opened Store
  import opened Text
  import opened Http
  import opened Models
  import opened Documents

  /** The role a callback grants: "doctor" exactly when `state` is "doctor", "user" otherwise. */
  function RequestedRole(state: Option<string>): (r: string)
    ensures r == "doctor" <==> state == Some("doctor")
    ensures r == "user" <==> state != Some("doctor")
  {
    if state == Some("doctor") then "doctor" else "user"
  }

  /** The fields of a provider profile the callbacks read; an empty `emails` stands for a missing list. */
  datatype GoogleProfile = GoogleProfile(id: string, displayName: Option<string>, emails: seq<string>)

  datatype TwitterProfile = TwitterProfile(
    id: string,
    username: Option<string>,
    displayName: Option<string>,
    emails: seq<string>)

  /** What the callback hands to `done`: the account, or the error it caught. */
  datatype Outcome = Authenticated(id: Id, user: User) | Failed(fault: Fault)

  function WithGoogleId(gid: string): User -> bool {
    (u: User) => u.googleId == Some(gid)
  }

  function WithTwitterId(tid: string): User -> bool {
    (u: User) => u.twitterId == Some(tid)
  }

  /**
   * A found account: the role is set to `role` and saved when it differs. The
   * saved document only changes an enumerated field to an allowed value, so
   * the save cannot be refused.
   */
  function Reconcile(db: Db, id: Id, role: string): (res: (Outcome, Db))
    requires id in db.users && role in Roles
    ensures res.0 == Authenticated(id, db.users[id].(role := role))
    ensures res.1 == db.(users := db.users[id := res.0.user])
    ensures db.users[id].role == role ==> res.1 == db
  {
    var u := db.users[id];
    if u.role == role then
      assert db.users[id := u] == db.users;
      (Authenticated(id, u), db)
    else
      var u1 := u.(role := role);
      (Authenticated(id, u1), db.(users := db.users[id := u1]))
  }

  /** `UserModel.create(draft)`: schema validation, then the unique indexes, then the insert. */
  function Create(db: Db, d: UserDraft): (res: (Outcome, Db))
    ensures res.0.Authenticated? <==> NewUser(d).Some? && Admissible(db.users, NewUser(d).value)
    ensures res.0.Authenticated? ==>
      && res.0 == Authenticated(db.next, NewUser(d).value)
      && res.1 == db.(users := db.users[db.next := res.0.user], next := db.next + 1)
    ensures NewUser(d).None? ==> res.0 == Failed(SchemaViolation)
    ensures res.0.Failed? ==> res.1 == db
  {
    match NewUser(d)
    case None => (Failed(SchemaViolation), db)
    case Some(u) =>
      if Admissible(db.users, u) then
        (Authenticated(db.next, u), db.(users := db.users[db.next := u], next := db.next + 1))
      else (Failed(DuplicateKey), db)
  }

  /** The document a first Google sign-in creates: userName is the address up to its "@". */
  function GoogleDraft(p: GoogleProfile, role: string): UserDraft
    requires p.emails != []
  {
    UserDraft(p.displayName, Some(Before(p.emails[0], '@')), Some(p.emails[0]), None, Some(role), Some(p.id), None)
  }

  /** The Google verify callback. */
  function GoogleVerify(db: Db, state: Option<string>, p: GoogleProfile): (res: (Outcome, Db))
    ensures res.0.Authenticated? ==>
      && res.0.user.role == RequestedRole(state)
      && res.0.user.googleId == Some(p.id)
      && res.0.id in res.1.users && res.1.users[res.0.id] == res.0.user
    ensures res.0.Failed? ==> res.1 == db
  {
    var role := RequestedRole(state);
    match FindOne(db.users, WithGoogleId(p.id), db.next)
    case Some(id) => Reconcile(db, id, role)
    case None =>
      // `profile.emails[0].value` throws when the list is missing or empty
      if p.emails == [] then (Failed(NullDereference), db)
      else Create(db, GoogleDraft(p, role))
  }

  /** The userName a first Twitter sign-in asks for: the handle, else the display name lowercased without spaces. */
  function TwitterUserName(p: TwitterProfile): (r: Option<string>)
    ensures r.None? <==> !Filled(p.username) && p.displayName.None?
    ensures Filled(p.username) ==> r == p.username
  {
    if Filled(p.username) then p.username
    else if p.displayName.Some? then Some(RemoveSpace(Lower(p.displayName.value)))
    else None
  }

  function TwitterDraft(p: TwitterProfile, userName: string, role: string): UserDraft {
    UserDraft(p.displayName, Some(userName), if p.emails == [] then None else Some(p.emails[0]),
              None, Some(role), None, Some(p.id))
  }

  /** The Twitter verify callback; the profile may carry no address at all. */
  function TwitterVerify(db: Db, state: Option<string>, p: TwitterProfile): (res: (Outcome, Db))
    ensures res.0.Authenticated? ==>
      && res.0.user.role == RequestedRole(state)
      && res.0.user.twitterId == Some(p.id)
      && res.0.id in res.1.users && res.1.users[res.0.id] == res.0.user
    ensures res.0.Failed? ==> res.1 == db
  {
    var role := RequestedRole(state);
    match FindOne(db.users, WithTwitterId(p.id), db.next)
    case Some(id) => Reconcile(db, id, role)
    case None =>
      match TwitterUserName(p)
      // `profile.displayName.toLowerCase()` throws when there is no display name
      case None => (Failed(NullDereference), db)
      case Some(userName) => Create(db, TwitterDraft(p, userName, role))
  }

  /** `serializeUser` keeps the id; `deserializeUser` looks it up again. */
  function Deserialize(db: Db, key: Id): (r: Option<User>)
    ensures r.Some? <==> key in db.users
    ensures r.Some? ==> r.value == db.users[key]
  {
    ById(db.users, Some(key))
  }

  /** The session key a callback's account serializes to reads back as that account. */
  lemma SessionRoundTrip(db: Db, state: Option<string>, p: GoogleProfile)
    requires GoogleVerify(db, state, p).0.Authenticated?
    ensures var after := GoogleVerify(db, state, p); var o, db1 := after.0, after.1;
            Deserialize(db1, o.id) == Some(o.user)
  {
  }

  /** A returning Google user whose role already matches signs in without any write. */
  lemma GoogleMatchingRoleWritesNothing(db: Db, state: Option<string>, p: GoogleProfile, id: Id)
    requires FindOne(db.users, WithGoogleId(p.id), db.next) == Some(id)
    requires db.users[id].role == RequestedRole(state)
    ensures GoogleVerify(db, state, p) == (Authenticated(id, db.users[id]), db)
  {
  }

  /** A returning Google user with another role, even seller or organizer, is switched to the requested one and nothing else changes. */
  lemma GoogleOverwritesRole(db: Db, state: Option<string>, p: GoogleProfile, id: Id)
    requires FindOne(db.users, WithGoogleId(p.id), db.next) == Some(id)
    ensures var u := db.users[id].(role := RequestedRole(state));
            GoogleVerify(db, state, p) == (Authenticated(id, u), db.(users := db.users[id := u]))
  {
  }

  /**
   * A first Google sign-in stores the provider id, the display name (trimmed),
   * the first address, the requested role, no password, and the address up to
   * its "@" as userName (both lowercased by the schema).
   */
  lemma GoogleCreatesAccount(db: Db, state: Option<string>, p: GoogleProfile)
    requires FindOne(db.users, WithGoogleId(p.id), db.next).None?
    requires GoogleVerify(db, state, p).0.Authenticated?
    ensures p.emails != [] && p.displayName.Some?
    ensures var after := GoogleVerify(db, state, p); var o, db1 := after.0, after.1;
      && o.id == db.next && db1.next == db.next + 1
      && o.user.email == Lower(p.emails[0])
      && o.user.userName == Lower(Before(p.emails[0], '@'))
      && o.user.name == Trim(p.displayName.value)
      && o.user.password == None && o.user.twitterId == None
  {
    LowerIdempotent(p.emails[0]);
  }

  /** A Google profile without addresses throws before anything is written. */
  lemma GoogleWithoutEmailFails(db: Db, state: Option<string>, p: GoogleProfile)
    requires FindOne(db.users, WithGoogleId(p.id), db.next).None?
    requires p.emails == []
    ensures GoogleVerify(db, state, p) == (Failed(NullDereference), db)
  {
  }

  /**
   * The lookup is by provider id only: a local account holding the profile's
   * address is not linked, and the create that follows fails on a unique
   * index (or on validation) without writing.
   */
  lemma GoogleDoesNotLinkByEmail(db: Db, state: Option<string>, p: GoogleProfile, k: Id)
    requires FindOne(db.users, WithGoogleId(p.id), db.next).None?
    requires p.emails != [] && k in db.users && db.users[k].email == Lower(p.emails[0])
    ensures GoogleVerify(db, state, p).0.Failed? && GoogleVerify(db, state, p).1 == db
  {
    var d := GoogleDraft(p, RequestedRole(state));
    if NewUser(d).Some? {
      assert Clash(db.users[k], NewUser(d).value);
    }
  }

  /**
   * Signing in with Google as a user and then as a doctor keeps one account
   * under the same id, now holding the doctor role.
   */
  lemma {:induction false} UserThenDoctor(db: Db, p: GoogleProfile)
    requires Below(db.users, db.next)
    requires GoogleVerify(db, None, p).0.Authenticated?
    ensures var after := GoogleVerify(db, None, p); var o1, db1 := after.0, after.1;
            var after2 := GoogleVerify(db1, Some("doctor"), p); var o2, db2 := after2.0, after2.1;
            && o2.Authenticated? && o2.id == o1.id && o2.user == o1.user.(role := "doctor")
            && db2.users.Keys == db1.users.Keys
  {
    var after := GoogleVerify(db, None, p); var o1, db1 := after.0, after.1;
    GoogleFindsAgain(db, None, p);
    GoogleOverwritesRole(db1, Some("doctor"), p, o1.id);
  }

  /** After a successful Google callback, the next lookup by the same provider id finds the same account. */
  lemma GoogleFindsAgain(db: Db, state: Option<string>, p: GoogleProfile)
    requires Below(db.users, db.next)
    requires GoogleVerify(db, state, p).0.Authenticated?
    ensures var after := GoogleVerify(db, state, p); var o, db1 := after.0, after.1;
            FindOne(db1.users, WithGoogleId(p.id), db1.next) == Some(o.id)
  {
    var q := WithGoogleId(p.id);
    match FindOne(db.users, q, db.next)
    case Some(id) =>
      ReconcileFindsAgain(db, id, RequestedRole(state), q);
    case None =>
      var d := GoogleDraft(p, RequestedRole(state));
      CreateInserts(db, d, q);
      InsertedUserFound(db.users, db.next, Create(db, d).0.user, q);
  }

  /** A reconciled account is still found by a query on a field other than the role. */
  lemma ReconcileFindsAgain(db: Db, id: Id, role: string, q: User -> bool)
    requires id in db.users && role in Roles
    requires FindOne(db.users, q, db.next) == Some(id)
    requires forall u: User :: q(u) == q(u.(role := role))
    ensures var after := Reconcile(db, id, role); var o, db1 := after.0, after.1;
            FindOne(db1.users, q, db1.next) == Some(id)
  {
    var u := db.users[id].(role := role);
    assert q(u) == q(db.users[id]);
    FindOneAfterUpdate(db.users, q, db.next, id, u);
  }

  lemma InsertedUserFound(users: map<Id, User>, next: nat, u: User, q: User -> bool)
    requires Below(users, next)
    requires forall k :: k in users ==> !q(users[k])
    requires q(u)
    ensures FindOne(users[next := u], q, next + 1) == Some(next)
  {
    FindOneAfterInsert(users, q, next, u);
  }

  lemma CreateInserts(db: Db, d: UserDraft, q: User -> bool)
    requires Below(db.users, db.next)
    requires forall k :: k in db.users ==> !q(db.users[k])
    requires Create(db, d).0.Authenticated? && q(Create(db, d).0.user)
    ensures Create(db, d).1.users == db.users[db.next := Create(db, d).0.user]
  {
  }

  /** A Twitter profile without an address fails the schema's required email and writes nothing. */
  lemma TwitterWithoutEmailFails(db: Db, state: Option<string>, p: TwitterProfile)
    requires FindOne(db.users, WithTwitterId(p.id), db.next).None?
    requires p.emails == [] && (Filled(p.username) || p.displayName.Some?)
    ensures TwitterVerify(db, state, p) == (Failed(SchemaViolation), db)
  {
  }

  /** A first Twitter sign-in stores the handle, else the display name lowercased with whitespace removed. */
  lemma TwitterCreatesAccount(db: Db, state: Option<string>, p: TwitterProfile)
    requires FindOne(db.users, WithTwitterId(p.id), db.next).None?
    requires TwitterVerify(db, state, p).0.Authenticated?
    ensures p.emails != [] && p.displayName.Some?
    ensures var after := TwitterVerify(db, state, p); var o, db1 := after.0, after.1;
      && o.id == db.next
      && o.user.email == Lower(p.emails[0])
      && o.user.userName == Lower(if Filled(p.username) then p.username.value else RemoveSpace(Lower(p.displayName.value)))
      && o.user.googleId == None && o.user.password == None
  {
  }
}

=== FILE: guard.dfy ===
/**
 * The bearer-token middleware: it reads the Authorization header, checks the
 * token with the access secret, lets an "admin" token through on its claims
 * alone, and otherwise attaches the stored user the token names.
 */
module Guard {
  import opened Wrappers
  import opened Store
  import opened Text
  import opened Models
  import opened Documents
  import opened Tokens

  /**
   * Who `req.user` is after the middleware: a stored user document, or the
   * decoded claims of an admin token.
   */
  datatype Caller = Account(id: Id, user: User) | Admin(claims: Claims)

  /** `req.user._id`: a document's id; decoded claims have no `_id`. */
  function ObjectId(c: Caller): (r: Option<Id>)
    ensures r.Some? <==> c.Account?
    ensures c.Account? ==> r == Some(c.id)
  {
    match c
    case Account(id, _) => Some(id)
    case Admin(_) => None
  }

  /** `req.user.id`: the document's id, or the `id` claim of an admin token. */
  function IdField(c: Caller): (r: Option<Id>)
    ensures c.Account? ==> r == Some(c.id)
    ensures c.Admin? ==> r == c.claims.id
  {
    match c
    case Account(id, _) => Some(id)
    case Admin(claims) => claims.id
  }

  /** The middleware's decision: call `next` with a caller, or answer 401 with a message. */
  datatype Gate = Pass(caller: Caller) | Deny(message: string)

  const BearerPrefix: string := "Bearer "

  /**
   * `verifyToken`. `decode` reads a token text back into the token it encodes
   * (`None` for text that is not a token), `env` holds the secrets' values,
   * `expired` says whether the clock is past the token's lifetime, and
   * `storeUp` whether the user lookup answers rather than throws.
   */
  function VerifyToken(header: Option<string>, decode: string -> Option<Jwt>, env: Env, expired: bool, db: Db, storeUp: bool): (g: Gate)
    ensures header.None? || !StartsWith(header.value, BearerPrefix) ==> g == Deny("No token provided")
    ensures g.Deny? ==> g.message in {"No token provided", "Invalid or expired token", "Invalid token - user not found"}
    ensures g.Pass? && g.caller.Account? ==> g.caller.id in db.users && g.caller.user == db.users[g.caller.id]
    ensures g.Pass? && g.caller.Admin? ==> g.caller.claims.role == Some("admin")
    ensures g.Pass? ==>
      && header.Some? && StartsWith(header.value, BearerPrefix)
      && var jwt := decode(ReplaceFirst(header.value, BearerPrefix, ""));
      && jwt.Some? && !expired && SecretValue(env, jwt.value.key) == env.accessSecret
      && (g.caller.Admin? ==> g.caller.claims == jwt.value.claims)
      && (g.caller.Account? ==> storeUp && jwt.value.claims.id == Some(g.caller.id))
  {
    if header.None? || !StartsWith(header.value, BearerPrefix) then Deny("No token provided")
    else
      var token := ReplaceFirst(header.value, BearerPrefix, "");
      match decode(token)
      case None => Deny("Invalid or expired token")
      case Some(jwt) =>
        match Verify(jwt, env, AccessSecret, expired)
        case None => Deny("Invalid or expired token")
        case Some(claims) =>
          if claims.role == Some("admin") then Pass(Admin(claims))
          else if !storeUp then Deny("Invalid or expired token")
          else
            match ById(db.users, claims.id)
            case None => Deny("Invalid token - user not found")
            case Some(u) => Pass(Account(claims.id.value, u))
  }

  /**
   * Everything that throws inside the check is caught and answered with the
   * same 401 message: text that is not a token, a signature under another
   * secret's value, an expired token, and a lookup that fails for a token
   * that is not an admin's.
   */
  lemma ThrownErrorsRefused(header: string, decode: string -> Option<Jwt>, env: Env, expired: bool, db: Db, storeUp: bool)
    requires StartsWith(header, BearerPrefix)
    requires var jwt := decode(ReplaceFirst(header, BearerPrefix, ""));
      || jwt.None?
      || expired
      || SecretValue(env, jwt.value.key) != env.accessSecret
      || (jwt.value.claims.role != Some("admin") && !storeUp)
    ensures VerifyToken(Some(header), decode, env, expired, db, storeUp) == Deny("Invalid or expired token")
  {
  }

  /** The token the middleware checks is the header without its "Bearer " prefix. */
  lemma TokenIsHeaderTail(header: string)
    requires StartsWith(header, BearerPrefix)
    ensures ReplaceFirst(header, BearerPrefix, "") == header[|BearerPrefix|..]
  {
    ReplacePrefix(header, BearerPrefix);
  }

  /** An unexpired access token for a stored user attaches exactly that user. */
  lemma AccessTokenAttachesUser(tokenText: string, decode: string -> Option<Jwt>, env: Env, db: Db, id: Id)
    requires id in db.users && db.users[id].role in Roles
    requires decode(tokenText) == Some(AccessToken(id, db.users[id]))
    ensures VerifyToken(Some(BearerPrefix + tokenText), decode, env, false, db, true) == Pass(Account(id, db.users[id]))
  {
    var h := BearerPrefix + tokenText;
    assert StartsWith(h, BearerPrefix);
    TokenIsHeaderTail(h);
    assert h[|BearerPrefix|..] == tokenText;
  }

  /**
   * Tokens issued by signup or signin never take the admin branch: the role
   * they carry is a stored role, and "admin" is not one.
   */
  lemma IssuedTokensAreNotAdmin(header: Option<string>, decode: string -> Option<Jwt>, env: Env, expired: bool, db: Db, storeUp: bool, id: Id, u: User)
    requires UserValid(u)
    requires header.Some? && StartsWith(header.value, BearerPrefix)
    requires decode(ReplaceFirst(header.value, BearerPrefix, "")) == Some(AccessToken(id, u))
    ensures !VerifyToken(header, decode, env, expired, db, storeUp).Pass? || VerifyToken(header, decode, env, expired, db, storeUp).caller.Account?
  {
    assert "admin" !in Roles;
  }

  /** A refresh token in the header is refused like a forged one, as long as the two secrets differ. */
  lemma RefreshTokenRefused(header: Option<string>, decode: string -> Option<Jwt>, env: Env, expired: bool, db: Db, storeUp: bool, id: Id, u: User)
    requires env.accessSecret != env.refreshSecret
    requires header.Some? && StartsWith(header.value, BearerPrefix)
    requires decode(ReplaceFirst(header.value, BearerPrefix, "")) == Some(RefreshToken(id, u))
    ensures VerifyToken(header, decode, env, expired, db, storeUp) == Deny("Invalid or expired token")
  {
  }

  /**
   * With both secrets set to the same value, an unexpired refresh token of a
   * stored user attaches that user like an access token.
   */
  lemma SharedSecretAttachesRefreshHolder(tokenText: string, decode: string -> Option<Jwt>, env: Env, db: Db, id: Id)
    requires env.accessSecret == env.refreshSecret
    requires id in db.users
    requires decode(tokenText) == Some(RefreshToken(id, db.users[id]))
    ensures VerifyToken(Some(BearerPrefix + tokenText), decode, env, false, db, true) == Pass(Account(id, db.users[id]))
  {
    var h := BearerPrefix + tokenText;
    assert StartsWith(h, BearerPrefix);
    TokenIsHeaderTail(h);
    assert h[|BearerPrefix|..] == tokenText;
  }

  /** A token naming no stored user is refused with its own message, unless the lookup throws. */
  lemma UnknownUserRefused(header: Option<string>, decode: string -> Option<Jwt>, env: Env, db: Db, jwt: Jwt)
    requires header.Some? && StartsWith(header.value, BearerPrefix)
    requires decode(ReplaceFirst(header.value, BearerPrefix, "")) == Some(jwt)
    requires jwt.key == AccessSecret && jwt.claims.role != Some("admin")
    requires jwt.claims.id.None? || jwt.claims.id.value !in db.users
    ensures VerifyToken(header, decode, env, false, db, true) == Deny("Invalid token - user not found")
  {
  }
}

=== FILE: http.dfy ===
/** Replies of the request handlers: a status code, a message and an optional payload. */
module Http {
  import opened Wrappers
  import opened Store

  /**
   * Errors raised inside a handler. A handler that catches them answers with
   * the error's own message text, which the model keeps symbolic.
   */
  datatype Fault =
    | NullDereference      // reading a property of `null`
    | SchemaViolation      // the document failed schema validation on save
    | DuplicateKey         // a unique index rejected the insert
    | MissingArgument      // a library call was given `undefined`
    | StoreFailure         // the document store did not answer
    | ModelCallFailure     // the external model call failed
    | CastFailure          // a value failed the schema type's cast

  /** A request value that the store casts to a document id before querying. */
  datatype IdText = Missing | Malformed | Valid(id: Id)

  /**
   * A reply's message: a fixed text, the text of a caught error, or a fixed
   * text with the caught error's text beside it (`{ message, error: err.message }`).
   */
  datatype Message = Text(text: string) | Thrown(fault: Fault) | Explained(text: string, fault: Fault)

  datatype Reply<T> = Reply(status: nat, message: Message, payload: Option<T>)

  function Fail<T>(status: nat, text: string): Reply<T> {
    Reply(status, Text(text), None)
  }

  function Crash<T>(f: Fault): Reply<T> {
    Reply(500, Thrown(f), None)
  }

  function Explain<T>(status: nat, text: string, f: Fault): Reply<T> {
    Reply(status, Explained(text, f), None)
  }

  function Done<T>(status: nat, text: string, payload: T): Reply<T> {
    Reply(status, Text(text), Some(payload))
  }
}

=== FILE: intake.dfy ===
/** The intake-form controller: a user submits, and later revises, one questionnaire; `getUserForm` reads it back. */
module Intake {
  import opened Wrappers
  import opened Store
  import opened Http
  import opened Models
  import opened Documents
  import opened Guard
  import opened Text
  import IntakeStepper

  /**
   * The request body; an absent field is `None`. The age is a number or a
   * text: the questionnaire posts what was typed into the age input.
   */
  datatype IntakeBody = IntakeBody(
    age: Option<NumberValue>,
    gender: Option<string>,
    occupation: Option<string>,
    sleepCycle: Option<string>,
    relationshipStatus: Option<string>)

  /** JavaScript truthiness of an age: a non-zero number or a non-empty text. */
  predicate AgeGiven(a: Option<NumberValue>) {
    match a
    case None => false
    case Some(Number(n)) => n != 0.0
    case Some(NumberText(t)) => t != []
  }

  /** Every field is truthy. */
  predicate AllGiven(b: IntakeBody) {
    AgeGiven(b.age) && Filled(b.gender) && Filled(b.occupation) && Filled(b.sleepCycle) && Filled(b.relationshipStatus)
  }

  /** The five answers as the store casts them; `None` when the age does not cast. */
  function AnswersIn(b: IntakeBody): (r: Option<Answers>)
    requires AllGiven(b)
    ensures r.Some? <==> CastNumber(b.age.value).CastValue?
    ensures r.None? ==> CastNumber(b.age.value).CastError?
    ensures r.Some? ==> r.value == Answers(CastNumber(b.age.value).value, b.gender.value, b.occupation.value,
      b.sleepCycle.value, b.relationshipStatus.value)
  {
    var age := CastNumber(b.age.value);
    if !age.CastValue? then None
    else Some(Answers(age.value, b.gender.value, b.occupation.value, b.sleepCycle.value, b.relationshipStatus.value))
  }

  /** The save succeeds: the answers cast and pass the schema's checks. */
  predicate Storable(b: IntakeBody)
    requires AllGiven(b)
  {
    AnswersIn(b).Some? && AnswersValid(AnswersIn(b).value)
  }

  /** Forms belonging to one user. */
  function Of(owner: Id): UserForm -> bool {
    (f: UserForm) => f.user == owner
  }

  /** `findOne({ user: req.user.id })`; the model chooses to let an undefined id find nothing (see README, "Left out"). */
  function FormOf(db: Db, owner: Option<Id>): (r: Option<Id>)
    ensures r.Some? ==> owner.Some? && r.value in db.forms && db.forms[r.value].user == owner.value
    ensures r.None? && owner.Some? && Below(db.forms, db.next) ==> FormsOf(db.forms, owner.value) == {}
  {
    match owner
    case None => None
    case Some(id) => FindOne(db.forms, Of(id), db.next)
  }

  /** Why a save failed: the age did not cast, or a check of the schema (required owner, range, choice) failed. */
  function SaveFault(b: IntakeBody): Fault
    requires AllGiven(b)
  {
    if AnswersIn(b).None? then CastFailure else SchemaViolation
  }

  /**
   * `submitUserForm`. A falsy field is refused with 400; an existing form of
   * the caller gets the five answers replaced, otherwise a new form is
   * created. A save that fails (an age that does not cast, a value the
   * schema refuses, a caller without an id) is answered 500 "Server error"
   * with the error beside it, and writes nothing.
   */
  function SubmitUserForm(db: Db, c: Caller, b: IntakeBody): (res: (Reply<UserForm>, Db))
    ensures !AllGiven(b) ==> res == (Fail(400, "All fields are required."), db)
    ensures res.0.status in {200, 201, 400, 500}
    ensures res.0.status == 500 <==> AllGiven(b) && (IdField(c).None? || !Storable(b))
    ensures res.0.status == 500 ==> res == (Explain(500, "Server error", SaveFault(b)), db)
    ensures res.0.status == 200 <==> AllGiven(b) && Storable(b) && FormOf(db, IdField(c)).Some?
    ensures res.0.status == 200 ==> res.0.message == Text("Form updated successfully")
    ensures res.0.status == 201 ==> res.0.message == Text("Form submitted successfully")
    ensures res.0.status in {200, 201} ==>
      res.1 == db.(forms := res.1.forms, next := res.1.next) && res.0.payload == NewUserForm(IdField(c), AnswersIn(b).value)
  {
    if !AllGiven(b) then (Fail(400, "All fields are required."), db)
    else if AnswersIn(b).None? then (Explain(500, "Server error", CastFailure), db)
    else
      var answers := AnswersIn(b).value;
      match FormOf(db, IdField(c))
      case Some(id) =>
        (match NewUserForm(Some(db.forms[id].user), answers)
         case None => (Explain(500, "Server error", SchemaViolation), db)
         case Some(f) => (Done(200, "Form updated successfully", f), db.(forms := db.forms[id := f])))
      case None =>
        match NewUserForm(IdField(c), answers)
        case None => (Explain(500, "Server error", SchemaViolation), db)
        case Some(f) => (Done(201, "Form submitted successfully", f), db.(forms := db.forms[db.next := f], next := db.next + 1))
  }

  /** `getUserForm`: the caller's form, or 404. */
  function GetUserForm(db: Db, c: Caller): (r: Reply<UserForm>)
    ensures r.status in {200, 404}
    ensures r.status == 404 ==> r == Fail(404, "Form not found for this user")
    ensures r.status == 200 ==>
      IdField(c).Some? && r.payload.Some? && r.payload.value.user == IdField(c).value && r.payload.value in db.forms.Values
    ensures Below(db.forms, db.next) && IdField(c).Some? ==>
      (r.status == 404 <==> FormsOf(db.forms, IdField(c).value) == {})
  {
    match FormOf(db, IdField(c))
    case None => Fail(404, "Form not found for this user")
    case Some(id) =>
      assert id in FormsOf(db.forms, IdField(c).value);
      Done(200, "", db.forms[id])
  }

  /** Replacing a form's answers keeps its owner, so owners stay unique. */
  lemma ReviseKeepsOneFormPerUser(forms: map<Id, UserForm>, id: Id, f: UserForm)
    requires OneFormPerUser(forms) && id in forms && f.user == forms[id].user
    ensures OneFormPerUser(forms[id := f])
  {
  }

  /** A form for an owner without one keeps owners unique. */
  lemma AddKeepsOneFormPerUser(forms: map<Id, UserForm>, next: Id, f: UserForm)
    requires OneFormPerUser(forms) && Below(forms, next) && FormsOf(forms, f.user) == {}
    ensures OneFormPerUser(forms[next := f])
  {
    forall k | k in forms ensures forms[k].user != f.user {
      assert k !in FormsOf(forms, f.user);
    }
  }

  /** Submitting never gives a user a second form. */
  lemma SubmitKeepsOneFormPerUser(db: Db, c: Caller, b: IntakeBody)
    requires Below(db.forms, db.next) && OneFormPerUser(db.forms)
    ensures OneFormPerUser(SubmitUserForm(db, c, b).1.forms)
  {
    var after := SubmitUserForm(db, c, b);
    if after.0.status in {200, 201} {
      var f := after.0.payload.value;
      match FormOf(db, IdField(c))
      case Some(id) =>
        ReviseKeepsOneFormPerUser(db.forms, id, f);
      case None =>
        AddKeepsOneFormPerUser(db.forms, db.next, f);
    }
  }

  /** Inserting a form for an owner that had none makes `FormOf` find it. */
  lemma FormFoundAfterInsert(db: Db, owner: Id, f: UserForm)
    requires Below(db.forms, db.next) && FormsOf(db.forms, owner) == {} && f.user == owner
    ensures FormOf(db.(forms := db.forms[db.next := f], next := db.next + 1), Some(owner)) == Some(db.next)
  {
    forall k | k in db.forms ensures !Of(owner)(db.forms[k]) {
      assert k !in FormsOf(db.forms, owner);
    }
    FindOneAfterInsert(db.forms, Of(owner), db.next, f);
  }

  /** What was submitted is what `getUserForm` returns afterwards, on first submission and on revision. */
  lemma SubmitThenGet(db: Db, c: Caller, b: IntakeBody)
    requires Below(db.forms, db.next)
    requires SubmitUserForm(db, c, b).0.status in {200, 201}
    ensures AllGiven(b)
    ensures var r := GetUserForm(SubmitUserForm(db, c, b).1, c);
      r.status == 200 && AnswersOf(r.payload.value) == AnswersIn(b).value
  {
    var owner := IdField(c).value;
    var f := NewUserForm(IdField(c), AnswersIn(b).value).value;
    match FormOf(db, IdField(c))
    case Some(id) =>
      FindOneAfterUpdate(db.forms, Of(owner), db.next, id, f);
    case None =>
      FormFoundAfterInsert(db, owner, f);
  }

  /** An age given as the notation of a whole number is stored as that number. */
  lemma WholeAgeStored(b: IntakeBody, n: nat)
    requires AllGiven(b) && b.age == Some(NumberText(Decimal(n)))
    ensures AnswersIn(b).Some? && AnswersIn(b).value.age == n as real
    ensures Storable(b) ==> 1 <= n <= 120
  {
    WholeNumberTextCasts(n);
  }

  /**
   * An age typed as a whole number with a non-zero fraction: the
   * questionnaire judges only the whole part (`parseInt("120.5")` is 120),
   * while the store keeps the exact value, which is above it. So "120.5"
   * passes the questionnaire and the server refuses it with 500.
   */
  lemma FractionalAgePassesStepperOnly(s: IntakeStepper.Stepper, b: IntakeBody, n: nat, f: string)
    requires AllDigits(f) && DigitsValue(f) > 0
    requires s.current == 0 && IntakeStepper.Lookup(s.form, "age") == Some(Decimal(n) + ['.'] + f)
    requires AllGiven(b) && b.age == Some(NumberText(Decimal(n) + ['.'] + f))
    ensures IntakeStepper.CanProceed(s) <==> 1 <= n <= 120
    ensures AnswersIn(b).Some? && AnswersIn(b).value.age > n as real
    ensures n >= 120 ==> !Storable(b)
  {
    assert Decimal(n) + ['.'] + f == Decimal(n) + (['.'] + f);
    IntakeStepper.AgePrefix(n, ['.'] + f, s);
    NumberOfFractionAbove(n, f);
  }
}

=== FILE: intake_stepper.dfy ===
/**
 * The intake questionnaire in the browser: five steps (age, then four
 * option questions), the proceed predicate, navigation, and the gated submit
 * that posts the answers with the bearer token.
 */
module IntakeStepper {
  import opened Wrappers
  import opened Text
  import Models
  import Tokens
  import Accounts

  datatype Kind = NumberInput | Options(choices: seq<string>)

  datatype Step = Step(key: string, kind: Kind)

  const Steps: seq<Step> := [
    Step("age", NumberInput),
    Step("gender", Options(["male", "female", "prefer-not-to-say"])),
    Step("occupation", Options(["student", "professional", "homemaker", "retired", "other"])),
    Step("sleep_cycle", Options(["<6", "6-8", ">8"])),
    Step("relationship_status", Options(["single", "in-a-relationship", "married", "divorced"]))
  ]

  const Last: nat := |Steps| - 1

  /** The component state; `current` indexes `Steps`. */
  datatype Stepper = Stepper(form: map<string, string>, current: nat, submitting: bool, error: Option<string>)

  ghost predicate Valid(s: Stepper) {
    s.current <= Last
  }

  const Initial := Stepper(map[], 0, false, None)

  /** The stored text for a key; a missing key is `undefined`. */
  function Lookup(form: map<string, string>, key: string): Option<string> {
    if key in form then Some(form[key]) else None
  }

  /** `parseInt(value, 10)`; `undefined` reads as the text "undefined", which is NaN (see `UndefinedIsNaN`). */
  function ParseAnswer(v: Option<string>): Option<int> {
    if v.Some? then ParseInt(v.value) else None
  }

  /** `parseInt(undefined)` reads the text "undefined", which has no digit. */
  lemma UndefinedIsNaN(text: string)
    requires text == "undefined"
    ensures ParseInt(text) == None
  {
    assert forall i :: 0 <= i < |text| ==> !IsDigit(text[i]);
    ParseIntWithoutDigits(text);
  }

  /**
   * `canProceed`: on the age step the parsed value lies in 1..120; on an
   * option step the stored value is truthy (present and non-empty).
   */
  predicate CanProceed(s: Stepper): (r: bool)
    requires Valid(s)
    ensures r ==> Lookup(s.form, Steps[s.current].key).Some? && Lookup(s.form, Steps[s.current].key).value != []
    ensures r && Steps[s.current].kind.NumberInput? ==>
      var n := ParseInt(Lookup(s.form, Steps[s.current].key).value); n.Some? && 1 <= n.value <= 120
  {
    var step := Steps[s.current];
    var v := Lookup(s.form, step.key);
    match step.kind
    case NumberInput => var n := ParseAnswer(v); n.Some? && 0 < n.value <= 120
    case Options(_) => v.Some? && v.value != []
  }

  /** `next`: one step forward, only when not on the last step and the current answer allows it. */
  function Next(s: Stepper): (r: Stepper)
    requires Valid(s)
    ensures Valid(r)
    ensures r.current == s.current + 1 <==> s.current < Last && CanProceed(s)
    ensures r.current != s.current + 1 ==> r == s
    ensures r.form == s.form
  {
    if s.current < Last && CanProceed(s) then s.(current := s.current + 1) else s
  }

  /** `prev`: one step back, only above the first step. */
  function Prev(s: Stepper): (r: Stepper)
    requires Valid(s)
    ensures Valid(r)
    ensures s.current > 0 ==> r.current == s.current - 1
    ensures s.current == 0 ==> r == s
    ensures r.form == s.form
  {
    if s.current > 0 then s.(current := s.current - 1) else s
  }

  /** `handleOptionChange`: sets one key of the answers and nothing else. */
  function SetAnswer(s: Stepper, key: string, value: string): (r: Stepper)
    requires Valid(s)
    ensures Valid(r)
    ensures Lookup(r.form, key) == Some(value)
    ensures forall k :: k != key ==> Lookup(r.form, k) == Lookup(s.form, k)
    ensures r.current == s.current && r.submitting == s.submitting && r.error == s.error
  {
    s.(form := s.form[key := value])
  }

  /** The POST the submit sends: the answers and the bearer token. */
  datatype Submission = Submission(url: string, authorization: string, body: map<string, string>)

  const SubmitUrl := "http://localhost:7000/api/submit"
  const NoToken := "Authentication token not found. Please log in."

  /**
   * `handleSubmit` up to the request, given the token it found: without one
   * the error is set, submitting ends and nothing is sent; otherwise the
   * answers are posted with a bearer header and the form stays in
   * submission. Where the token is looked up is `SubmitFromCookie` (the page
   * as written) and `SubmitFromStorage` (where sign-in keeps it).
   */
  function StartSubmit(s: Stepper, token: Option<string>): (r: (Stepper, Option<Submission>))
    requires Valid(s)
    ensures Valid(r.0) && r.0.form == s.form && r.0.current == s.current
    ensures r.1.None? <==> token.None? || token == Some("")
    ensures r.1.None? ==> r.0.error == Some(NoToken) && !r.0.submitting
    ensures r.1.Some? ==>
      r.0.submitting && r.0.error.None? && r.1.value == Submission(SubmitUrl, "Bearer " + token.value, s.form)
  {
    if token.None? || token.value == "" then (s.(submitting := false, error := Some(NoToken)), None)
    else (s.(submitting := true, error := None), Some(Submission(SubmitUrl, "Bearer " + token.value, s.form)))
  }

  // ---------------------------------------------------------------------------
  // Where the token is looked up
  // ---------------------------------------------------------------------------

  /** The cookies the browser holds for the page. */
  type CookieJar = seq<Tokens.Cookie>

  /**
   * `Cookies.get(name)`: the first cookie of that name that scripts can see;
   * an httpOnly cookie is hidden from scripts. `encode` writes a token as text.
   */
  function ScriptCookie(jar: CookieJar, name: string, encode: Tokens.Jwt -> string): (r: Option<string>)
    ensures r.Some? ==>
      exists i :: 0 <= i < |jar| && jar[i].name == name && !jar[i].httpOnly && r.value == encode(jar[i].value)
    ensures r.None? <==> forall i :: 0 <= i < |jar| && jar[i].name == name ==> jar[i].httpOnly
  {
    if jar == [] then None
    else if jar[0].name == name && !jar[0].httpOnly then Some(encode(jar[0].value))
    else
      var r := ScriptCookie(jar[1..], name, encode);
      assert forall i :: 1 <= i < |jar| ==> jar[i] == jar[1..][i - 1];
      r
  }

  /** The submit as the page is written: the token is `Cookies.get("token")`. */
  function SubmitFromCookie(s: Stepper, jar: CookieJar, encode: Tokens.Jwt -> string): (r: (Stepper, Option<Submission>))
    requires Valid(s)
    ensures Valid(r.0) && r.0.form == s.form
    ensures r.1.Some? ==> exists i :: 0 <= i < |jar| && jar[i].name == "token" && !jar[i].httpOnly
    ensures r.1.None? ==> r.0.error == Some(NoToken) && !r.0.submitting
  {
    StartSubmit(s, ScriptCookie(jar, "token", encode))
  }

  /**
   * The only "token" cookie the server sets is httpOnly, so the page as
   * written never finds a token and never posts the answers, whoever is
   * signed in.
   */
  lemma ServerCookieNeverFound(s: Stepper, jar: CookieJar, encode: Tokens.Jwt -> string)
    requires Valid(s)
    requires forall i :: 0 <= i < |jar| && jar[i].name == "token" ==>
      jar[i] == Tokens.TokenCookie(jar[i].value, jar[i].secure)
    ensures SubmitFromCookie(s, jar, encode).1.None?
    ensures SubmitFromCookie(s, jar, encode).0.error == Some(NoToken)
  {
    forall i | 0 <= i < |jar| && jar[i].name == "token" ensures jar[i].httpOnly {
      assert jar[i] == Tokens.TokenCookie(jar[i].value, jar[i].secure);
    }
  }

  /** The submit reading the token where sign-in and sign-up keep it: local storage under "token". */
  function SubmitFromStorage(s: Stepper, store: Accounts.Storage): (r: (Stepper, Option<Submission>))
    requires Valid(s)
    ensures Valid(r.0) && r.0.form == s.form
    ensures r.1.Some? <==> "token" in store && store["token"] != ""
    ensures r.1.Some? ==> r.1.value == Submission(SubmitUrl, "Bearer " + store["token"], s.form)
    ensures r.1.None? ==> r.0.error == Some(NoToken) && !r.0.submitting
  {
    StartSubmit(s, if "token" in store then Some(store["token"]) else None)
  }

  /** After a successful sign-in the corrected submit posts the answers with the token the server returned. */
  lemma LoginThenSubmitSends(l: Accounts.Login, store: Accounts.Storage, token: string, user: string,
                             m: Option<string>, s: Stepper)
    requires Valid(s) && token != ""
    ensures var after := Accounts.FinishLogin(l, store, Accounts.Accepted(token, user, m)).1;
      SubmitFromStorage(s, after).1 == Some(Submission(SubmitUrl, "Bearer " + token, s.form))
  {
    var after := Accounts.FinishLogin(l, store, Accounts.Accepted(token, user, m)).1;
    assert after["token"] == token;
  }

  /** So does it after a successful sign-up. */
  lemma SignupThenSubmitSends(store: Accounts.Storage, token: string, user: string, m: Option<string>, s: Stepper)
    requires Valid(s) && token != ""
    ensures var after := Accounts.FinishSignup(store, Accounts.Accepted(token, user, m)).0;
      SubmitFromStorage(s, after).1 == Some(Submission(SubmitUrl, "Bearer " + token, s.form))
  {
    var after := Accounts.FinishSignup(store, Accounts.Accepted(token, user, m)).0;
    assert after["token"] == token;
  }

  /** How the request ended: a success, a refusal with an optional server message, or a thrown error. */
  datatype Outcome = Accepted | Refused(serverMessage: Option<string>) | Thrown(reason: string)

  /**
   * The rest of `handleSubmit`: a success navigates to the dashboard; a
   * refusal shows the server message or a fixed text; either way
   * submitting ends.
   */
  function FinishSubmit(s: Stepper, o: Outcome): (r: (Stepper, Option<string>))
    requires Valid(s)
    ensures Valid(r.0) && !r.0.submitting && r.0.form == s.form && r.0.current == s.current
    ensures r.1.Some? <==> o.Accepted?
    ensures r.1.Some? ==> r.1.value == "/user-dashboard" && r.0.error == s.error
    ensures o.Refused? ==> r.0.error == Some(if o.serverMessage.Some? && o.serverMessage.value != "" then o.serverMessage.value else "Failed to submit form.")
  {
    match o
    case Accepted => (s.(submitting := false), Some("/user-dashboard"))
    case Refused(m) =>
      var text := if m.Some? && m.value != "" then m.value else "Failed to submit form.";
      (s.(submitting := false, error := Some(text)), None)
    case Thrown(m) => (s.(submitting := false, error := Some(m)), None)
  }

  /** The Submit button shows only on the last step. */
  predicate SubmitShown(s: Stepper) {
    s.current == Last
  }

  /** The Submit button is enabled only when the last answer allows it and no submission is in flight. */
  predicate SubmitEnabled(s: Stepper)
    requires Valid(s)
  {
    SubmitShown(s) && CanProceed(s) && !s.submitting
  }

  /** `Math.round((current + 1) / count * 100)` on exact rationals, rounding halves up. */
  function Progress(current: nat, count: nat): (r: nat)
    requires count > 0
    ensures 2 * count * r <= 200 * (current + 1) + count < 2 * count * (r + 1)
    ensures current < count ==> r <= 100
    ensures current + 1 == count ==> r == 100
  {
    RoundedShare(current, count);
    (200 * (current + 1) + count) / (2 * count)
  }

  /** The bounds of the rounded percentage, proved on the quotient's bounds. */
  lemma RoundedShare(current: nat, count: nat)
    requires count > 0
    ensures var n, d := 200 * (current + 1) + count, 2 * count;
      && d * (n / d) <= n < d * (n / d + 1)
      && (current < count ==> n / d <= 100)
      && (current + 1 == count ==> n / d == 100)
  {
    var n, d := 200 * (current + 1) + count, 2 * count;
    var q := n / d;
    QuotientBounds(n, d);
    if q > 100 {
      MultiplyMonotone(d, 101, q);
    }
    if current + 1 == count && q < 100 {
      MultiplyMonotone(d, q + 1, 100);
    }
  }

  lemma QuotientBounds(n: nat, d: nat)
    requires d > 0
    ensures d * (n / d) <= n < d * (n / d + 1)
  {
  }

  lemma MultiplyMonotone(d: nat, a: nat, b: nat)
    requires a <= b
    ensures d * a <= d * b
  {
  }

  // ---------------------------------------------------------------------------
  // Properties
  // ---------------------------------------------------------------------------

  /** The age step passes exactly when the input starts with a number from 1 to 120: "25abc" passes as 25. */
  lemma AgePrefix(n: nat, rest: string, s: Stepper)
    requires s.current == 0 && Lookup(s.form, "age") == Some(Decimal(n) + rest)
    requires rest == [] || !IsDigit(rest[0])
    ensures CanProceed(s) <==> 1 <= n <= 120
  {
    ParseIntPrefix(n, rest);
  }

  /** An unanswered age step never passes. */
  lemma AgeMissing(s: Stepper)
    requires s.current == 0 && "age" !in s.form
    ensures !CanProceed(s)
  {
  }

  /** Walking forward from the first step with every step answerable reaches the last step, where Submit shows. */
  lemma {:induction false} WalkReachesLast(s: Stepper, k: nat)
    requires Valid(s) && s.current + k <= Last
    requires forall i :: s.current <= i < s.current + k ==> CanProceed(s.(current := i))
    ensures Walk(s, k).current == s.current + k
    ensures Walk(s, k).form == s.form
    decreases k
  {
    if k > 0 {
      var t := Next(s);
      assert CanProceed(s.(current := s.current)) by { assert s.(current := s.current) == s; }
      assert t == s.(current := s.current + 1);
      forall i | t.current <= i < t.current + (k - 1)
        ensures CanProceed(t.(current := i))
      {
        assert t.(current := i) == s.(current := i);
      }
      WalkReachesLast(t, k - 1);
    }
  }

  /** `k` presses of Next. */
  function Walk(s: Stepper, k: nat): (r: Stepper)
    requires Valid(s)
    ensures Valid(r)
    decreases k
  {
    if k == 0 then s else Walk(Next(s), k - 1)
  }

  /** Prev undoes a Next that moved. */
  lemma PrevUndoesNext(s: Stepper)
    requires Valid(s) && s.current < Last && CanProceed(s)
    ensures Prev(Next(s)) == s
  {
  }

  /** Progress is 20% per step, reaching 100% exactly on the last step. */
  lemma ProgressSteps(current: nat)
    requires current <= Last
    ensures Progress(current, |Steps|) == 20 * (current + 1)
    ensures Progress(current, |Steps|) == 100 <==> current == Last
  {
  }

  /** Every option the form offers is accepted by the stored form's schema. */
  lemma OptionsWithinSchema()
    ensures forall c :: c in Steps[1].kind.choices ==> c in Models.Genders
    ensures forall c :: c in Steps[2].kind.choices ==> c in Models.Occupations
    ensures forall c :: c in Steps[3].kind.choices ==> c in Models.SleepCycles
    ensures forall c :: c in Steps[4].kind.choices ==> c in Models.RelationshipStatuses
  {
  }

  /** The schema accepts "non-binary" as a gender, but the form never offers it. */
  lemma NonBinaryNotOffered()
    ensures "non-binary" in Models.Genders && "non-binary" !in Steps[1].kind.choices
  {
  }
}

=== FILE: models.dfy ===
/**
 * The stored records and the rules their schemas enforce when a document is
 * saved: required fields, enumerations, bounds, defaults and the setters
 * (`trim`, `lowercase`) that run when a field is assigned.
 */
module Models {
  import opened Wrappers
  import opened Store
  import opened Text

  // ---------------------------------------------------------------------------
  // User
  // ---------------------------------------------------------------------------

  /** The roles a stored user may hold; "admin" is not among them. */
  const Roles: set<string> := {"user", "doctor", "seller", "organizer"}

  datatype User = User(
    name: string,
    userName: string,
    email: string,
    password: Option<string>,   // the bcrypt hash, absent for federated accounts
    role: string,
    isVerified: bool,
    googleId: Option<string>,
    twitterId: Option<string>,
    wellbeingScore: Option<int>)

  /** The fields a new user document is built from, before setters and defaults. */
  datatype UserDraft = UserDraft(
    name: Option<string>,
    userName: Option<string>,
    email: Option<string>,
    password: Option<string>,
    role: Option<string>,
    googleId: Option<string>,
    twitterId: Option<string>)

  /** A string field holds a value Mongoose's `required` accepts: present and not empty. */
  predicate Filled(s: Option<string>) {
    s.Some? && s.value != []
  }

  predicate Federated(googleId: Option<string>, twitterId: Option<string>) {
    Filled(googleId) || Filled(twitterId)
  }

  /** `\w+([\.-]?\w+)*`: word characters, with single dots or dashes between them. */
  predicate WordRun(s: string) {
    s != [] && IsWordChar(s[0]) && WordTail(s[1..])
  }

  /** What may follow a word character inside a word run: more word characters, or one separator and a word character. */
  predicate WordTail(s: string)
    decreases |s|
  {
    || s == []
    || (IsWordChar(s[0]) && WordTail(s[1..]))
    || (|s| > 1 && (s[0] == '.' || s[0] == '-') && IsWordChar(s[1]) && WordTail(s[2..]))
  }

  /** The domain ends in a dot and `k` word characters, after a word run. */
  predicate TopLevelAt(d: string, k: nat)
    requires k == 2 || k == 3
  {
    && |d| > k + 1
    && d[|d| - k - 1] == '.'
    && IsWordChar(d[|d| - 1]) && IsWordChar(d[|d| - 2]) && (k == 2 || IsWordChar(d[|d| - 3]))
    && WordRun(d[..|d| - k - 1])
  }

  /**
   * `\w+([\.-]?\w+)*(\.\w{2,3})+`. Every group but the last can be read as
   * part of the word run, so this is a word run, a dot and two or three word
   * characters.
   */
  predicate DomainMatches(d: string) {
    TopLevelAt(d, 2) || TopLevelAt(d, 3)
  }

  /**
   * The schema's email pattern `^\w+([\.-]?\w+)*@\w+([\.-]?\w+)*(\.\w{2,3})+$`.
   * Neither side may hold an "@", so the text splits at its first one.
   */
  predicate EmailMatches(e: string) {
    var local := Before(e, '@');
    |local| < |e| && WordRun(local) && DomainMatches(e[|local| + 1..])
  }

  /** Everything the user schema checks on one document. */
  predicate UserValid(u: User) {
    && u.name != []
    && u.email != [] && EmailMatches(u.email)
    && (Federated(u.googleId, u.twitterId) || (u.userName != [] && Filled(u.password)))
    && u.role in Roles
  }

  /**
   * `new UserModel(draft)` followed by validation: the setters trim the name
   * and lowercase userName and email, the defaults fill role, isVerified and
   * wellbeingScore, and `None` stands for a validation error.
   */
  function NewUser(d: UserDraft): (r: Option<User>)
    ensures r.Some? ==> UserValid(r.value)
    ensures r.Some? ==> !r.value.isVerified && r.value.wellbeingScore == None
    ensures r.Some? ==> r.value.role == d.role.GetOr("user")
    ensures r.Some? ==> d.name.Some? && d.email.Some?
    ensures r.Some? ==> r.value.email == Lower(d.email.value) && r.value.name == Trim(d.name.value)
    ensures r.Some? ==> r.value.password == d.password
    ensures r.Some? ==> r.value.userName == (if d.userName.Some? then Lower(d.userName.value) else [])
    ensures r.Some? ==> r.value.googleId == d.googleId && r.value.twitterId == d.twitterId
  {
    var u := User(
      name := if d.name.Some? then Trim(d.name.value) else [],
      userName := if d.userName.Some? then Lower(d.userName.value) else [],
      email := if d.email.Some? then Lower(d.email.value) else [],
      password := d.password,
      role := d.role.GetOr("user"),
      isVerified := false,
      googleId := d.googleId,
      twitterId := d.twitterId,
      wellbeingScore := None);
    if d.name.Some? && d.email.Some? && UserValid(u) then Some(u) else None
  }

  /** The draft is refused exactly when one of the schema's rules fails. */
  lemma NewUserRefusal(d: UserDraft)
    ensures NewUser(d).None? <==>
      || d.name.None? || Trim(d.name.value) == []
      || !Filled(d.email) || !EmailMatches(Lower(d.email.value))
      || (!Federated(d.googleId, d.twitterId) && (!Filled(d.userName) || !Filled(d.password)))
      || d.role.GetOr("user") !in Roles
  {
  }

  /** Two users that a unique index (userName, email, googleId, twitterId) refuses to hold together. */
  predicate Clash(a: User, b: User) {
    || a.userName == b.userName
    || a.email == b.email
    || (a.googleId.Some? && a.googleId == b.googleId)
    || (a.twitterId.Some? && a.twitterId == b.twitterId)
  }

  /** The example signup payload's address satisfies the pattern. */
  lemma ExampleEmailMatches()
    ensures EmailMatches("a1@x.com")
  {
    assert Before("a1@x.com", '@') == "a1";
    assert "a1@x.com"[3..] == "x.com";
    assert "x.com"[..1] == "x";
  }

  /** An address without an "@" never matches. */
  lemma EmailNeedsAt(e: string)
    requires '@' !in e
    ensures !EmailMatches(e)
  {
  }

  // ---------------------------------------------------------------------------
  // Number paths
  // ---------------------------------------------------------------------------

  /** A JSON value given for a path of type Number: a number, or a text the store casts. */
  datatype NumberValue = Number(n: real) | NumberText(text: string)

  /**
   * What the store's cast to Number makes of a value: a number, a null (which
   * the `required` check then refuses), or a cast error.
   */
  datatype NumberCast = CastValue(value: real) | CastNull | CastError

  /**
   * Mongoose's cast to Number: a number is kept, the empty text becomes null,
   * and any other text is read as `Number(text)` reads it, NaN being a cast
   * error.
   */
  function CastNumber(v: NumberValue): (r: NumberCast)
    ensures v.Number? ==> r == CastValue(v.n)
    ensures v == NumberText([]) ==> r == CastNull
    ensures v.NumberText? && v.text != [] ==>
      (r.CastError? <==> NumberOf(v.text).None?) && (r.CastValue? ==> Some(r.value) == NumberOf(v.text))
  {
    match v
    case Number(n) => CastValue(n)
    case NumberText(t) =>
      if t == [] then CastNull
      else match NumberOf(t)
        case None => CastError
        case Some(x) => CastValue(x)
  }

  /** The text of a whole number casts to exactly that number. */
  lemma WholeNumberTextCasts(n: nat)
    ensures CastNumber(NumberText(Decimal(n))) == CastValue(n as real)
  {
    NumberOfWhole(n);
  }

  /** Digits, a point and digits cast to their exact value, fraction included. */
  lemma PointTextCasts(w: string, f: string)
    requires AllDigits(w) && AllDigits(f) && w != []
    ensures CastNumber(NumberText(w + ['.'] + f)) == CastValue(PointValue(w, f))
  {
    NumberOfDecimal(w, f);
  }

  /**
   * A text whose trimmed form has, after its first character, something other
   * than a digit or a point (the space of "15 years") is a cast error.
   */
  lemma WordyTextRefused(t: string, i: nat)
    requires 0 < i < |Trim(t)| && !IsDigit(Trim(t)[i]) && Trim(t)[i] != '.'
    ensures CastNumber(NumberText(t)) == CastError
  {
    NumberOfInnerLetter(t, i);
  }

  /** An optional Number field as stored: `None` when absent, cast to null, or not castable. */
  function NumberIn(v: Option<NumberValue>): (r: Option<real>)
    ensures r.Some? <==> v.Some? && CastNumber(v.value).CastValue?
    ensures r.Some? ==> r.value == CastNumber(v.value).value
  {
    if v.Some? && CastNumber(v.value).CastValue? then Some(CastNumber(v.value).value) else None
  }

  /** The value is present and its cast fails. */
  predicate CastFails(v: Option<NumberValue>) {
    v.Some? && CastNumber(v.value).CastError?
  }

  // ---------------------------------------------------------------------------
  // DoctorInfo
  // ---------------------------------------------------------------------------

  const Specialities: set<string> := {"psychiatrist", "psychologist"}

  /** A doctor's profile; `userId` names the owning account. */
  datatype DoctorInfo = DoctorInfo(
    userId: Id,
    name: string,
    contact: string,
    license: string,
    speciality: string,
    experience: real,
    clinicAddress: string,
    feePerHour: real)

  /** The seven profile fields as a request body carries them. */
  datatype DoctorFields = DoctorFields(
    name: Option<string>,
    contact: Option<string>,
    license: Option<string>,
    speciality: Option<string>,
    experience: Option<NumberValue>,
    clinicAddress: Option<string>,
    feePerHour: Option<NumberValue>)

  predicate DoctorFieldsValid(f: DoctorFields) {
    && Filled(f.name) && Filled(f.contact) && Filled(f.license)
    && f.speciality.Some? && f.speciality.value in Specialities
    && NumberIn(f.experience).Some? && Filled(f.clinicAddress) && NumberIn(f.feePerHour).Some?
  }

  predicate DoctorInfoValid(d: DoctorInfo) {
    d.name != [] && d.contact != [] && d.license != [] && d.speciality in Specialities && d.clinicAddress != []
  }

  /**
   * A profile document for `owner` built from `f`, with experience and fee
   * cast to numbers, and validated; `None` is a validation error.
   */
  function NewDoctorInfo(owner: Option<Id>, f: DoctorFields): (r: Option<DoctorInfo>)
    ensures r.Some? <==> owner.Some? && DoctorFieldsValid(f)
    ensures r.Some? ==> DoctorInfoValid(r.value) && r.value.userId == owner.value
    ensures r.Some? ==>
      && r.value.name == f.name.value && r.value.contact == f.contact.value
      && r.value.license == f.license.value && r.value.speciality == f.speciality.value
      && r.value.clinicAddress == f.clinicAddress.value
    ensures r.Some? ==> Some(r.value.experience) == NumberIn(f.experience) && Some(r.value.feePerHour) == NumberIn(f.feePerHour)
    ensures CastFails(f.experience) || CastFails(f.feePerHour) ==> r.None?
  {
    if owner.Some? && DoctorFieldsValid(f) then
      Some(DoctorInfo(owner.value, f.name.value, f.contact.value, f.license.value, f.speciality.value,
                      NumberIn(f.experience).value, f.clinicAddress.value, NumberIn(f.feePerHour).value))
    else None
  }

  // ---------------------------------------------------------------------------
  // Slot
  // ---------------------------------------------------------------------------

  /** A bookable window; `doctorId` names a DoctorInfo document, not a user. */
  datatype Slot = Slot(doctorId: Id, date: string, startTime: string, endTime: string, isBooked: bool)

  /** One element of the `slots` array a doctor submits. */
  datatype SlotFields = SlotFields(
    doctorId: Option<Id>,
    date: Option<string>,
    startTime: Option<string>,
    endTime: Option<string>,
    isBooked: Option<bool>)

  /**
   * The slot schema's checks. `date` is a `Date` path: `isDate` says which
   * texts the runtime's date parser reads as a valid date, and any other text
   * fails the cast.
   */
  predicate SlotFieldsValid(f: SlotFields, isDate: string -> bool) {
    f.doctorId.Some? && Filled(f.date) && isDate(f.date.value) && Filled(f.startTime) && Filled(f.endTime)
  }

  /** A slot document built from `f` and validated; `isBooked` defaults to false. */
  function NewSlot(f: SlotFields, isDate: string -> bool): (r: Option<Slot>)
    ensures r.Some? <==> SlotFieldsValid(f, isDate)
    ensures r.Some? ==> r.value.doctorId == f.doctorId.value && r.value.isBooked == f.isBooked.GetOr(false)
    ensures r.Some? ==> r.value.date == f.date.value && r.value.startTime == f.startTime.value && r.value.endTime == f.endTime.value
  {
    if SlotFieldsValid(f, isDate) then
      Some(Slot(f.doctorId.value, f.date.value, f.startTime.value, f.endTime.value, f.isBooked.GetOr(false)))
    else None
  }

  // ---------------------------------------------------------------------------
  // Booking
  // ---------------------------------------------------------------------------

  const BookingStatuses: set<string> := {"pending", "confirmed", "cancelled"}

  datatype Razorpay = Razorpay(orderId: Option<string>, paymentId: Option<string>, signature: Option<string>)

  /** A reservation; `doctorId` names a DoctorInfo and `slotId` a Slot document. */
  datatype Booking = Booking(
    userId: Id,
    doctorId: Id,
    slotId: Id,
    fee: real,
    status: string,
    razorpay: Razorpay,
    meetLink: Option<string>)

  predicate BookingValid(b: Booking) {
    b.status in BookingStatuses
  }

  /**
   * A booking document built from its four required fields and an optional
   * status (default "pending"); `None` is a validation error.
   */
  function NewBooking(userId: Option<Id>, doctorId: Id, slotId: Id, fee: real, status: Option<string>): (r: Option<Booking>)
    ensures r.Some? <==> userId.Some? && status.GetOr("pending") in BookingStatuses
    ensures r.Some? ==> BookingValid(r.value) && r.value.userId == userId.value && r.value.fee == fee
    ensures r.Some? ==> r.value.doctorId == doctorId && r.value.slotId == slotId && r.value.status == status.GetOr("pending")
    ensures r.Some? ==> r.value.razorpay == Razorpay(None, None, None) && r.value.meetLink == None
  {
    var s := status.GetOr("pending");
    if userId.Some? && s in BookingStatuses then
      Some(Booking(userId.value, doctorId, slotId, fee, s, Razorpay(None, None, None), None))
    else None
  }

  // ---------------------------------------------------------------------------
  // UserForm (the intake form)
  // ---------------------------------------------------------------------------

  const Genders: set<string> := {"male", "female", "non-binary", "prefer-not-to-say"}
  const Occupations: set<string> := {"student", "professional", "homemaker", "retired", "other"}
  const SleepCycles: set<string> := {"<6", "6-8", ">8"}
  const RelationshipStatuses: set<string> := {"single", "in-a-relationship", "married", "divorced"}

  datatype UserForm = UserForm(
    user: Id,
    age: real,
    gender: string,
    occupation: string,
    sleepCycle: string,
    relationshipStatus: string)

  /** The five answers of the intake form. */
  datatype Answers = Answers(
    age: real,
    gender: string,
    occupation: string,
    sleepCycle: string,
    relationshipStatus: string)

  predicate AnswersValid(a: Answers) {
    && 1.0 <= a.age <= 120.0
    && a.gender in Genders
    && a.occupation in Occupations
    && a.sleepCycle in SleepCycles
    && a.relationshipStatus in RelationshipStatuses
  }

  predicate UserFormValid(f: UserForm) {
    AnswersValid(Answers(f.age, f.gender, f.occupation, f.sleepCycle, f.relationshipStatus))
  }

  function AnswersOf(f: UserForm): (a: Answers)
    ensures UserFormValid(f) <==> AnswersValid(a)
  {
    Answers(f.age, f.gender, f.occupation, f.sleepCycle, f.relationshipStatus)
  }

  /** A form document for `owner` holding answers `a`; `None` is a validation error. */
  function NewUserForm(owner: Option<Id>, a: Answers): (r: Option<UserForm>)
    ensures r.Some? <==> owner.Some? && AnswersValid(a)
    ensures r.Some? ==> UserFormValid(r.value) && r.value.user == owner.value && AnswersOf(r.value) == a
  {
    if owner.Some? && AnswersValid(a) then
      Some(UserForm(owner.value, a.age, a.gender, a.occupation, a.sleepCycle, a.relationshipStatus))
    else None
  }

  // ---------------------------------------------------------------------------
  // EmotionAnalysis
  // ---------------------------------------------------------------------------

  const Emotions: set<string> := {"Anger", "Disgust", "Fear", "Happiness", "Sadness", "Surprise", "Neutral"}

  /** The stored picture; both parts are optional in the schema. */
  datatype Image = Image(data: Option<seq<bv8>>, contentType: Option<string>)

  datatype EmotionAnalysis = EmotionAnalysis(userId: Id, image: Image, emotion: string)

  predicate EmotionAnalysisValid(e: EmotionAnalysis) {
    e.emotion in Emotions
  }

  /** An analysis document; `None` is a validation error (no user, or a word outside the enumeration). */
  function NewEmotionAnalysis(userId: Option<Id>, image: Image, emotion: string): (r: Option<EmotionAnalysis>)
    ensures r.Some? <==> userId.Some? && emotion in Emotions
    ensures r.Some? ==> EmotionAnalysisValid(r.value) && r.value == EmotionAnalysis(userId.value, image, emotion)
  {
    if userId.Some? && emotion in Emotions then Some(EmotionAnalysis(userId.value, image, emotion)) else None
  }
}

=== FILE: mood.dfy ===
/**
 * The mood tracker page: picking an emoji sets today's gauges and rewrites
 * the last day of the week's history; reset restores the sample week.
 * Mood scores are kept in tenths (4.2 is 42), which represents every value
 * the page uses exactly.
 */
module Mood {
  import opened Wrappers

  /** One day of the history chart. */
  datatype Day = Day(day: string, mood: int, anxiety: int, depression: int)

  /** An emoji button and the values it stands for. */
  datatype Emoji = Emoji(mood: string, anxiety: int, depression: int, moodScore: int)

  const InitialHistory: seq<Day> := [
    Day("Mon", 42, 30, 25), Day("Tue", 38, 35, 30), Day("Wed", 32, 45, 40), Day("Thu", 45, 25, 20),
    Day("Fri", 40, 30, 28), Day("Sat", 46, 22, 18), Day("Sun", 39, 34, 29)
  ]

  const Emojis: seq<Emoji> := [
    Emoji("Happy", 18, 10, 48), Emoji("Sad", 48, 62, 20), Emoji("Angry", 55, 40, 26),
    Emoji("Anxious", 72, 45, 19), Emoji("Calm", 12, 8, 50), Emoji("Neutral", 32, 28, 35)
  ]

  const ExpandedWidth: nat := 256
  const CollapsedWidth: nat := 64

  datatype Tracker = Tracker(
    collapsed: bool, history: seq<Day>, selected: Option<string>,
    anxiety: int, depression: int, moodScore: int)

  /** The page as first shown: expanded sidebar, the sample week, gauges at 35, 30 and 3.9. */
  const Initial := Tracker(false, InitialHistory, None, 35, 30, 39)

  /**
   * `handleSelectEmoji`: the gauges and the selection take the emoji's values,
   * and the last history day keeps its name but takes the emoji's scores.
   * On an empty history the write lands on index -1, which is not an element,
   * so the history stays empty.
   */
  function SelectEmoji(t: Tracker, e: Emoji): (r: Tracker)
    ensures r.selected == Some(e.mood)
    ensures r.anxiety == e.anxiety && r.depression == e.depression && r.moodScore == e.moodScore
    ensures |r.history| == |t.history| && r.collapsed == t.collapsed
    ensures forall i :: 0 <= i < |t.history| - 1 ==> r.history[i] == t.history[i]
    ensures |t.history| > 0 ==>
      var last := r.history[|r.history| - 1];
      last.day == t.history[|t.history| - 1].day
      && last.mood == e.moodScore && last.anxiety == e.anxiety && last.depression == e.depression
  {
    var history := if t.history == [] then t.history
      else
        var n := |t.history| - 1;
        t.history[n := t.history[n].(mood := e.moodScore, anxiety := e.anxiety, depression := e.depression)];
    t.(selected := Some(e.mood), anxiety := e.anxiety, depression := e.depression, moodScore := e.moodScore,
       history := history)
  }

  /** `handleReset`: back to the initial gauges, no selection and the sample week; the sidebar is untouched. */
  function Reset(t: Tracker): (r: Tracker)
    ensures r.history == InitialHistory && r.selected.None?
    ensures r.anxiety == 35 && r.depression == 30 && r.moodScore == 39
    ensures r.collapsed == t.collapsed
  {
    Initial.(collapsed := t.collapsed)
  }

  function ToggleCollapsed(t: Tracker): (r: Tracker)
    ensures r.collapsed != t.collapsed && r.(collapsed := t.collapsed) == t
  {
    t.(collapsed := !t.collapsed)
  }

  /** The animated sidebar width in pixels. */
  function SidebarWidth(collapsed: bool): (r: nat)
    ensures r == (if collapsed then CollapsedWidth else ExpandedWidth)
  {
    if collapsed then 64 else 256
  }

  /** Today's gauges agree with the last day of the chart. */
  predicate Consistent(t: Tracker) {
    t.history != [] &&
    var last := t.history[|t.history| - 1];
    last.mood == t.moodScore && last.anxiety == t.anxiety && last.depression == t.depression
  }

  // ---------------------------------------------------------------------------
  // Properties
  // ---------------------------------------------------------------------------

  /** Choosing the same emoji twice leaves the page as choosing it once. */
  lemma SelectIdempotent(t: Tracker, e: Emoji)
    ensures SelectEmoji(SelectEmoji(t, e), e) == SelectEmoji(t, e)
  {
  }

  /** The second choice wins: choosing `a` then `b` is choosing `b`. */
  lemma LastChoiceWins(t: Tracker, a: Emoji, b: Emoji)
    ensures SelectEmoji(SelectEmoji(t, a), b) == SelectEmoji(t, b)
  {
  }

  /** A choice makes the gauges and the last day agree; the initial page does not (Sunday reads 34 and 29). */
  lemma SelectMakesConsistent(t: Tracker, e: Emoji)
    requires t.history != []
    ensures Consistent(SelectEmoji(t, e))
    ensures !Consistent(Initial)
  {
  }

  /** Reset forgets every choice. */
  lemma ResetForgets(t: Tracker, e: Emoji)
    ensures Reset(SelectEmoji(t, e)) == Reset(t)
    ensures Reset(Initial) == Initial
  {
  }

  /**
   * On any page state the collapse button moves the sidebar to the other
   * width, and pressing it again restores the page.
   */
  lemma ToggleSwapsWidth(t: Tracker)
    ensures SidebarWidth(ToggleCollapsed(t).collapsed) != SidebarWidth(t.collapsed)
    ensures {SidebarWidth(t.collapsed), SidebarWidth(ToggleCollapsed(t).collapsed)} == {CollapsedWidth, ExpandedWidth}
    ensures ToggleCollapsed(ToggleCollapsed(t)) == t
  {
  }
}

=== FILE: player.dfy ===
/**
 * The music player: the `m:ss` time label, the once-a-second playback tick
 * that stops at the track's end, the seek slider, and the play and like
 * toggles.
 */
module Player {
  import opened Wrappers
  import opened Text

  /** `s.toString().padStart(2, "0")`: one leading zero for a one-character text. */
  function Pad2(s: string): (r: string)
    ensures |s| < 2 ==> r == ['0'] + s
    ensures |s| >= 2 ==> r == s
  {
    if |s| < 2 then "0" + s else s
  }

  /**
   * `formatTime`: the digits before the colon read as the whole minutes, and
   * the two digits after it as the seconds left over.
   */
  function FormatTime(seconds: nat): (r: string)
    ensures |r| >= 4 && r[|r| - 3] == ':'
    ensures AllDigits(r[..|r| - 3]) && DigitsValue(r[..|r| - 3]) == seconds / 60
    ensures AllDigits(r[|r| - 2..]) && DigitsValue(r[|r| - 2..]) == seconds % 60
  {
    var m, p := Decimal(seconds / 60), Pad2(Decimal(seconds % 60));
    DecimalValue(seconds / 60);
    PaddedValue(seconds % 60);
    var r := m + ":" + p;
    assert r[..|r| - 3] == m && r[|r| - 2..] == p;
    r
  }

  /**
   * Reading an `m:ss` label back: minutes (at least one digit), a colon and
   * exactly two digits of seconds below 60; anything else is not a label.
   */
  function ReadTime(shown: string): (r: Option<nat>)
    ensures r.Some? ==> ':' in shown
  {
    var parts := Split(shown, ':');
    if |parts| == 2 && parts[0] != [] && AllDigits(parts[0]) && |parts[1]| == 2 && AllDigits(parts[1])
       && DigitsValue(parts[1]) < 60
    then
      assert shown != [] && ':' in shown by { SplitJoin(shown, ':'); }
      Some(DigitsValue(parts[0]) * 60 + DigitsValue(parts[1]))
    else None
  }

  /** Two-digit padding of a number below 100 is two digits that read back as the number. */
  lemma PaddedValue(n: nat)
    requires n < 100
    ensures |Pad2(Decimal(n))| == 2 && AllDigits(Pad2(Decimal(n)))
    ensures DigitsValue(Pad2(Decimal(n))) == n
  {
    DecimalValue(n);
    var d := Decimal(n);
    if n < 10 {
      var p := Pad2(d);
      assert p[..1] == "0";
      assert DigitsValue(p[..1]) == 0 by { assert p[..1][..0] == []; }
    } else {
      assert |Decimal(n / 10)| == 1;
    }
  }

  /** The label reads back as the time it shows: minutes × 60 + seconds is the input. */
  lemma {:induction false} FormatReadsBack(seconds: nat)
    ensures ReadTime(FormatTime(seconds)) == Some(seconds)
  {
    var m := Decimal(seconds / 60);
    var p := Pad2(Decimal(seconds % 60));
    PaddedValue(seconds % 60);
    DecimalValue(seconds / 60);
    assert ':' !in m && ':' !in p by {
      assert forall i :: 0 <= i < |m| ==> IsDigit(m[i]);
      assert forall i :: 0 <= i < |p| ==> IsDigit(p[i]);
    }
    assert FormatTime(seconds) == m + [':'] + p;
    SplitTwo(m, ':', p);
  }

  /** The track's length, 227 seconds, is labelled "3:47" like the track card. */
  lemma InitialDurationLabel()
    ensures FormatTime(227) == "3:47"
  {
    assert Decimal(3) == "3";
    assert Decimal(47) == "47" by { assert Decimal(4) == "4"; }
  }

  datatype Playback = Playback(playing: bool, current: nat, duration: nat, liked: bool)

  /** The page as first shown: paused at 0:41 of a 3:47 track, not liked. */
  const Initial := Playback(false, 41, 227, false)

  /** The position never runs past the end of the track. */
  predicate InTrack(p: Playback) {
    p.current <= p.duration
  }

  /** One interval tick: while playing, one second is added unless the end is reached. */
  function Tick(p: Playback): (r: Playback)
    ensures r.(current := p.current) == p
    ensures r.current == p.current + 1 <==> p.playing && p.current < p.duration
    ensures r.current != p.current + 1 ==> r.current == p.current
    ensures InTrack(p) ==> InTrack(r)
  {
    if p.playing && p.current < p.duration then p.(current := p.current + 1) else p
  }

  /** `k` ticks in a row. */
  function Ticks(p: Playback, k: nat): (r: Playback)
    decreases k
  {
    if k == 0 then p else Ticks(Tick(p), k - 1)
  }

  /** While playing, `k` ticks move a position inside the track by `k` seconds, stopping at the end. */
  lemma {:induction false} TicksStopAtEnd(p: Playback, k: nat)
    requires p.playing && InTrack(p)
    ensures Ticks(p, k).current == if p.current + k <= p.duration then p.current + k else p.duration
    ensures Ticks(p, k).(current := p.current) == p
    decreases k
  {
    if k > 0 {
      TicksStopAtEnd(Tick(p), k - 1);
    }
  }

  /** While paused, ticks change nothing. */
  lemma {:induction false} PausedTicksStill(p: Playback, k: nat)
    requires !p.playing
    ensures Ticks(p, k) == p
    decreases k
  {
    if k > 0 {
      PausedTicksStill(Tick(p), k - 1);
    }
  }

  /** The seek slider runs from 0 to the duration and sets the position to the chosen value. */
  function Seek(p: Playback, value: nat): (r: Playback)
    requires value <= p.duration
    ensures InTrack(r) && r.current == value && r.(current := p.current) == p
  {
    p.(current := value)
  }

  function TogglePlay(p: Playback): (r: Playback)
    ensures r.playing != p.playing && r.(playing := p.playing) == p
  {
    p.(playing := !p.playing)
  }

  function ToggleLike(p: Playback): (r: Playback)
    ensures r.liked != p.liked && r.(liked := p.liked) == p
  {
    p.(liked := !p.liked)
  }

  /** Pressing play twice, or like twice, restores the player. */
  lemma TogglesAreInvolutions(p: Playback)
    ensures TogglePlay(TogglePlay(p)) == p && ToggleLike(ToggleLike(p)) == p
    ensures TogglePlay(ToggleLike(p)) == ToggleLike(TogglePlay(p))
  {
  }
}

=== FILE: routes.dfy ===
/**
 * Request dispatch: the routers mounted by the server, in mount order, and a
 * first-match search over the flattened route table. The first route whose
 * method and path match answers the request.
 */
module Routes {
  import opened Wrappers
  import Http
  import Errors
  import Federation
  import Store
  import Documents

  datatype Verb = GET | POST

  /** A path pattern segment: a literal word, or a `:name` parameter matching one non-empty segment. */
  datatype Segment = Lit(word: string) | Param(name: string)

  datatype Provider = Google | Twitter

  /** The middleware that runs before a handler. */
  datatype Stage =
    | VerifyToken
    | VerifyRole(role: string)
      /** `upload.single(field)`; `filtered` when the type filter and size limit of the image upload apply. */
    | ParseFile(field: string, filtered: bool)
      /** `passport.authenticate`, with the OAuth `state` it sends, whether it uses a session, and where a failure goes. */
    | Authenticate(provider: Provider, state: Option<string>, session: bool, failureRedirect: Option<string>)

  /** What finally answers the request. */
  datatype Handler =
    | Signup | Signin
    | ToProvider                  // the authenticate stage itself redirects to the provider
    | RedirectTo(location: string)
    | AddSlots | GetSlotsByDoctor
    | AnalyzeEmotion
    | SubmitUserForm | GetUserForm
    | BookSlot | GetUserBookings
    | AddOrUpdateDoctorInfo | ListDoctors

  datatype Route = Route(verb: Verb, pattern: seq<Segment>, chain: seq<Stage>, handler: Handler)

  /** `app.use("/" + prefix, router)`. */
  datatype Mount = Mount(prefix: string, routes: seq<Route>)

  /** A route together with the prefix it was mounted under. */
  datatype Entry = Entry(prefix: string, route: Route)

  // ---------------------------------------------------------------------------
  // The routers
  // ---------------------------------------------------------------------------

  const SignupRoute := Route(POST, [Lit("signup")], [], Signup)
  const SigninRoute := Route(POST, [Lit("signin")], [], Signin)
  const GoogleRoute := Route(GET, [Lit("google")], [Authenticate(Google, Some("user"), true, None)], ToProvider)
  const GoogleDoctorRoute :=
    Route(GET, [Lit("google"), Lit("doctor")], [Authenticate(Google, Some("doctor"), true, None)], ToProvider)
  const GoogleCallbackRoute :=
    Route(GET, [Lit("google"), Lit("callback")], [Authenticate(Google, None, false, Some("/signin"))], RedirectTo("/dashboard"))
  const TwitterRoute := Route(GET, [Lit("twitter")], [Authenticate(Twitter, Some("user"), true, None)], ToProvider)
  const TwitterDoctorRoute :=
    Route(GET, [Lit("twitter"), Lit("doctor")], [Authenticate(Twitter, Some("doctor"), true, None)], ToProvider)
  const TwitterCallbackRoute :=
    Route(GET, [Lit("twitter"), Lit("callback")], [Authenticate(Twitter, None, false, Some("/signin"))], RedirectTo("/dashboard"))

  const AuthRoutes := [
    SignupRoute, SigninRoute, GoogleRoute, GoogleDoctorRoute, GoogleCallbackRoute,
    TwitterRoute, TwitterDoctorRoute, TwitterCallbackRoute
  ]

  const AddSlotsRoute := Route(POST, [Lit("add")], [VerifyToken], AddSlots)
  const SlotsByDoctorRoute := Route(GET, [Param("doctorId")], [], GetSlotsByDoctor)
  const SlotRoutes := [AddSlotsRoute, SlotsByDoctorRoute]

  /** The emotion router builds its own `multer()`, so no type filter or size limit applies. */
  const AnalyzeRoute :=
    Route(POST, [Lit("analyze")], [VerifyToken, VerifyRole("user"), ParseFile("image", false)], AnalyzeEmotion)
  const EmotionRoutes := [AnalyzeRoute]

  const SubmitRoute := Route(POST, [Lit("submit")], [VerifyToken], SubmitUserForm)
  const MeRoute := Route(GET, [Lit("me")], [VerifyToken], GetUserForm)
  const UserInfoRoutes := [SubmitRoute, MeRoute]

  const BookRoute := Route(POST, [Lit("book")], [VerifyToken], BookSlot)
  const MyBookingsRoute := Route(GET, [Lit("my-bookings")], [VerifyToken], GetUserBookings)
  const BookingRoutes := [BookRoute, MyBookingsRoute]

  const DoctorAddRoute := Route(POST, [Lit("add")], [VerifyToken], AddOrUpdateDoctorInfo)
  const GetDoctorRoute := Route(GET, [Lit("getDoctor")], [VerifyToken], ListDoctors)
  const DoctorInfoRoutes := [DoctorAddRoute, GetDoctorRoute]

  /** The mount order of the server. */
  const App := [
    Mount("auth", AuthRoutes),
    Mount("api", SlotRoutes),
    Mount("api", EmotionRoutes),
    Mount("api", UserInfoRoutes),
    Mount("api", BookingRoutes),
    Mount("api", DoctorInfoRoutes)
  ]

  /** `process.env.PORT || 7000`: a configured port, or 7000 when unset or empty. */
  datatype Port = Configured(text: string) | DefaultPort(number: nat)

  function ListenPort(setting: Option<string>): (r: Port)
    ensures r.DefaultPort? <==> setting.None? || setting == Some("")
    ensures r.DefaultPort? ==> r.number == 7000
    ensures r.Configured? ==> setting == Some(r.text)
  {
    if setting.Some? && setting.value != "" then Configured(setting.value) else DefaultPort(7000)
  }

  // ---------------------------------------------------------------------------
  // Matching and dispatch
  // ---------------------------------------------------------------------------

  predicate SegmentMatches(p: Segment, s: string) {
    match p
    case Lit(w) => s == w
    case Param(_) => s != []
  }

  /** A pattern matches a path of the same length segment by segment. */
  predicate PatternMatches(pattern: seq<Segment>, path: seq<string>) {
    |pattern| == |path| && (pattern == [] || (SegmentMatches(pattern[0], path[0]) && PatternMatches(pattern[1..], path[1..])))
  }

  /** A route matches a method and the path below its mount point. */
  predicate RouteMatches(r: Route, verb: Verb, path: seq<string>) {
    r.verb == verb && PatternMatches(r.pattern, path)
  }

  /** An entry matches a request path whose first segment is the mount prefix. */
  predicate Matches(e: Entry, verb: Verb, path: seq<string>) {
    |path| >= 1 && path[0] == e.prefix && RouteMatches(e.route, verb, path[1..])
  }

  /** The routes of every mount, in mount order, each with its prefix. */
  function Table(mounts: seq<Mount>): (t: seq<Entry>)
    ensures |mounts| >= 1 ==> |t| == |mounts[0].routes| + |Table(mounts[1..])|
  {
    if mounts == [] then []
    else
      var m := mounts[0];
      seq(|m.routes|, i requires 0 <= i < |m.routes| => Entry(m.prefix, m.routes[i])) + Table(mounts[1..])
  }

  /** The position of the first entry at or after `from` that matches. */
  function FirstMatch(table: seq<Entry>, verb: Verb, path: seq<string>, from: nat): (r: Option<nat>)
    requires from <= |table|
    ensures r.Some? ==> from <= r.value < |table| && Matches(table[r.value], verb, path)
    ensures r.Some? ==> forall j :: from <= j < r.value ==> !Matches(table[j], verb, path)
    ensures r.None? ==> forall j :: from <= j < |table| ==> !Matches(table[j], verb, path)
    decreases |table| - from
  {
    if from == |table| then None
    else if Matches(table[from], verb, path) then Some(from)
    else FirstMatch(table, verb, path, from + 1)
  }

  /** The search finds the earliest matching entry: any matching entry with no earlier match is the answer. */
  lemma FirstMatchIsEarliest(table: seq<Entry>, verb: Verb, path: seq<string>)
    ensures forall k ::
      0 <= k < |table| && Matches(table[k], verb, path) && (forall j :: 0 <= j < k ==> !Matches(table[j], verb, path))
      ==> FirstMatch(table, verb, path, 0) == Some(k)
  {
  }

  /**
   * The entry that answers a request: none when no route matches, and
   * otherwise the matching entry that comes first in mount order.
   */
  function Dispatch(mounts: seq<Mount>, verb: Verb, path: seq<string>): (r: Option<Entry>)
    ensures r.None? <==> forall j :: 0 <= j < |Table(mounts)| ==> !Matches(Table(mounts)[j], verb, path)
    ensures r.Some? ==> Matches(r.value, verb, path)
    ensures forall k ::
      (0 <= k < |Table(mounts)| && Matches(Table(mounts)[k], verb, path)
       && forall j :: 0 <= j < k ==> !Matches(Table(mounts)[j], verb, path))
      ==> r == Some(Table(mounts)[k])
  {
    var t := Table(mounts);
    FirstMatchIsEarliest(t, verb, path);
    match FirstMatch(t, verb, path, 0)
    case None => None
    case Some(i) => Some(t[i])
  }

  // ---------------------------------------------------------------------------
  // Properties of the server's table
  // ---------------------------------------------------------------------------

  /** The flattened table of the server, entry by entry. */
  lemma AppTable()
    ensures Table(App) == [
      Entry("auth", SignupRoute), Entry("auth", SigninRoute), Entry("auth", GoogleRoute),
      Entry("auth", GoogleDoctorRoute), Entry("auth", GoogleCallbackRoute), Entry("auth", TwitterRoute),
      Entry("auth", TwitterDoctorRoute), Entry("auth", TwitterCallbackRoute),
      Entry("api", AddSlotsRoute), Entry("api", SlotsByDoctorRoute),
      Entry("api", AnalyzeRoute),
      Entry("api", SubmitRoute), Entry("api", MeRoute),
      Entry("api", BookRoute), Entry("api", MyBookingsRoute),
      Entry("api", DoctorAddRoute), Entry("api", GetDoctorRoute)
    ]
  {
    var m := App;
    assert Table(m[5..]) == [Entry("api", DoctorAddRoute), Entry("api", GetDoctorRoute)] by {
      assert m[5..][1..] == [];
    }
    assert m[4..][1..] == m[5..];
    assert m[3..][1..] == m[4..];
    assert m[2..][1..] == m[3..];
    assert m[1..][1..] == m[2..];
    assert m[0..][1..] == m[1..];
    assert m[0..] == m;
  }

  /** The first eight entries come from the auth router and the rest from the api routers. */
  lemma Prefixes()
    ensures |Table(App)| == 17
    ensures forall j :: 0 <= j < 8 ==> Table(App)[j].prefix == "auth"
    ensures forall j :: 8 <= j < 17 ==> Table(App)[j].prefix == "api"
  {
    AppTable();
    var t := Table(App);
    forall j | 0 <= j < 17
      ensures j < 8 ==> t[j].prefix == "auth"
      ensures 8 <= j ==> t[j].prefix == "api"
    {
      if j < 4 {
        assert j == 0 || j == 1 || j == 2 || j == 3;
      } else if j < 8 {
        assert j == 4 || j == 5 || j == 6 || j == 7;
      } else if j < 12 {
        assert j == 8 || j == 9 || j == 10 || j == 11;
      } else {
        assert j == 12 || j == 13 || j == 14 || j == 15 || j == 16;
      }
    }
  }

  /** `POST /api/add` is always answered by the slot router's `addSlots`, never by the doctor profile upsert. */
  lemma PostAddAnsweredByAddSlots()
    ensures Dispatch(App, POST, ["api", "add"]) == Some(Entry("api", AddSlotsRoute))
    ensures AddSlotsRoute.chain == [VerifyToken] && AddSlotsRoute.handler == AddSlots
  {
    AppTable();
    var t, path := Table(App), ["api", "add"];
    assert Matches(t[8], POST, path) by { assert path[1..] == ["add"]; }
    assert forall j :: 0 <= j < 8 ==> !Matches(t[j], POST, path);
  }

  /** Every single-segment `GET /api/<x>` is answered by `getSlotsByDoctor`, which has no guard. */
  lemma SingleSegmentGetIsSlotLookup(x: string)
    requires x != []
    ensures Dispatch(App, GET, ["api", x]) == Some(Entry("api", SlotsByDoctorRoute))
    ensures SlotsByDoctorRoute.chain == []
  {
    AppTable();
    var t, path := Table(App), ["api", x];
    assert Matches(t[9], GET, path) by { assert path[1..] == [x]; }
    assert forall j :: 0 <= j < 9 ==> !Matches(t[j], GET, path);
  }

  /**
   * The routes declared for `GET /api/my-bookings`, `GET /api/me`,
   * `GET /api/getDoctor` and `POST /api/add` in later routers never answer
   * any request: the slot router, mounted earlier, captures all of them.
   */
  lemma ShadowedRoutesNeverAnswer(verb: Verb, path: seq<string>)
    ensures Dispatch(App, verb, path) != Some(Entry("api", MyBookingsRoute))
    ensures Dispatch(App, verb, path) != Some(Entry("api", MeRoute))
    ensures Dispatch(App, verb, path) != Some(Entry("api", GetDoctorRoute))
    ensures Dispatch(App, verb, path) != Some(Entry("api", DoctorAddRoute))
  {
    if |path| == 2 && path[0] == "api" && path[1] != [] {
      assert path == ["api", path[1]];
      if verb == GET {
        SingleSegmentGetIsSlotLookup(path[1]);
      } else if path[1] == "add" {
        PostAddAnsweredByAddSlots();
      }
    }
  }

  /** `POST /api/book` reaches `bookSlot` behind the token check, since no earlier router declares it. */
  lemma BookReachable()
    ensures Dispatch(App, POST, ["api", "book"]) == Some(Entry("api", BookRoute))
    ensures BookRoute.chain == [VerifyToken]
  {
    AppTable();
    Prefixes();
    var t, path := Table(App), ["api", "book"];
    assert path[1..] == ["book"];
    assert Matches(t[13], POST, path);
    forall j | 8 <= j < 13
      ensures !Matches(t[j], POST, path)
    {
      assert j == 8 || j == 9 || j == 10 || j == 11 || j == 12;
    }
  }

  /** `POST /api/submit` reaches `submitUserForm` behind the token check. */
  lemma SubmitReachable()
    ensures Dispatch(App, POST, ["api", "submit"]) == Some(Entry("api", SubmitRoute))
    ensures SubmitRoute.chain == [VerifyToken]
  {
    AppTable();
    Prefixes();
    var t, path := Table(App), ["api", "submit"];
    assert path[1..] == ["submit"];
    assert Matches(t[11], POST, path);
    forall j | 8 <= j < 11
      ensures !Matches(t[j], POST, path)
    {
      assert j == 8 || j == 9 || j == 10;
    }
  }

  /** `POST /api/analyze` reaches `analyzeEmotion` after the token check, the role check and the file parser, in that order. */
  lemma AnalyzeReachable()
    ensures Dispatch(App, POST, ["api", "analyze"]) == Some(Entry("api", AnalyzeRoute))
    ensures AnalyzeRoute.chain == [VerifyToken, VerifyRole("user"), ParseFile("image", false)]
  {
    AppTable();
    Prefixes();
    var t, path := Table(App), ["api", "analyze"];
    assert path[1..] == ["analyze"];
    assert Matches(t[10], POST, path);
    forall j | 8 <= j < 10
      ensures !Matches(t[j], POST, path)
    {
      assert j == 8 || j == 9;
    }
  }

  /**
   * Wherever a route parses an uploaded file, a token check comes earlier in
   * its chain, so an unauthenticated request is refused before any file is read.
   */
  lemma TokenCheckedBeforeFile()
    ensures forall k, p :: 0 <= k < |Table(App)| && 0 <= p < |Table(App)[k].route.chain| && Table(App)[k].route.chain[p].ParseFile? ==>
      exists q :: 0 <= q < p && Table(App)[k].route.chain[q] == VerifyToken
    ensures forall k, p :: 0 <= k < |Table(App)| && 0 <= p < |Table(App)[k].route.chain| && Table(App)[k].route.chain[p].ParseFile? ==>
      !Table(App)[k].route.chain[p].filtered
  {
    AppTable();
    var t := Table(App);
    forall k, p | 0 <= k < |t| && 0 <= p < |t[k].route.chain| && t[k].route.chain[p].ParseFile?
      ensures exists q :: 0 <= q < p && t[k].route.chain[q] == VerifyToken
      ensures !t[k].route.chain[p].filtered
    {
      FileOnlyInAnalyze(k, p);
      assert t[k].route.chain[0] == VerifyToken;
    }
  }

  /** The only file parser in the table is the third stage of the analysis route. */
  lemma FileOnlyInAnalyze(k: nat, p: nat)
    requires k < |Table(App)| && p < |Table(App)[k].route.chain| && Table(App)[k].route.chain[p].ParseFile?
    ensures k == 10 && p == 2
  {
    AppTable();
    if 8 <= k < 12 {
      assert k == 8 || k == 9 || k == 10 || k == 11;
    }
  }

  /** A request for an auth path is answered by the auth entry at position `k` when it matches and no earlier auth route does. */
  lemma AuthAnswer(verb: Verb, path: seq<string>, k: nat)
    requires k < 8 && |path| >= 1 && path[0] == "auth"
    requires RouteMatches(AuthRoutes[k], verb, path[1..])
    requires k > 0 ==> !RouteMatches(AuthRoutes[0], verb, path[1..])
    requires k > 1 ==> !RouteMatches(AuthRoutes[1], verb, path[1..])
    requires k > 2 ==> !RouteMatches(AuthRoutes[2], verb, path[1..])
    requires k > 3 ==> !RouteMatches(AuthRoutes[3], verb, path[1..])
    requires k > 4 ==> !RouteMatches(AuthRoutes[4], verb, path[1..])
    requires k > 5 ==> !RouteMatches(AuthRoutes[5], verb, path[1..])
    requires k > 6 ==> !RouteMatches(AuthRoutes[6], verb, path[1..])
    ensures Dispatch(App, verb, path) == Some(Entry("auth", AuthRoutes[k]))
  {
    AppTable();
    var t := Table(App);
    forall j | 0 <= j < 8
      ensures t[j] == Entry("auth", AuthRoutes[j])
    {
      if j < 4 {
        assert j == 0 || j == 1 || j == 2 || j == 3;
      } else {
        assert j == 4 || j == 5 || j == 6 || j == 7;
      }
    }
    assert Matches(t[k], verb, path);
  }

  /** The Google entry points send state "user" and "doctor". */
  lemma GoogleStates()
    ensures Dispatch(App, GET, ["auth", "google"]) == Some(Entry("auth", GoogleRoute))
    ensures Dispatch(App, GET, ["auth", "google", "doctor"]) == Some(Entry("auth", GoogleDoctorRoute))
    ensures GoogleRoute.chain[0].state == Some("user") && GoogleDoctorRoute.chain[0].state == Some("doctor")
  {
    AppTable();
    assert ["auth", "google"][1..] == ["google"];
    AuthAnswer(GET, ["auth", "google"], 2);
    assert ["auth", "google", "doctor"][1..] == ["google", "doctor"];
    AuthAnswer(GET, ["auth", "google", "doctor"], 3);
  }

  /** The Twitter entry points send state "user" and "doctor". */
  lemma TwitterStates()
    ensures Dispatch(App, GET, ["auth", "twitter"]) == Some(Entry("auth", TwitterRoute))
    ensures Dispatch(App, GET, ["auth", "twitter", "doctor"]) == Some(Entry("auth", TwitterDoctorRoute))
    ensures TwitterRoute.chain[0].state == Some("user") && TwitterDoctorRoute.chain[0].state == Some("doctor")
  {
    AppTable();
    assert ["auth", "twitter"][1..] == ["twitter"];
    AuthAnswer(GET, ["auth", "twitter"], 5);
    assert ["auth", "twitter", "doctor"][1..] == ["twitter", "doctor"];
    AuthAnswer(GET, ["auth", "twitter", "doctor"], 6);
  }

  /**
   * Both OAuth callbacks authenticate without a session and redirect successes
   * to "/dashboard"; each is configured with failureRedirect "/signin", which
   * only a strategy `fail()` reaches (see `CallbackEnd`).
   */
  lemma OAuthCallbacks()
    ensures Dispatch(App, GET, ["auth", "google", "callback"]) == Some(Entry("auth", GoogleCallbackRoute))
    ensures Dispatch(App, GET, ["auth", "twitter", "callback"]) == Some(Entry("auth", TwitterCallbackRoute))
    ensures GoogleCallbackRoute.chain == [Authenticate(Google, None, false, Some("/signin"))]
    ensures TwitterCallbackRoute.chain == [Authenticate(Twitter, None, false, Some("/signin"))]
    ensures GoogleCallbackRoute.handler == TwitterCallbackRoute.handler == RedirectTo("/dashboard")
  {
    GoogleCallback();
    TwitterCallback();
  }

  /** How an OAuth callback ends: the browser is redirected, or the request is answered. */
  datatype Ending = Redirected(location: string) | Answered(reply: Http.Reply<()>)

  /**
   * The end of an OAuth callback once the verify callback has called `done`.
   * A user goes on to the route's handler. An error, passed as
   * `done(err, null)`, goes to `next(err)` instead of the failureRedirect, and
   * the server's inline error handler answers it. The store's and the
   * runtime's errors carry no `status`; `message` is the error's own text.
   */
  function CallbackEnd(route: Route, o: Federation.Outcome, message: string): (r: Ending)
    ensures o.Authenticated? && route.handler.RedirectTo? ==> r == Redirected(route.handler.location)
    ensures o.Failed? ==> r.Answered? && r.reply.status == 500 && r.reply.payload.None?
    ensures o.Failed? && message != [] ==> r.reply.message == Http.Text(message)
  {
    match o
    case Authenticated(_, _) =>
      if route.handler.RedirectTo? then Redirected(route.handler.location)
      else Answered(Http.Fail(500, Errors.InlineMessage))
    case Failed(_) => Answered(Errors.InlineHandler(Errors.Error(None, None, message)))
  }

  /**
   * A verify error in either callback is answered 500 by the inline handler
   * and is never redirected to the failureRedirect "/signin"; a signed-in user
   * is redirected to "/dashboard".
   */
  lemma VerifyErrorsAnswer500(db: Documents.Db, state: Option<string>, g: Federation.GoogleProfile, t: Federation.TwitterProfile, message: string)
    ensures var o := Federation.GoogleVerify(db, state, g).0;
      && (o.Failed? ==> CallbackEnd(GoogleCallbackRoute, o, message).Answered?)
      && (o.Failed? ==> CallbackEnd(GoogleCallbackRoute, o, message).reply.status == 500)
      && (o.Authenticated? ==> CallbackEnd(GoogleCallbackRoute, o, message) == Redirected("/dashboard"))
    ensures var o := Federation.TwitterVerify(db, state, t).0;
      && (o.Failed? ==> CallbackEnd(TwitterCallbackRoute, o, message).Answered?)
      && (o.Failed? ==> CallbackEnd(TwitterCallbackRoute, o, message).reply.status == 500)
      && (o.Authenticated? ==> CallbackEnd(TwitterCallbackRoute, o, message) == Redirected("/dashboard"))
    ensures GoogleCallbackRoute.chain[0].failureRedirect == TwitterCallbackRoute.chain[0].failureRedirect == Some("/signin")
  {
  }

  /** A first Google sign-in whose profile has no address ends in a 500, not at "/signin". */
  lemma GoogleWithoutEmailAnswers500(db: Documents.Db, state: Option<string>, g: Federation.GoogleProfile, message: string)
    requires Store.FindOne(db.users, Federation.WithGoogleId(g.id), db.next).None?
    requires g.emails == []
    ensures CallbackEnd(GoogleCallbackRoute, Federation.GoogleVerify(db, state, g).0, message).Answered?
    ensures CallbackEnd(GoogleCallbackRoute, Federation.GoogleVerify(db, state, g).0, message).reply.status == 500
  {
    Federation.GoogleWithoutEmailFails(db, state, g);
  }

  lemma GoogleCallback()
    ensures Dispatch(App, GET, ["auth", "google", "callback"]) == Some(Entry("auth", GoogleCallbackRoute))
  {
    AppTable();
    assert ["auth", "google", "callback"][1..] == ["google", "callback"];
    assert ["google", "callback"][1..] == ["callback"] && [Lit("google"), Lit("doctor")][1..] == [Lit("doctor")];
    AuthAnswer(GET, ["auth", "google", "callback"], 4);
  }

  lemma TwitterCallback()
    ensures Dispatch(App, GET, ["auth", "twitter", "callback"]) == Some(Entry("auth", TwitterCallbackRoute))
  {
    AppTable();
    assert ["auth", "twitter", "callback"][1..] == ["twitter", "callback"];
    assert ["twitter", "callback"][1..] == ["callback"] && [Lit("twitter"), Lit("doctor")][1..] == [Lit("doctor")];
    AuthAnswer(GET, ["auth", "twitter", "callback"], 7);
  }

  /** Sign-up and sign-in go straight to their handlers with no token check. */
  lemma CredentialsUnguarded()
    ensures Dispatch(App, POST, ["auth", "signup"]) == Some(Entry("auth", SignupRoute)) && SignupRoute.chain == []
    ensures Dispatch(App, POST, ["auth", "signin"]) == Some(Entry("auth", SigninRoute)) && SigninRoute.chain == []
  {
    AppTable();
    assert ["auth", "signup"][1..] == ["signup"];
    AuthAnswer(POST, ["auth", "signup"], 0);
    assert ["auth", "signin"][1..] == ["signin"];
    AuthAnswer(POST, ["auth", "signin"], 1);
  }

  // ---------------------------------------------------------------------------
  // Requests no route answers
  // ---------------------------------------------------------------------------

  function VerbName(v: Verb): string {
    match v
    case GET => "GET"
    case POST => "POST"
  }

  /** The path as the request line spells it: each segment after a "/". */
  function PathText(path: seq<string>): (r: string)
    ensures |r| >= |path|
  {
    if path == [] then [] else "/" + path[0] + PathText(path[1..])
  }

  /**
   * Express's built-in final handler, which answers what no middleware
   * answered: 404 with the text "Cannot <method> <path>" (inside a small
   * HTML page, which the model leaves out).
   */
  function DefaultNotFound(verb: Verb, path: seq<string>): (r: Http.Reply<()>)
    ensures r.status == 404 && r.payload.None? && r.message.Text?
    ensures r.message.text == "Cannot " + VerbName(verb) + " " + PathText(path)
  {
    Http.Fail(404, "Cannot " + VerbName(verb) + " " + PathText(path))
  }

  /** What answers a request: the first matching route, or the reply of the final handler. */
  datatype Answer = Routed(entry: Entry) | Unrouted(reply: Http.Reply<()>)

  /**
   * The server after its routers: the inline error handler only sees errors,
   * and no `notFound` is mounted, so a request no route matches falls through
   * to Express's own 404.
   */
  function Serve(verb: Verb, path: seq<string>): (a: Answer)
    ensures a.Routed? <==> Dispatch(App, verb, path).Some?
    ensures a.Routed? ==> Matches(a.entry, verb, path)
    ensures a.Unrouted? ==> a.reply.status == 404
  {
    match Dispatch(App, verb, path)
    case Some(e) => Routed(e)
    case None => Unrouted(DefaultNotFound(verb, path))
  }

  /**
   * An unmatched request gets a 404, but never the reply of `notFound`: its
   * text starts "Cannot ", not "Route not found".
   */
  lemma UnmatchedMissesNotFound(verb: Verb, path: seq<string>)
    requires Dispatch(App, verb, path).None?
    ensures Serve(verb, path).Unrouted?
    ensures Serve(verb, path).reply.status == Errors.NotFound().status
    ensures Serve(verb, path).reply != Errors.NotFound()
  {
    var r := Serve(verb, path).reply;
    assert r.message.text[0] == 'C';
    assert Errors.NotFound().message.text[0] == 'R';
  }

  /** Every request outside the two mount points is unmatched. */
  lemma OutsideMountsUnmatched(verb: Verb, path: seq<string>)
    requires path == [] || (path[0] != "auth" && path[0] != "api")
    ensures Dispatch(App, verb, path).None?
    ensures Serve(verb, path) == Unrouted(DefaultNotFound(verb, path))
  {
    Prefixes();
  }
}

=== FILE: screening.dfy ===
/**
 * The PHQ screening stepper in the browser: four questions answered with an
 * option id from 0 to 3, navigation kept within the questions, and the
 * payload the submit posts.
 */
module Screening {
  import opened Wrappers
  import Routes

  datatype Question = Question(key: string, title: string)

  const Questions: seq<Question> := [
    Question("q1", "Little interest or pleasure in doing things"),
    Question("q2", "Feeling down, depressed, or hopeless"),
    Question("q3", "Trouble falling or staying asleep, or sleeping too much"),
    Question("q4", "Feeling tired or having little energy")
  ]

  /** The answer options are identified by 0, 1, 2 and 3. */
  const OptionCount: nat := 4

  const Last: nat := |Questions| - 1

  datatype Screen = Screen(answers: map<string, nat>, current: nat, loading: bool)

  /** The current step is a question, and every stored answer is an option id. */
  ghost predicate Valid(s: Screen) {
    s.current <= Last && forall k :: k in s.answers ==> s.answers[k] < OptionCount
  }

  /** `canProceed`: the current question has an answer; 0 is an answer like any other. */
  predicate CanProceed(s: Screen)
    requires Valid(s)
  {
    Questions[s.current].key in s.answers
  }

  /** `handleOptionSelect` for the current question: records that option and nothing else. */
  function Select(s: Screen, choice: nat): (r: Screen)
    requires Valid(s) && choice < OptionCount
    ensures Valid(r) && CanProceed(r)
    ensures Questions[s.current].key in r.answers && r.answers[Questions[s.current].key] == choice
    ensures forall k :: k != Questions[s.current].key ==> (k in r.answers <==> k in s.answers)
    ensures forall k :: k != Questions[s.current].key && k in s.answers ==> r.answers[k] == s.answers[k]
    ensures r.current == s.current && r.loading == s.loading
  {
    s.(answers := s.answers[Questions[s.current].key := choice])
  }

  function Next(s: Screen): (r: Screen)
    requires Valid(s)
    ensures Valid(r) && r.answers == s.answers
    ensures r.current == (if s.current < Last && CanProceed(s) then s.current + 1 else s.current)
  {
    if s.current < Last && CanProceed(s) then s.(current := s.current + 1) else s
  }

  function Prev(s: Screen): (r: Screen)
    requires Valid(s)
    ensures Valid(r) && r.answers == s.answers
    ensures r.current == (if s.current > 0 then s.current - 1 else 0)
  {
    if s.current > 0 then s.(current := s.current - 1) else s
  }

  /** One entry of the payload: the question text and the answer, `null` when unanswered. */
  datatype Entry = Entry(questionText: string, response: Option<nat>)

  /** The `questions` list of the payload: one entry per question, in order, `formData[key] ?? null`. */
  function Payload(answers: map<string, nat>): (r: seq<Entry>)
    ensures |r| == |Questions|
    ensures forall i :: 0 <= i < |r| ==> r[i].questionText == Questions[i].title
    ensures forall i :: 0 <= i < |r| ==> (r[i].response.Some? <==> Questions[i].key in answers)
    ensures forall i :: 0 <= i < |r| && Questions[i].key in answers ==> r[i].response == Some(answers[Questions[i].key])
  {
    seq(|Questions|, i requires 0 <= i < |Questions| =>
      var key := Questions[i].key;
      Entry(Questions[i].title, if key in answers then Some(answers[key]) else None))
  }

  /** The Next button is enabled only when the current question is answered. */
  predicate NextEnabled(s: Screen)
    requires Valid(s)
  {
    s.current < Last && CanProceed(s)
  }

  /** The Submit button shows on the last question and is disabled only while loading. */
  predicate SubmitEnabled(s: Screen) {
    s.current == Last && !s.loading
  }

  const SubmitPath := ["api", "phq9"]

  /** Pressing Submit: loading starts and the payload is posted. */
  function Submit(s: Screen): (r: (Screen, seq<Entry>))
    requires Valid(s) && SubmitEnabled(s)
    ensures r.0 == s.(loading := true)
    ensures r.1 == Payload(s.answers)
  {
    (s.(loading := true), Payload(s.answers))
  }

  /** The toast after the request: success, or "Error: " and the server's message or a fixed text. */
  function Toast(ok: bool, message: Option<string>): (r: string)
    ensures ok ==> r == "PHQ-9 submitted successfully!"
    ensures !ok && message.Some? && message.value != "" ==> r == "Error: " + message.value
    ensures !ok && (message.None? || message == Some("")) ==> r == "Error: Submission failed"
  {
    if ok then "PHQ-9 submitted successfully!"
    else "Error: " + (if message.Some? && message.value != "" then message.value else "Submission failed")
  }

  // ---------------------------------------------------------------------------
  // Properties
  // ---------------------------------------------------------------------------

  /** Choosing "Not at all" (option 0) lets the form proceed and is sent as 0, not as null. */
  lemma ZeroCounts(s: Screen)
    requires Valid(s) && s.current < Last
    ensures NextEnabled(Select(s, 0))
    ensures Payload(Select(s, 0).answers)[s.current].response == Some(0)
  {
  }

  /**
   * The last question can be submitted unanswered: Submit does not look at
   * the answer, and the payload then carries null for it.
   */
  lemma UnansweredLastIsSentAsNull(s: Screen)
    requires Valid(s) && s.current == Last && !s.loading
    requires Questions[Last].key !in s.answers
    ensures SubmitEnabled(s) && !CanProceed(s)
    ensures Submit(s).1[Last].response.None?
  {
  }

  /** From any reachable state, Next and Prev keep the step among the four questions. */
  lemma {:induction false} StepStaysInRange(s: Screen, moves: seq<bool>)
    requires Valid(s)
    ensures Valid(Replay(s, moves)) && Replay(s, moves).current <= 3
    decreases |moves|
  {
    if moves != [] {
      var t := if moves[0] then Next(s) else Prev(s);
      StepStaysInRange(t, moves[1..]);
    }
  }

  /** A sequence of Next (true) and Prev (false) presses. */
  function Replay(s: Screen, moves: seq<bool>): (r: Screen)
    requires Valid(s)
    ensures r.answers == s.answers
    decreases |moves|
  {
    if moves == [] then s
    else Replay(if moves[0] then Next(s) else Prev(s), moves[1..])
  }

  /** The server declares no `POST /api/phq9` route, so the screening submission is answered by no handler. */
  lemma SubmissionHasNoRoute()
    ensures Routes.Dispatch(Routes.App, Routes.POST, SubmitPath) == None
  {
    Routes.Prefixes();
    Routes.AppTable();
    var t := Routes.Table(Routes.App);
    assert SubmitPath[1..] == ["phq9"];
    forall j | 8 <= j < 17
      ensures !Routes.Matches(t[j], Routes.POST, SubmitPath)
    {
      assert j == 8 || j == 9 || j == 10 || j == 11 || j == 12 || j == 13 || j == 14 || j == 15 || j == 16;
    }
  }
}

=== FILE: seller.dfy ===
/**
 * The seller dashboard: the product form validator, the three best sellers,
 * the order count, the delete confirmation and loading a product into the
 * form. Prices are kept in hundredths; only their sign matters here.
 */
module Seller {
  import opened Wrappers
  import opened Text

  datatype Product = Product(
    id: string, name: string, price: int, description: Option<string>,
    category: Option<string>, sold: Option<nat>)

  /** `p.sold || 0`. */
  function Sold(p: Product): nat {
    if p.sold.Some? then p.sold.value else 0
  }

  // ---------------------------------------------------------------------------
  // Reading a price the way `Number(text)` does
  // ---------------------------------------------------------------------------

  /** What matters of `Number(text)` for the check `<= 0`. */
  datatype Sign = NaN | Negative | Zero | Positive

  /**
   * `Number(text)` for plain decimal notation: surrounding whitespace is
   * ignored, the empty text is 0, a sign may lead, and anything else is NaN.
   */
  function ReadSign(text: string): (r: Sign)
    ensures AllSpace(text) ==> r == Zero
  {
    TrimEmptyIffAllSpace(text);
    SignOfTrimmed(Trim(text))
  }

  /** `ReadSign` on text already stripped of surrounding whitespace. */
  function SignOfTrimmed(t: string): Sign {
    if t == [] then Zero
    else
      var u := Unsigned(t);
      if !DecimalText(u) then NaN
      else if ZeroDigits(u) then Zero
      else if t[0] == '-' then Negative
      else Positive
  }

  /** On text without surrounding whitespace, `ReadSign` looks at the sign and the digits directly. */
  lemma ReadSignUnpadded(t: string)
    requires t != [] && !IsSpace(t[0]) && !IsSpace(t[|t| - 1])
    ensures ReadSign(t) == (var u := Unsigned(t);
      if !DecimalText(u) then NaN else if ZeroDigits(u) then Zero else if t[0] == '-' then Negative else Positive)
  {
    TrimUnpadded(t);
  }

  /** `ReadSign` is the sign of the number `Number(text)` reads, and NaN where it reads none. */
  lemma ReadSignIsSignOfNumber(text: string)
    ensures ReadSign(text) == NaN <==> NumberOf(text).None?
    ensures ReadSign(text) == Zero <==> NumberOf(text) == Some(0.0)
    ensures ReadSign(text) == Negative <==> NumberOf(text).Some? && NumberOf(text).value < 0.0
    ensures ReadSign(text) == Positive <==> NumberOf(text).Some? && NumberOf(text).value > 0.0
  {
    TrimmedSignIsSignOfNumber(Trim(text));
  }

  lemma TrimmedSignIsSignOfNumber(t: string)
    ensures SignOfTrimmed(t) == NaN <==> NumberOfTrimmed(t).None?
    ensures SignOfTrimmed(t) == Zero <==> NumberOfTrimmed(t) == Some(0.0)
    ensures SignOfTrimmed(t) == Negative <==> NumberOfTrimmed(t).Some? && NumberOfTrimmed(t).value < 0.0
    ensures SignOfTrimmed(t) == Positive <==> NumberOfTrimmed(t).Some? && NumberOfTrimmed(t).value > 0.0
  {
    if t != [] && DecimalText(Unsigned(t)) {
      DecimalTextZero(Unsigned(t));
    }
  }

  // ---------------------------------------------------------------------------
  // The product form
  // ---------------------------------------------------------------------------

  /** The price field: typed text, or the number copied in from a product being edited. */
  datatype PriceField = Typed(text: string) | Loaded(amount: int)

  datatype Form = Form(
    id: Option<string>, name: string, price: PriceField, description: Option<string>,
    category: Option<string>, images: nat)

  const EmptyForm := Form(None, "", Typed(""), Some(""), Some(""), 0)

  const NameError := "Name required (min 3 chars)"
  const PriceError := "Valid price required"
  const DescriptionError := "Short description (min 10 chars)"
  const CategoryError := "Category required"
  const ImagesError := "At least one image is required"

  /** `!form.price || Number(form.price) <= 0`. */
  predicate PriceFlagged(p: PriceField) {
    match p
    case Typed(t) => t == [] || ReadSign(t) in {Negative, Zero}
    case Loaded(a) => a <= 0
  }

  /** `!field || field.trim().length < n` on an optional text. */
  predicate TooShort(field: Option<string>, n: nat) {
    field.None? || |Trim(field.value)| < n
  }

  /** `!form.category`. */
  predicate Blank(field: Option<string>) {
    field.None? || field.value == []
  }

  /** The keys of the error object. */
  datatype Field = Name | Price | Description | Category | Images

  /** Whether `validateForm` sets an error under the key. */
  predicate Fails(f: Form, editing: bool, key: Field) {
    match key
    case Name => |Trim(f.name)| < 3
    case Price => PriceFlagged(f.price)
    case Description => TooShort(f.description, 10)
    case Category => Blank(f.category)
    case Images => !editing && f.images == 0
  }

  function Message(key: Field): string {
    match key
    case Name => NameError
    case Price => PriceError
    case Description => DescriptionError
    case Category => CategoryError
    case Images => ImagesError
  }

  /**
   * `validateForm`: one error per failing field, keyed by the field; the form
   * is valid exactly when no key was set.
   */
  function ValidateForm(f: Form, editing: bool): (r: (bool, map<Field, string>))
    ensures r.0 <==> forall k :: !Fails(f, editing, k)
    ensures r.0 <==> r.1 == map[]
    ensures forall k :: k in r.1 <==> Fails(f, editing, k)
    ensures forall k :: k in r.1 ==> r.1[k] == Message(k)
  {
    var e := map k: Field | Fails(f, editing, k) :: Message(k);
    assert forall k :: k in e <==> Fails(f, editing, k);
    assert e == map[] <==> forall k :: k !in e;
    (e == map[], e)
  }

  /** The decimal notation of a number is a decimal text without surrounding whitespace or sign. */
  lemma DecimalIsPlain(n: nat)
    ensures var d := Decimal(n);
      !IsSpace(d[0]) && !IsSpace(d[|d| - 1]) && Unsigned(d) == d && DecimalText(d)
  {
    var d := Decimal(n);
    assert IsDigit(d[0]) && IsDigit(d[|d| - 1]);
    LeadingDigit(d);
  }

  /** A positive whole number is a valid price and zero is not. */
  lemma PriceSigns(n: nat)
    ensures ReadSign(Decimal(n)) == (if n == 0 then Zero else Positive)
  {
    DecimalIsPlain(n);
    ReadSignUnpadded(Decimal(n));
    if n > 0 {
      LeadingNonZero(n);
    } else {
      var d := Decimal(n);
      assert |d| == 1 && d[0] == ('0' as int + 0) as char;
      assert ZeroDigits(d);
    }
  }

  /** A minus sign before a positive number makes the price invalid. */
  lemma NegativePrice(n: nat)
    requires n > 0
    ensures ReadSign("-" + Decimal(n)) == Negative && PriceFlagged(Typed("-" + Decimal(n)))
  {
    var d := Decimal(n);
    DecimalIsPlain(n);
    LeadingNonZero(n);
    var m := "-" + d;
    assert m[|m| - 1] == d[|d| - 1];
    assert Unsigned(m) == d;
    ReadSignUnpadded(m);
  }

  /** The decimal notation of a positive number starts with a non-zero digit. */
  lemma LeadingNonZero(n: nat)
    requires n > 0
    ensures Decimal(n)[0] != '0'
  {
  }

  /**
   * A price with no digit in it reads as NaN and is not flagged, unless it is
   * blank: `Number("abc") <= 0` is false.
   */
  lemma NoDigitsNotFlagged(text: string)
    requires text != [] && !AllSpace(text)
    requires forall i :: 0 <= i < |text| ==> !IsDigit(text[i])
    ensures ReadSign(text) == NaN && !PriceFlagged(Typed(text))
  {
    TrimEmptyIffAllSpace(text);
    TrimWithin(text);
    var t := Trim(text);
    var u := Unsigned(t);
    assert forall i :: 0 <= i < |u| ==> u[i] in t;
  }

  /** Images are demanded of a new product only: the same form can be valid when editing and invalid when adding. */
  lemma ImagesOnlyWhenAdding(f: Form)
    requires f.images == 0
    ensures !ValidateForm(f, false).0
    ensures ValidateForm(f, true).0 <==>
      !Fails(f, true, Name) && !Fails(f, true, Price) && !Fails(f, true, Description) && !Fails(f, true, Category)
  {
    assert Fails(f, false, Images);
    assert !Fails(f, true, Images);
    if ValidateForm(f, true).0 {
      assert !Fails(f, true, Name) && !Fails(f, true, Price) && !Fails(f, true, Description) && !Fails(f, true, Category);
    } else {
      var k :| Fails(f, true, k);
      assert k.Name? || k.Price? || k.Description? || k.Category?;
    }
  }

  /** Each field of the empty form fails. */
  lemma EmptyFormFields()
    ensures Fails(EmptyForm, false, Name) && Fails(EmptyForm, false, Price) && Fails(EmptyForm, false, Description)
    ensures Fails(EmptyForm, false, Category) && Fails(EmptyForm, false, Images)
  {
    assert Trim("") == "";
  }

  /** The empty form, when adding, gets an error under every key. */
  lemma EmptyFormFailsEverywhere()
    ensures forall k :: k in ValidateForm(EmptyForm, false).1
  {
    EmptyFormFields();
    forall k | true
      ensures Fails(EmptyForm, false, k)
    {
      assert k.Name? || k.Price? || k.Description? || k.Category? || k.Images?;
    }
  }

  // ---------------------------------------------------------------------------
  // Best sellers and the order count
  // ---------------------------------------------------------------------------

  /** Products ordered by non-increasing sales. */
  ghost predicate BySales(s: seq<Product>) {
    forall i, j :: 0 <= i < j < |s| ==> Sold(s[j]) <= Sold(s[i])
  }

  /** Places `x` before the first product that sold no more than it. */
  function Insert(x: Product, s: seq<Product>): (r: seq<Product>)
    ensures multiset(r) == multiset(s) + multiset{x}
    ensures |r| == |s| + 1
  {
    if s == [] || Sold(s[0]) <= Sold(x) then [x] + s
    else
      assert s == [s[0]] + s[1..];
      [s[0]] + Insert(x, s[1..])
  }

  lemma {:induction false} InsertKeepsOrder(x: Product, s: seq<Product>)
    requires BySales(s)
    ensures BySales(Insert(x, s))
  {
    if s != [] && Sold(s[0]) > Sold(x) {
      InsertKeepsOrder(x, s[1..]);
      var r := Insert(x, s);
      var t := Insert(x, s[1..]);
      assert r == [s[0]] + t;
      forall k | 0 <= k < |t|
        ensures Sold(t[k]) <= Sold(s[0])
      {
        assert t[k] in multiset(s[1..]) + multiset{x};
        if t[k] in multiset(s[1..]) {
          var m :| 0 <= m < |s[1..]| && s[1..][m] == t[k];
          assert s[1..][m] == s[m + 1];
        }
      }
    }
  }

  /** `[...products].sort((a, b) => (b.sold || 0) - (a.sold || 0))`, a stable sort by sales. */
  function SortBySales(s: seq<Product>): (r: seq<Product>)
    ensures multiset(r) == multiset(s) && |r| == |s|
  {
    if s == [] then []
    else
      assert s == [s[0]] + s[1..];
      Insert(s[0], SortBySales(s[1..]))
  }

  lemma {:induction false} SortedBySales(s: seq<Product>)
    ensures BySales(SortBySales(s))
  {
    if s != [] {
      SortedBySales(s[1..]);
      InsertKeepsOrder(s[0], SortBySales(s[1..]));
    }
  }

  /** The products that sold exactly `v`, in their order. */
  function SoldExactly(s: seq<Product>, v: nat): seq<Product> {
    if s == [] then [] else (if Sold(s[0]) == v then [s[0]] else []) + SoldExactly(s[1..], v)
  }

  /** `Insert` places `x` ahead of every product that sold as much, and passes only products that sold more. */
  lemma {:induction false} InsertAmongEqual(x: Product, s: seq<Product>, v: nat)
    ensures SoldExactly(Insert(x, s), v) == (if Sold(x) == v then [x] else []) + SoldExactly(s, v)
  {
    var own := if Sold(x) == v then [x] else [];
    var r := Insert(x, s);
    if s == [] || Sold(s[0]) <= Sold(x) {
      assert r[0] == x && r[1..] == s;
    } else {
      var t := Insert(x, s[1..]);
      InsertAmongEqual(x, s[1..], v);
      assert r[0] == s[0] && r[1..] == t;
      var head := if Sold(s[0]) == v then [s[0]] else [];
      assert SoldExactly(r, v) == head + (own + SoldExactly(s[1..], v));
      assert SoldExactly(s, v) == head + SoldExactly(s[1..], v);
      assert own == [] || head == [];
    }
  }

  /** The sort is stable: products with equal sales keep their relative order. */
  lemma {:induction false} SortIsStable(s: seq<Product>, v: nat)
    ensures SoldExactly(SortBySales(s), v) == SoldExactly(s, v)
  {
    if s != [] {
      SortIsStable(s[1..], v);
      InsertAmongEqual(s[0], SortBySales(s[1..]), v);
    }
  }

  /** `topSellers`: the first three of the sorted copy. */
  function TopSellers(products: seq<Product>): (r: seq<Product>)
    ensures |r| == if |products| < 3 then |products| else 3
    ensures forall p :: p in r ==> p in products
  {
    var sorted := SortBySales(products);
    var k := if |sorted| < 3 then |sorted| else 3;
    assert forall p :: p in sorted[..k] ==> p in multiset(sorted);
    sorted[..k]
  }

  /**
   * The best sellers are in non-increasing order of sales and no product left
   * out sold more than any of them.
   */
  lemma TopSellersAreTop(products: seq<Product>)
    ensures BySales(TopSellers(products))
    ensures var sorted := SortBySales(products); var r := TopSellers(products);
      r == sorted[..|r|]
      && forall i, j :: 0 <= i < |r| <= j < |sorted| ==> Sold(sorted[j]) <= Sold(r[i])
  {
    SortedBySales(products);
  }

  /** The "orders" figure: the sum of sales, a missing count adding 0. */
  function Orders(products: seq<Product>): (r: nat)
    ensures forall i :: 0 <= i < |products| ==> Sold(products[i]) <= r
    ensures r == 0 <==> forall i :: 0 <= i < |products| ==> Sold(products[i]) == 0
  {
    if products == [] then 0 else Sold(products[0]) + Orders(products[1..])
  }

  lemma {:induction false} OrdersAppend(a: seq<Product>, b: seq<Product>)
    ensures Orders(a + b) == Orders(a) + Orders(b)
  {
    if a == [] {
      assert a + b == b;
    } else {
      assert (a + b)[1..] == a[1..] + b;
      OrdersAppend(a[1..], b);
    }
  }

  lemma {:induction false} OrdersInsert(x: Product, s: seq<Product>)
    ensures Orders(Insert(x, s)) == Sold(x) + Orders(s)
  {
    if s != [] && Sold(s[0]) > Sold(x) {
      OrdersInsert(x, s[1..]);
      assert Insert(x, s)[1..] == Insert(x, s[1..]);
    }
  }

  /** A prefix of a product list counts at most the whole list's orders. */
  lemma PrefixWithinOrders(s: seq<Product>, k: nat)
    requires k <= |s|
    ensures Orders(s[..k]) <= Orders(s)
  {
    assert s == s[..k] + s[k..];
    OrdersAppend(s[..k], s[k..]);
  }

  /** Sorting by sales keeps the order count. */
  lemma {:induction false} SortKeepsOrders(products: seq<Product>)
    ensures Orders(SortBySales(products)) == Orders(products)
  {
    if products != [] {
      SortKeepsOrders(products[1..]);
      OrdersInsert(products[0], SortBySales(products[1..]));
    }
  }

  /** Sorting keeps the order count, and the best sellers account for at most all of it. */
  lemma {:induction false} TopSellersWithinOrders(products: seq<Product>)
    ensures Orders(SortBySales(products)) == Orders(products)
    ensures Orders(TopSellers(products)) <= Orders(products)
  {
    SortKeepsOrders(products);
    var sorted := SortBySales(products);
    var r := TopSellers(products);
    assert r == sorted[..|r|];
    PrefixWithinOrders(sorted, |r|);
  }

  // ---------------------------------------------------------------------------
  // Deleting and editing
  // ---------------------------------------------------------------------------

  /** `products.filter(p => p._id !== id)`; a `null` id removes nothing. */
  function RemoveId(products: seq<Product>, id: Option<string>): (r: seq<Product>)
    ensures |r| <= |products|
    ensures forall p :: p in r <==> p in products && Some(p.id) != id
  {
    if products == [] then []
    else
      var rest := RemoveId(products[1..], id);
      if Some(products[0].id) == id then rest else [products[0]] + rest
  }

  /** Filtering keeps the survivors in order: it distributes over concatenation. */
  lemma {:induction false} RemoveIdAppend(a: seq<Product>, b: seq<Product>, id: Option<string>)
    ensures RemoveId(a + b, id) == RemoveId(a, id) + RemoveId(b, id)
  {
    if a == [] {
      assert a + b == b;
    } else {
      assert (a + b)[1..] == a[1..] + b;
      RemoveIdAppend(a[1..], b, id);
    }
  }

  /** A list without the id is left as it is. */
  lemma {:induction false} RemoveIdAbsent(products: seq<Product>, id: Option<string>)
    requires forall p :: p in products ==> Some(p.id) != id
    ensures RemoveId(products, id) == products
  {
    if products != [] {
      RemoveIdAbsent(products[1..], id);
    }
  }

  datatype View = Overview | AllProducts | AddProduct

  datatype Page = Page(
    view: View, products: seq<Product>, form: Form, editing: bool,
    dialogOpen: bool, pending: Option<string>, error: Option<string>)

  const DeleteFailed := "Failed to delete product. Please try again."

  /** `handleDelete`: remember the id and ask for confirmation. */
  function AskDelete(page: Page, id: string): (r: Page)
    ensures r.dialogOpen && r.pending == Some(id) && r.products == page.products
  {
    page.(pending := Some(id), dialogOpen := true)
  }

  /**
   * `confirmDelete`: when the server deletes, the pending id's products leave
   * the list; when it fails, the error is shown and the list stays; either way
   * the dialog closes and the pending id is cleared.
   */
  function ConfirmDelete(page: Page, deleted: bool): (r: Page)
    ensures !r.dialogOpen && r.pending.None?
    ensures deleted ==> r.products == RemoveId(page.products, page.pending) && r.error == page.error
    ensures !deleted ==> r.products == page.products && r.error == Some(DeleteFailed)
    ensures r.view == page.view && r.form == page.form && r.editing == page.editing
  {
    var page' := if deleted then page.(products := RemoveId(page.products, page.pending))
      else page.(error := Some(DeleteFailed));
    page'.(dialogOpen := false, pending := None)
  }

  /** The first product with the id, as `Array.prototype.find` returns it. */
  function Find(products: seq<Product>, id: string): (r: Option<nat>)
    ensures r.Some? ==> r.value < |products| && products[r.value].id == id
    ensures r.Some? ==> forall i :: 0 <= i < r.value ==> products[i].id != id
    ensures r.None? ==> forall i :: 0 <= i < |products| ==> products[i].id != id
  {
    if products == [] then None
    else if products[0].id == id then Some(0)
    else
      var k := Find(products[1..], id);
      if k.Some? then Some(k.value + 1) else None
  }

  /**
   * `handleEdit`: an unknown id changes nothing; otherwise the first product
   * with that id fills the form (images cleared), editing starts and the add
   * view opens.
   */
  function Edit(page: Page, id: string): (r: Page)
    ensures (forall p :: p in page.products ==> p.id != id) ==> r == page
    ensures (exists p :: p in page.products && p.id == id) ==>
      r.editing && r.view == AddProduct && r.form.id == Some(id) && r.form.images == 0
      && r.products == page.products
  {
    match Find(page.products, id)
    case None => page
    case Some(k) =>
      var p := page.products[k];
      page.(form := Form(Some(p.id), p.name, Loaded(p.price), p.description, p.category, 0),
            editing := true, view := AddProduct)
  }

  /** Editing loads the first matching product's fields; a product saved without a description cannot be resubmitted as is. */
  lemma EditLoadsFirstMatch(page: Page, k: nat)
    requires k < |page.products| && forall i :: 0 <= i < k ==> page.products[i].id != page.products[k].id
    ensures var f := Edit(page, page.products[k].id).form; var p := page.products[k];
      f.name == p.name && f.price == Loaded(p.price) && f.description == p.description && f.category == p.category
    ensures page.products[k].description.None? ==> !ValidateForm(Edit(page, page.products[k].id).form, true).0
  {
    var f := Edit(page, page.products[k].id).form;
    if page.products[k].description.None? {
      assert Fails(f, true, Description);
    }
  }
}

=== FILE: slots.dfy ===
/** The slot controller: a doctor publishes bookable windows, anyone lists a doctor's free ones. */
module Slots {
  import opened Wrappers
  import opened Store
  import opened Http
  import opened Models
  import opened Documents
  import opened Guard
  import opened Doctors

  /** The `slots` member of the request body: absent or falsy, not an array, or an array of items. */
  datatype SlotsField = Missing | NotArray | Items(items: seq<SlotFields>)

  /** Each submitted item with `doctorId` replaced by the profile's id, validated; `None` when any item fails. */
  function Stamped(items: seq<SlotFields>, profile: Id, isDate: string -> bool): (r: Option<seq<Slot>>)
    ensures r.Some? <==> forall i :: 0 <= i < |items| ==> SlotFieldsValid(items[i].(doctorId := Some(profile)), isDate)
    ensures r.Some? ==> |r.value| == |items|
    ensures r.Some? ==> forall i :: 0 <= i < |items| ==> Some(r.value[i]) == NewSlot(items[i].(doctorId := Some(profile)), isDate)
  {
    if items == [] then Some([])
    else
      match (NewSlot(items[0].(doctorId := Some(profile)), isDate), Stamped(items[1..], profile, isDate))
      case (Some(s), Some(rest)) => Some([s] + rest)
      case _ => None
  }

  /**
   * `addSlots`. `insertMany` validates every document before it writes any,
   * so the insert is all or nothing; the reply lists the new slots' ids.
   * `isDate` is the runtime's date parser, which the `date` cast uses.
   */
  function AddSlots(db: Db, c: Caller, slots: SlotsField, isDate: string -> bool): (res: (Reply<seq<Id>>, Db))
    ensures !slots.Items? ==> res == (Fail(400, "Slots required"), db)
    ensures slots.Items? && ProfileOf(db, c).None? ==> res == (Fail(404, "Doctor info not found"), db)
    ensures res.0.status != 201 ==> res.1 == db
    ensures res.0.status == 201 ==> res.1 == db.(slots := res.1.slots, next := res.1.next)
    ensures res.0.status == 500 <==> (slots.Items? && ProfileOf(db, c).Some? &&
      exists i :: 0 <= i < |slots.items| && !SlotFieldsValid(slots.items[i].(doctorId := ProfileOf(db, c)), isDate))
    ensures res.0.status == 500 ==> res.0 == Crash(SchemaViolation)
  {
    match slots
    case Missing => (Fail(400, "Slots required"), db)
    case NotArray => (Fail(400, "Slots required"), db)
    case Items(items) =>
      match ProfileOf(db, c)
      case None => (Fail(404, "Doctor info not found"), db)
      case Some(profile) =>
        match Stamped(items, profile, isDate)
        case None => (Crash(SchemaViolation), db)
        case Some(created) =>
          var ids := seq(|created|, i => db.next + i);
          (Done(201, "Slots added", ids),
           db.(slots := InsertAll(db.slots, db.next, created), next := db.next + |created|))
  }

  /** Free slots of one doctor profile. */
  function FreeOf(doctorId: Id): Slot -> bool {
    (s: Slot) => s.doctorId == doctorId && !s.isBooked
  }

  /**
   * `getSlotsByDoctor`: the route parameter is cast to an id (a text that is
   * not one makes the query throw), then every free slot of that profile.
   */
  function GetSlotsByDoctor(db: Db, doctorId: IdText): (r: Reply<seq<Id>>)
    ensures doctorId.Malformed? ==> r == Crash(CastFailure)
    ensures r.status == 200 ==> r.payload.Some?
    ensures doctorId.Valid? ==> r.status == 200 && forall k :: k in r.payload.value ==>
      k in db.slots && db.slots[k].doctorId == doctorId.id && !db.slots[k].isBooked
    ensures doctorId.Valid? && Below(db.slots, db.next) ==> forall k ::
      (k in db.slots && db.slots[k].doctorId == doctorId.id && !db.slots[k].isBooked) ==> k in r.payload.value
  {
    match doctorId
    case Missing => Done(200, "", [])
    case Malformed => Crash(CastFailure)
    case Valid(id) => Done(200, "", Find(db.slots, FreeOf(id), db.next))
  }

  /** `s` is the slot stored for item `f` of profile `profile`: its owner, date, times and `isBooked` (false when not given). */
  predicate StoredAs(s: Slot, f: SlotFields, profile: Id) {
    && s.doctorId == profile
    && Some(s.date) == f.date && Some(s.startTime) == f.startTime && Some(s.endTime) == f.endTime
    && s.isBooked == f.isBooked.GetOr(false)
  }

  /**
   * A successful `addSlots` creates one slot per item, under the ids it
   * reports, each owned by the caller's profile whatever `doctorId` the item
   * carried.
   */
  lemma AddSlotsCreates(db: Db, c: Caller, items: seq<SlotFields>, isDate: string -> bool)
    requires AddSlots(db, c, Items(items), isDate).0.status == 201
    ensures ProfileOf(db, c).Some?
    ensures AddSlots(db, c, Items(items), isDate).0.payload == Some(seq(|items|, i => db.next + i))
    ensures var db1 := AddSlots(db, c, Items(items), isDate).1;
      && db1.next == db.next + |items|
      && forall i :: 0 <= i < |items| ==>
           db.next + i in db1.slots && StoredAs(db1.slots[db.next + i], items[i], ProfileOf(db, c).value)
  {
    var p := ProfileOf(db, c).value;
    var created := Stamped(items, p, isDate).value;
    var db1 := db.(slots := InsertAll(db.slots, db.next, created), next := db.next + |created|);
    assert AddSlots(db, c, Items(items), isDate) == (Done(201, "Slots added", seq(|created|, i => db.next + i)), db1);
    forall i | 0 <= i < |items|
      ensures db.next + i in db1.slots && StoredAs(db1.slots[db.next + i], items[i], p)
    {
      assert db1.slots[db.next + i] == created[i];
      assert Some(created[i]) == NewSlot(items[i].(doctorId := Some(p)), isDate);
    }
  }

  /** An empty array is accepted and creates nothing. */
  lemma AddNoSlots(db: Db, c: Caller, isDate: string -> bool)
    requires ProfileOf(db, c).Some?
    ensures AddSlots(db, c, Items([]), isDate) == (Done(201, "Slots added", []), db)
  {
    var p := ProfileOf(db, c).value;
    assert Stamped([], p, isDate) == Some([]);
    assert seq(0, i => db.next + i) == [];
    assert InsertAll(db.slots, db.next, []) == db.slots;
  }

  /** One item whose date the parser rejects fails the whole batch with 500, and nothing is written. */
  lemma BadDateRefused(db: Db, c: Caller, items: seq<SlotFields>, isDate: string -> bool, k: nat)
    requires ProfileOf(db, c).Some? && k < |items|
    requires items[k].date.Some? && !isDate(items[k].date.value)
    ensures AddSlots(db, c, Items(items), isDate) == (Crash(SchemaViolation), db)
  {
    assert !SlotFieldsValid(items[k].(doctorId := ProfileOf(db, c)), isDate);
  }

  /** `addSlots` never touches an existing slot. */
  lemma AddSlotsKeepsExisting(db: Db, c: Caller, slots: SlotsField, isDate: string -> bool)
    requires Below(db.slots, db.next)
    ensures var db1 := AddSlots(db, c, slots, isDate).1;
            forall k :: k in db.slots ==> k in db1.slots && db1.slots[k] == db.slots[k]
  {
  }
}

=== FILE: store.dfy ===
/**
 * The document store, abstracted as maps from document id to record.
 * Ids are handed out in increasing order, so the store's natural order is
 * id order and a `findOne` query answers with the least matching id.
 */
module Store {
  import opened Wrappers

  /** A document id (a MongoDB ObjectId). */
  type Id = nat

  /** Every id in use is below `bound`, the next id to hand out. */
  ghost predicate Below<T>(m: map<Id, T>, bound: nat) {
    forall k :: k in m ==> k < bound
  }

  /** The least id in `[from, bound)` whose record satisfies `p`: a `findOne` over that range. */
  function FirstFrom<T>(m: map<Id, T>, p: T -> bool, from: nat, bound: nat): (r: Option<Id>)
    ensures r.Some? ==> from <= r.value < bound && r.value in m && p(m[r.value])
    ensures r.Some? ==> forall k :: from <= k < r.value && k in m ==> !p(m[k])
    ensures r.None? ==> forall k :: from <= k < bound && k in m ==> !p(m[k])
    decreases bound - from
  {
    if from >= bound then None
    else if from in m && p(m[from]) then Some(from)
    else FirstFrom(m, p, from + 1, bound)
  }

  /** `findOne`: the first record in natural order that satisfies `p`. */
  function FindOne<T>(m: map<Id, T>, p: T -> bool, bound: nat): (r: Option<Id>)
    ensures r.Some? ==> r.value in m && p(m[r.value])
    ensures r.Some? ==> forall k :: k < r.value && k in m ==> !p(m[k])
    ensures r.None? && Below(m, bound) ==> forall k :: k in m ==> !p(m[k])
  {
    FirstFrom(m, p, 0, bound)
  }

  /**
   * After inserting `x` under the next free id, a query that matched none of
   * the earlier records finds `x`, and only `x`.
   */
  lemma {:induction false} FindOneAfterInsert<T>(m: map<Id, T>, p: T -> bool, bound: nat, x: T)
    requires Below(m, bound)
    requires forall k :: k in m ==> !p(m[k])
    requires p(x)
    ensures FindOne(m[bound := x], p, bound + 1) == Some(bound)
  {
    var m1 := m[bound := x];
    assert Below(m1, bound + 1);
    assert bound in m1 && p(m1[bound]);
    forall k | k in m1 && k != bound ensures !p(m1[k]) {
      assert m1[k] == m[k];
    }
  }

  /** A record inserted under the next free id leaves a query it satisfies with something to find. */
  lemma FindOneFindsInserted<T>(m: map<Id, T>, p: T -> bool, bound: nat, x: T)
    requires p(x)
    ensures FindOne(m[bound := x], p, bound + 1).Some?
  {
    assert bound in m[bound := x];
  }

  /** Replacing a record by one the query judges the same way does not change what `findOne` finds. */
  lemma FindOneAfterUpdate<T>(m: map<Id, T>, p: T -> bool, bound: nat, id: Id, x: T)
    requires id in m && p(x) == p(m[id])
    ensures FindOne(m[id := x], p, bound) == FindOne(m, p, bound)
  {
    var m1 := m[id := x];
    forall k | k in m ensures k in m1 && p(m1[k]) == p(m[k]) {
    }
    var r, r1 := FirstFrom(m, p, 0, bound), FirstFrom(m1, p, 0, bound);
    if r.Some? && r1.Some? {
      assert !(r.value < r1.value) && !(r1.value < r.value);
    }
  }

  /** The ids in `[from, bound)` whose records satisfy `p`, in increasing order. */
  function SelectFrom<T>(m: map<Id, T>, p: T -> bool, from: nat, bound: nat): (r: seq<Id>)
    ensures forall k :: k in r <==> from <= k < bound && k in m && p(m[k])
    ensures forall i :: 0 <= i < |r| ==> from <= r[i]
    ensures forall i, j :: 0 <= i < j < |r| ==> r[i] < r[j]
    decreases bound - from
  {
    if from >= bound then []
    else
      var rest := SelectFrom(m, p, from + 1, bound);
      if from in m && p(m[from]) then [from] + rest else rest
  }

  /** `find`: every record that satisfies `p`, in natural order. */
  function Find<T>(m: map<Id, T>, p: T -> bool, bound: nat): (r: seq<Id>)
    ensures forall k :: k in r ==> k in m && p(m[k])
    ensures Below(m, bound) ==> forall k :: k in m && p(m[k]) ==> k in r
    ensures forall i, j :: 0 <= i < j < |r| ==> r[i] < r[j]
  {
    SelectFrom(m, p, 0, bound)
  }

  /** The records whose ids are listed, in the same order. */
  function Records<T>(m: map<Id, T>, ids: seq<Id>): (r: seq<T>)
    requires forall i :: 0 <= i < |ids| ==> ids[i] in m
    ensures |r| == |ids|
    ensures forall i :: 0 <= i < |ids| ==> r[i] == m[ids[i]]
  {
    if ids == [] then [] else [m[ids[0]]] + Records(m, ids[1..])
  }

  /** `insertMany`: the records stored one after another under fresh ids from `next` on. */
  function InsertAll<T>(m: map<Id, T>, next: nat, xs: seq<T>): (r: map<Id, T>)
    ensures forall k :: k in r <==> k in m || next <= k < next + |xs|
    ensures forall i :: 0 <= i < |xs| ==> r[next + i] == xs[i]
    ensures forall k :: k in m && k < next ==> r[k] == m[k]
    decreases |xs|
  {
    if xs == [] then m
    else
      InsertAll(m[next := xs[0]], next + 1, xs[1..])
  }
}

=== FILE: text.dfy ===
/**
 * String helpers with the meaning JavaScript gives them: whitespace as
 * `String.prototype.trim` and the regular-expression class `\s` see it,
 * `toLowerCase` on the common capitals, `split` on one separator character,
 * `parseInt(s, 10)` and decimal number reading.
 */
module Text {
  import opened Wrappers

  /** The JavaScript WhiteSpace and LineTerminator characters. */
  predicate IsSpace(c: char) {
    c == ' ' || c == '\t' || c == '\n' || c == '\r' || c == '\U{B}' || c == '\U{C}'
    || c == '\U{A0}' || c == '\U{1680}' || ('\U{2000}' <= c <= '\U{200A}')
    || c == '\U{2028}' || c == '\U{2029}' || c == '\U{202F}' || c == '\U{205F}'
    || c == '\U{3000}' || c == '\U{FEFF}'
  }

  predicate IsDigit(c: char) { '0' <= c <= '9' }

  /** The regular-expression class `\w`. */
  predicate IsWordChar(c: char) {
    ('a' <= c <= 'z') || ('A' <= c <= 'Z') || IsDigit(c) || c == '_'
  }

  predicate AllSpace(s: string) {
    forall i :: 0 <= i < |s| ==> IsSpace(s[i])
  }

  function TrimStart(s: string): (r: string)
    ensures |r| <= |s| && r == s[|s| - |r|..]
    ensures r == [] || !IsSpace(r[0])
    ensures AllSpace(s[..|s| - |r|])
  {
    if |s| == 0 || !IsSpace(s[0]) then s
    else
      var r := TrimStart(s[1..]);
      TrimStartStep(s, r);
      r
  }

  /** Trimming past a leading space: what was trimmed from the tail, plus that space, is trimmed from the whole. */
  lemma TrimStartStep(s: string, r: string)
    requires 0 < |s| && IsSpace(s[0])
    requires |r| <= |s| - 1 && r == s[1..][|s| - 1 - |r|..] && AllSpace(s[1..][..|s| - 1 - |r|])
    ensures r == s[|s| - |r|..] && AllSpace(s[..|s| - |r|])
  {
    SpacePrefixCons(s, |s| - 1 - |r|);
  }

  /** A space followed by `k` spaces is a run of `k + 1` spaces. */
  lemma SpacePrefixCons(s: string, k: nat)
    requires 0 < |s| && k < |s| && IsSpace(s[0]) && AllSpace(s[1..][..k])
    ensures AllSpace(s[..k + 1])
  {
    var t := s[..k + 1];
    forall i | 0 <= i < |t|
      ensures IsSpace(t[i])
    {
      if i > 0 {
        assert t[i] == s[1..][..k][i - 1];
      }
    }
  }

  function TrimEnd(s: string): (r: string)
    ensures |r| <= |s| && r == s[..|r|]
    ensures r == [] || !IsSpace(r[|r| - 1])
    ensures AllSpace(s[|r|..])
  {
    if |s| == 0 || !IsSpace(s[|s| - 1]) then s else TrimEnd(s[..|s| - 1])
  }

  /** `s.trim()`. */
  function Trim(s: string): string {
    TrimEnd(TrimStart(s))
  }

  /** A text that neither starts nor ends with whitespace is its own trim. */
  lemma TrimUnpadded(s: string)
    requires s == [] || (!IsSpace(s[0]) && !IsSpace(s[|s| - 1]))
    ensures Trim(s) == s
  {
  }

  /** Every character of the trimmed text comes from the input. */
  lemma TrimWithin(s: string)
    ensures forall c :: c in Trim(s) ==> c in s
  {
    var a := TrimStart(s);
    SliceWithin(TrimEnd(a), a, 0, |TrimEnd(a)|);
    SliceWithin(a, s, |s| - |a|, |s|);
  }

  lemma SliceWithin(t: string, s: string, lo: nat, hi: nat)
    requires lo <= hi <= |s| && t == s[lo..hi]
    ensures forall c :: c in t ==> c in s
  {
    forall c | c in t
      ensures c in s
    {
      var i :| 0 <= i < |t| && t[i] == c;
      assert s[lo + i] == c;
    }
  }

  /** The trimmed text is empty exactly when the input is all whitespace. */
  lemma TrimEmptyIffAllSpace(s: string)
    ensures Trim(s) == [] <==> AllSpace(s)
  {
    if AllSpace(s) {
      TrimStartAllSpace(s);
    }
    if Trim(s) == [] {
      TrimmedAwayIsSpace(s);
    }
  }

  lemma TrimmedAwayIsSpace(s: string)
    requires Trim(s) == []
    ensures AllSpace(s)
  {
    var t := TrimStart(s);
    assert t[0..] == t;
    AllSpaceConcat(s[..|s| - |t|], t);
    assert s == s[..|s| - |t|] + t;
  }

  lemma AllSpaceConcat(a: string, b: string)
    requires AllSpace(a) && AllSpace(b)
    ensures AllSpace(a + b)
  {
    forall i | 0 <= i < |a + b| ensures IsSpace((a + b)[i]) {
      if i >= |a| {
        assert (a + b)[i] == b[i - |a|];
      }
    }
  }

  lemma {:induction false} TrimStartAllSpace(s: string)
    requires AllSpace(s)
    ensures TrimStart(s) == []
  {
    if s != [] {
      assert AllSpace(s[1..]) by {
        forall i | 0 <= i < |s| - 1 ensures IsSpace(s[1..][i]) {
          assert s[1..][i] == s[i + 1];
        }
      }
      TrimStartAllSpace(s[1..]);
    }
  }

  /** Trimming strips exactly the surrounding whitespace: it is idempotent. */
  lemma TrimIdempotent(s: string)
    ensures Trim(Trim(s)) == Trim(s)
  {
    var t := Trim(s);
    if t != [] {
      assert !IsSpace(TrimStart(s)[0]);
      assert t[0] == TrimStart(s)[0];
    }
  }

  /**
   * The capitals `LowerChar` folds: ASCII, Latin-1 (without the sign ×),
   * Greek without Σ (whose lower form depends on the position in the word)
   * and the basic Cyrillic block.
   */
  predicate IsUpper(c: char) {
    || ('A' <= c <= 'Z')
    || (0xC0 <= c as int <= 0xDE && c as int != 0xD7)
    || (0x391 <= c as int <= 0x3AB && c as int != 0x3A2 && c as int != 0x3A3)
    || (0x400 <= c as int <= 0x42F)
  }

  /** The one-character lower-case mapping of Unicode on the capitals `IsUpper` names. */
  function LowerChar(c: char): (r: char)
    ensures !IsUpper(r)
    ensures IsUpper(c) || r == c
    ensures 'A' <= c <= 'Z' ==> r as int == c as int + 32
  {
    if 0x400 <= c as int <= 0x40F then (c as int + 0x50) as char
    else if IsUpper(c) then (c as int + 0x20) as char
    else c
  }

  /** `s.toLowerCase()` on the capitals `IsUpper` names. */
  function Lower(s: string): (r: string)
    ensures |r| == |s|
    ensures forall i :: 0 <= i < |s| ==> r[i] == LowerChar(s[i])
  {
    if s == [] then [] else [LowerChar(s[0])] + Lower(s[1..])
  }

  lemma LowerIdempotent(s: string)
    ensures Lower(Lower(s)) == Lower(s)
  {
  }

  predicate StartsWith(s: string, prefix: string) {
    |prefix| <= |s| && s[..|prefix|] == prefix
  }

  /** True when `needle` occurs in `s` starting at position `i`. */
  predicate OccursAt(s: string, needle: string, i: int) {
    0 <= i <= |s| - |needle| && s[i..i + |needle|] == needle
  }

  /** True when `needle` occurs in `s` at some position (an unanchored search). */
  predicate Contains(s: string, needle: string) {
    exists i | 0 <= i <= |s| - |needle| :: OccursAt(s, needle, i)
  }

  /** The first position at or after `from` where `needle` occurs. */
  function IndexFrom(s: string, needle: string, from: nat): (r: Option<nat>)
    ensures r.Some? ==> from <= r.value && OccursAt(s, needle, r.value)
    ensures r.Some? ==> forall i :: from <= i < r.value ==> !OccursAt(s, needle, i)
    ensures r.None? ==> forall i :: from <= i ==> !OccursAt(s, needle, i)
    decreases |s| - from
  {
    if from + |needle| > |s| then None
    else if s[from..from + |needle|] == needle then Some(from)
    else IndexFrom(s, needle, from + 1)
  }

  /** `s.replace(pattern, replacement)` with a string pattern: only the first occurrence is replaced. */
  function ReplaceFirst(s: string, pattern: string, replacement: string): string {
    match IndexFrom(s, pattern, 0)
    case None => s
    case Some(i) => s[..i] + replacement + s[i + |pattern|..]
  }

  /** Replacing a prefix by nothing strips the prefix. */
  lemma ReplacePrefix(s: string, prefix: string)
    requires StartsWith(s, prefix)
    ensures ReplaceFirst(s, prefix, []) == s[|prefix|..]
  {
    assert OccursAt(s, prefix, 0);
  }

  /** The text before the first occurrence of `sep` (all of `s` if none): `s.split(sep)[0]`. */
  function Before(s: string, sep: char): (r: string)
    ensures |r| <= |s| && r == s[..|r|]
    ensures sep !in r
    ensures |r| < |s| ==> s[|r|] == sep
  {
    if s == [] || s[0] == sep then [] else [s[0]] + Before(s[1..], sep)
  }

  /** `Before` stops at the first separator. */
  lemma {:induction false} BeforeSeparator(a: string, sep: char, rest: string)
    requires sep !in a
    ensures Before(a + [sep] + rest, sep) == a
  {
    if a != [] {
      assert (a + [sep] + rest)[1..] == a[1..] + [sep] + rest;
      BeforeSeparator(a[1..], sep, rest);
    }
  }

  /** `Before` of a text without the separator is the whole text. */
  lemma {:induction false} BeforeWithout(a: string, sep: char)
    requires sep !in a
    ensures Before(a, sep) == a
  {
    if a != [] {
      BeforeWithout(a[1..], sep);
    }
  }

  /** `s.split(sep)` for a one-character separator. */
  function Split(s: string, sep: char): (r: seq<string>)
    ensures |r| >= 1
    ensures forall i :: 0 <= i < |r| ==> sep !in r[i]
    decreases |s|
  {
    var head := Before(s, sep);
    if |head| == |s| then [s] else [head] + Split(s[|head| + 1..], sep)
  }

  /** A text with exactly one separator splits into the parts on either side of it. */
  lemma SplitTwo(a: string, sep: char, b: string)
    requires sep !in a && sep !in b
    ensures Split(a + [sep] + b, sep) == [a, b]
  {
    var s := a + [sep] + b;
    BeforeSeparator(a, sep, b);
    assert s[|a| + 1..] == b;
    BeforeWithout(b, sep);
  }

  /** `parts.join(sep)`. */
  function Join(parts: seq<string>, sep: char): string {
    if parts == [] then []
    else if |parts| == 1 then parts[0]
    else parts[0] + [sep] + Join(parts[1..], sep)
  }

  /** Splitting and joining again gives back the original text. */
  lemma {:induction false} SplitJoin(s: string, sep: char)
    ensures Join(Split(s, sep), sep) == s
    decreases |s|
  {
    var head := Before(s, sep);
    if |head| < |s| {
      var rest := s[|head| + 1..];
      SplitJoin(rest, sep);
      SplitStep(s, sep);
      JoinCons(head, Split(rest, sep), sep);
    }
  }

  /** A text with a separator is its first part, the separator, and the rest, and splits that way. */
  lemma SplitStep(s: string, sep: char)
    requires |Before(s, sep)| < |s|
    ensures var head := Before(s, sep);
      var rest := s[|head| + 1..];
      s == head + [sep] + rest && Split(s, sep) == [head] + Split(rest, sep)
  {
  }

  lemma JoinCons(part: string, parts: seq<string>, sep: char)
    requires parts != []
    ensures Join([part] + parts, sep) == part + [sep] + Join(parts, sep)
  {
    assert ([part] + parts)[1..] == parts;
  }

  /** `s.replace(/\s+/g, "")`. */
  function RemoveSpace(s: string): (r: string)
    ensures forall i :: 0 <= i < |r| ==> !IsSpace(r[i])
    ensures |r| <= |s|
  {
    if s == [] then [] else if IsSpace(s[0]) then RemoveSpace(s[1..]) else [s[0]] + RemoveSpace(s[1..])
  }

  // ---------------------------------------------------------------------------
  // Numbers written in decimal
  // ---------------------------------------------------------------------------

  function DigitValue(c: char): nat requires IsDigit(c) { c as int - '0' as int }

  predicate AllDigits(s: string) {
    forall i :: 0 <= i < |s| ==> IsDigit(s[i])
  }

  /** The value of a string of decimal digits (most significant first). */
  function DigitsValue(s: string): nat
    requires AllDigits(s)
  {
    if s == [] then 0 else DigitsValue(s[..|s| - 1]) * 10 + DigitValue(s[|s| - 1])
  }

  /** The longest prefix made of decimal digits. */
  function DigitRun(s: string): (r: string)
    ensures |r| <= |s| && r == s[..|r|] && AllDigits(r)
    ensures |r| == |s| || !IsDigit(s[|r|])
  {
    if s == [] || !IsDigit(s[0]) then [] else [s[0]] + DigitRun(s[1..])
  }

  /** Decimal notation of a natural number, as `String(n)` writes it. */
  function Decimal(n: nat): (r: string)
    ensures |r| >= 1 && AllDigits(r)
    ensures |r| > 1 ==> r[0] != '0'
  {
    if n < 10 then [('0' as int + n) as char] else Decimal(n / 10) + [('0' as int + n % 10) as char]
  }

  /** Reading back the decimal notation gives the number written. */
  lemma {:induction false} DecimalValue(n: nat)
    ensures DigitsValue(Decimal(n)) == n
  {
    if n >= 10 {
      DecimalValue(n / 10);
      var d := Decimal(n);
      assert d[..|d| - 1] == Decimal(n / 10);
    }
  }

  /** The text after an optional leading sign. */
  function Unsigned(t: string): (r: string)
    ensures r == t || (|t| > 0 && r == t[1..])
  {
    if |t| > 0 && (t[0] == '-' || t[0] == '+') then t[1..] else t
  }

  /**
   * `parseInt(s, 10)`: skip leading whitespace, take an optional sign and the
   * longest run of digits after it; NaN (here `None`) when there is no digit.
   */
  function ParseInt(s: string): Option<int> {
    var t := TrimStart(s);
    var d := DigitRun(Unsigned(t));
    if d == [] then None
    else if |t| > 0 && t[0] == '-' then Some(-(DigitsValue(d) as int))
    else Some(DigitsValue(d))
  }

  /** Text without any digit reads as NaN (`parseInt("")`, `parseInt("undefined")`). */
  lemma ParseIntWithoutDigits(s: string)
    requires forall i :: 0 <= i < |s| ==> !IsDigit(s[i])
    ensures ParseInt(s) == None
  {
    var t := TrimStart(s);
    var u := Unsigned(t);
    assert u == s[|s| - |u|..];
    if u != [] {
      assert u[0] == s[|s| - |u|];
    }
  }

  /** Digits followed by anything else read as the digits alone: `parseInt("25abc") == 25`. */
  lemma ParseIntPrefix(n: nat, rest: string)
    requires rest == [] || !IsDigit(rest[0])
    ensures ParseInt(Decimal(n) + rest) == Some(n)
  {
    ParseIntOfDigits(Decimal(n), rest);
    DecimalValue(n);
  }

  /** A non-empty digit string followed by a non-digit reads as the digits' value. */
  lemma ParseIntOfDigits(d: string, rest: string)
    requires d != [] && AllDigits(d)
    requires rest == [] || !IsDigit(rest[0])
    ensures ParseInt(d + rest) == Some(DigitsValue(d))
  {
    LeadingDigit(d + rest);
    DigitRunOf(d, rest);
  }

  /** Text that starts with a digit has no leading whitespace and no sign. */
  lemma LeadingDigit(s: string)
    requires s != [] && IsDigit(s[0])
    ensures TrimStart(s) == s && Unsigned(s) == s
  {
    assert !IsSpace(s[0]);
  }

  lemma {:induction false} DigitRunOf(d: string, rest: string)
    requires AllDigits(d)
    requires rest == [] || !IsDigit(rest[0])
    ensures DigitRun(d + rest) == d
  {
    if d != [] {
      assert (d + rest)[1..] == d[1..] + rest;
      DigitRunOf(d[1..], rest);
    } else {
      assert d + rest == rest;
    }
  }
  /** Digits with at most one decimal point and at least one digit: plain decimal notation. */
  predicate DecimalText(u: string) {
    (forall i :: 0 <= i < |u| ==> IsDigit(u[i]) || u[i] == '.')
    && (forall i, j :: 0 <= i < j < |u| ==> !(u[i] == '.' && u[j] == '.'))
    && (exists i :: 0 <= i < |u| && IsDigit(u[i]))
  }

  function Pow10(k: nat): (r: nat)
    ensures r >= 1
  {
    if k == 0 then 1 else 10 * Pow10(k - 1)
  }

  /** The digits before the decimal point. */
  function WholePart(u: string): string {
    Before(u, '.')
  }

  /** The digits after the decimal point; none without a point. */
  function FractionPart(u: string): string {
    var w := Before(u, '.');
    if |w| < |u| then u[|w| + 1..] else []
  }

  /** The digits before the first point are digits of the whole text. */
  lemma WholePartDigits(u: string)
    requires DecimalText(u)
    ensures AllDigits(WholePart(u))
  {
    var w := WholePart(u);
    forall i | 0 <= i < |w| ensures IsDigit(w[i]) {
      assert w[i] == u[i] && w[i] in w;
    }
  }

  /** Plain decimal notation splits at its point into two digit strings. */
  lemma DecimalParts(u: string)
    requires DecimalText(u)
    ensures AllDigits(WholePart(u)) && AllDigits(FractionPart(u))
    ensures |WholePart(u)| == |u| ==> u == WholePart(u) && FractionPart(u) == []
    ensures |WholePart(u)| < |u| ==> u == WholePart(u) + ['.'] + FractionPart(u)
  {
    WholePartDigits(u);
    var w := WholePart(u);
    if |w| < |u| {
      var f := FractionPart(u);
      assert u[|w|] == '.';
      assert f == u[|w| + 1..];
      forall j | 0 <= j < |f| ensures IsDigit(f[j]) {
        assert f[j] == u[|w| + 1 + j];
      }
      assert u == w + ['.'] + f;
    }
  }

  /** A whole part plus a fraction over a positive power is zero only when both are. */
  lemma ScaledSumZero(x: nat, y: nat, p: nat)
    requires p >= 1
    ensures x as real + y as real / p as real == 0.0 <==> x == 0 && y == 0
  {
    assert y as real / p as real >= 0.0;
    if y > 0 {
      assert y as real / p as real > 0.0;
    }
  }

  /** The value of whole digits `w` and fraction digits `f`: `w.f`. */
  function PointValue(w: string, f: string): (v: real)
    requires AllDigits(w) && AllDigits(f)
    ensures v >= DigitsValue(w) as real
  {
    DigitsValue(w) as real + DigitsValue(f) as real / Pow10(|f|) as real
  }

  /** The value of plain decimal notation. */
  function DecimalTextValue(u: string): (v: real)
    requires DecimalText(u)
    ensures v >= 0.0
  {
    DecimalParts(u);
    PointValue(WholePart(u), FractionPart(u))
  }

  /** Every digit is zero. */
  predicate ZeroDigits(s: string) {
    forall i :: 0 <= i < |s| ==> s[i] == '0' || s[i] == '.'
  }

  lemma ZeroDigitsConcat(a: string, b: string)
    ensures ZeroDigits(a + b) <==> ZeroDigits(a) && ZeroDigits(b)
  {
    if ZeroDigits(a) && ZeroDigits(b) {
      forall i | 0 <= i < |a + b| ensures (a + b)[i] == '0' || (a + b)[i] == '.' {
        if i < |a| { assert (a + b)[i] == a[i]; } else { assert (a + b)[i] == b[i - |a|]; }
      }
    }
    if ZeroDigits(a + b) {
      forall i | 0 <= i < |a| ensures a[i] == '0' || a[i] == '.' { assert (a + b)[i] == a[i]; }
      forall i | 0 <= i < |b| ensures b[i] == '0' || b[i] == '.' { assert (a + b)[|a| + i] == b[i]; }
    }
  }

  /** A digit string reads as 0 exactly when every digit is 0. */
  lemma {:induction false} DigitsValueZero(s: string)
    requires AllDigits(s)
    ensures DigitsValue(s) == 0 <==> ZeroDigits(s)
    decreases |s|
  {
    if s != [] {
      var h := s[..|s| - 1];
      DigitsValueZero(h);
      assert s == h + [s[|s| - 1]];
      ZeroDigitsConcat(h, [s[|s| - 1]]);
    }
  }

  /** Plain decimal notation reads as 0 exactly when every digit in it is 0. */
  lemma DecimalTextZero(u: string)
    requires DecimalText(u)
    ensures DecimalTextValue(u) == 0.0 <==> ZeroDigits(u)
  {
    DecimalParts(u);
    var w, f := WholePart(u), FractionPart(u);
    ScaledSumZero(DigitsValue(w), DigitsValue(f), Pow10(|f|));
    DigitsValueZero(w);
    DigitsValueZero(f);
    if |w| < |u| {
      ZeroDigitsConcat(w + ['.'], f);
      ZeroDigitsConcat(w, ['.']);
    }
  }

  /**
   * `Number(text)` for plain decimal notation: surrounding whitespace is
   * ignored, the blank text is 0, one sign may lead, and any other text is
   * NaN (here `None`).
   */
  function NumberOf(text: string): (r: Option<real>)
    ensures AllSpace(text) ==> r == Some(0.0)
  {
    TrimEmptyIffAllSpace(text);
    NumberOfTrimmed(Trim(text))
  }

  /** `Number` on text already stripped of surrounding whitespace. */
  function NumberOfTrimmed(t: string): (r: Option<real>)
    ensures t == [] ==> r == Some(0.0)
  {
    if t == [] then Some(0.0)
    else
      var u := Unsigned(t);
      if !DecimalText(u) then None
      else if t[0] == '-' then Some(-DecimalTextValue(u))
      else Some(DecimalTextValue(u))
  }

  /** Inside digits-point-digits the only point is the one between the parts. */
  lemma SinglePoint(w: string, f: string)
    requires AllDigits(w) && AllDigits(f)
    ensures var u := w + ['.'] + f;
      forall i :: 0 <= i < |u| ==> (IsDigit(u[i]) || u[i] == '.') && (u[i] == '.' ==> i == |w|)
  {
    var u := w + ['.'] + f;
    forall i | 0 <= i < |u| ensures (IsDigit(u[i]) || u[i] == '.') && (u[i] == '.' ==> i == |w|) {
      if i < |w| {
        assert u[i] == w[i];
      } else if i > |w| {
        assert u[i] == f[i - |w| - 1];
      }
    }
  }

  /** Digits, a point and more digits are plain decimal notation, split at that point. */
  lemma PointedParts(w: string, f: string)
    requires w != [] && AllDigits(w) && AllDigits(f)
    ensures DecimalText(w + ['.'] + f)
    ensures WholePart(w + ['.'] + f) == w && FractionPart(w + ['.'] + f) == f
  {
    var u := w + ['.'] + f;
    SinglePoint(w, f);
    assert IsDigit(u[0]);
    BeforeSeparator(w, '.', f);
    assert u[|w| + 1..] == f;
  }

  /** `Number` reads digits, a point and more digits as the exact value they write. */
  lemma NumberOfDecimal(w: string, f: string)
    requires w != [] && AllDigits(w) && AllDigits(f)
    ensures NumberOf(w + ['.'] + f) == Some(PointValue(w, f))
  {
    var u := w + ['.'] + f;
    PointedParts(w, f);
    assert IsDigit(u[0]) && !IsSpace(u[|u| - 1]);
    LeadingDigit(u);
    NumberOfUnpadded(u);
  }

  /** Plain decimal notation without a sign is read as its value. */
  lemma NumberOfUnpadded(u: string)
    requires DecimalText(u) && IsDigit(u[0]) && !IsSpace(u[|u| - 1])
    ensures NumberOf(u) == Some(DecimalTextValue(u))
  {
    TrimUnpadded(u);
    DigitLedValue(u);
  }

  lemma DigitLedValue(u: string)
    requires DecimalText(u) && IsDigit(u[0])
    ensures NumberOfTrimmed(u) == Some(DecimalTextValue(u))
  {
    LeadingDigit(u);
    assert u[0] != '-';
  }

  /** A digit string is plain decimal notation without a point. */
  lemma WholeIsDecimalText(d: string)
    requires d != [] && AllDigits(d)
    ensures DecimalText(d) && IsDigit(d[0]) && !IsSpace(d[|d| - 1])
    ensures '.' !in d
  {
    assert IsDigit(d[0]) && IsDigit(d[|d| - 1]);
  }

  lemma WholeParts(d: string)
    requires '.' !in d
    ensures WholePart(d) == d && FractionPart(d) == []
  {
    BeforeWithout(d, '.');
  }

  /** Without fraction digits the value is the whole part's. */
  lemma PointValueWhole(w: string)
    requires AllDigits(w)
    ensures PointValue(w, []) == DigitsValue(w) as real
  {
    assert Pow10(0) == 1 && DigitsValue([]) == 0;
  }

  /** `Number` reads the decimal notation of a whole number as that number. */
  lemma NumberOfWhole(n: nat)
    ensures NumberOf(Decimal(n)) == Some(n as real)
  {
    var d := Decimal(n);
    WholeIsDecimalText(d);
    NumberOfUnpadded(d);
    WholeParts(d);
    PointValueWhole(d);
    DecimalValue(n);
  }

  /** A non-zero fraction after the notation of `n` reads as more than `n`. */
  lemma NumberOfFractionAbove(n: nat, f: string)
    requires AllDigits(f) && DigitsValue(f) > 0
    ensures NumberOf(Decimal(n) + ['.'] + f).Some?
    ensures NumberOf(Decimal(n) + ['.'] + f).value > n as real
  {
    NumberOfDecimal(Decimal(n), f);
    DecimalValue(n);
    FractionPositive(DigitsValue(f), Pow10(|f|));
    assert PointValue(Decimal(n), f) == n as real + DigitsValue(f) as real / Pow10(|f|) as real;
  }

  lemma FractionPositive(y: nat, p: nat)
    requires y > 0 && p >= 1
    ensures y as real / p as real > 0.0
  {
  }

  /**
   * `Number` is NaN for text whose trimmed form holds, after its first
   * character, anything but a digit or a point: only a leading sign may
   * stand outside the digits.
   */
  lemma NumberOfInnerLetter(text: string, i: nat)
    requires 0 < i < |Trim(text)| && !IsDigit(Trim(text)[i]) && Trim(text)[i] != '.'
    ensures text != [] && NumberOf(text) == None
  {
    var t := Trim(text);
    var u := Unsigned(t);
    if u == t {
      assert !(IsDigit(u[i]) || u[i] == '.');
    } else {
      assert u[i - 1] == t[i];
    }
    assert !DecimalText(u);
  }
}

=== FILE: tokens.dfy ===
/**
 * The bearer tokens the backend issues. Signing is kept symbolic: a token
 * records the claims it carries, the secret it was signed with and its
 * lifetime; how those are encoded and checked is the signing library's job.
 */
module Tokens {
  import opened Wrappers
  import opened Store
  import opened Models

  datatype Claims = Claims(id: Option<Id>, userName: Option<string>, role: Option<string>, name: Option<string>)

  /** Which environment variable a token is signed with: JWT_SECRET_KEY or JWT_REFRESH_SECRET_KEY. */
  datatype SecretKey = AccessSecret | RefreshSecret

  /** The values the deployment gives the two variables; nothing makes them differ. */
  datatype Env = Env(accessSecret: string, refreshSecret: string)

  function SecretValue(env: Env, k: SecretKey): string {
    match k
    case AccessSecret => env.accessSecret
    case RefreshSecret => env.refreshSecret
  }

  datatype Jwt = Jwt(claims: Claims, key: SecretKey, expiresInDays: nat)

  /** The access token: id, userName, role and name; the access secret; seven days. */
  function AccessToken(id: Id, u: User): (t: Jwt)
    ensures t.claims.role == Some(u.role) && t.claims.id == Some(id)
    ensures t.key == AccessSecret && t.expiresInDays == 7
  {
    Jwt(Claims(Some(id), Some(u.userName), Some(u.role), Some(u.name)), AccessSecret, 7)
  }

  /** The refresh token: the same claims without the role; the refresh secret; thirty days. */
  function RefreshToken(id: Id, u: User): (t: Jwt)
    ensures t.claims.role == None && t.claims.id == Some(id)
    ensures t.key == RefreshSecret && t.expiresInDays == 30
  {
    Jwt(Claims(Some(id), Some(u.userName), None, Some(u.name)), RefreshSecret, 30)
  }

  /**
   * Checking a token against the secret `key` names: its claims, unless it
   * expired or was signed with a secret of another value.
   */
  function Verify(t: Jwt, env: Env, key: SecretKey, expired: bool): (r: Option<Claims>)
    ensures r.Some? <==> SecretValue(env, t.key) == SecretValue(env, key) && !expired
    ensures r.Some? ==> r.value == t.claims
  {
    if SecretValue(env, t.key) == SecretValue(env, key) && !expired then Some(t.claims) else None
  }

  /** An unexpired access token checked with the access secret yields the claims it was issued with. */
  lemma AccessRoundTrip(id: Id, u: User, env: Env)
    ensures Verify(AccessToken(id, u), env, AccessSecret, false) ==
      Some(Claims(Some(id), Some(u.userName), Some(u.role), Some(u.name)))
  {
  }

  /** A refresh token is never accepted where an access token is checked, as long as the two secrets differ. */
  lemma RefreshNotAccess(id: Id, u: User, env: Env, expired: bool)
    requires env.accessSecret != env.refreshSecret
    ensures Verify(RefreshToken(id, u), env, AccessSecret, expired) == None
  {
  }

  /** With both variables set to the same value, an unexpired refresh token passes the access check. */
  lemma SharedSecretAdmitsRefresh(id: Id, u: User, env: Env)
    requires env.accessSecret == env.refreshSecret
    ensures Verify(RefreshToken(id, u), env, AccessSecret, false) == Some(RefreshToken(id, u).claims)
  {
  }

  /** The access and refresh tokens differ only in the role claim, the secret and the lifetime. */
  lemma TokensShareIdentity(id: Id, u: User)
    ensures AccessToken(id, u).claims.(role := None) == RefreshToken(id, u).claims
  {
  }

  /** The options of the `token` cookie. */
  datatype Cookie = Cookie(name: string, value: Jwt, httpOnly: bool, secure: bool, sameSite: string, maxAgeMs: nat)

  const WeekMs: nat := 7 * 24 * 60 * 60 * 1000

  /** The cookie both sign-in paths set: httpOnly, strict same-site, secure only in production, one week. */
  function TokenCookie(t: Jwt, production: bool): (c: Cookie)
    ensures c.name == "token" && c.value == t && c.httpOnly && c.sameSite == "strict"
    ensures c.secure <==> production
    ensures c.maxAgeMs == 604800000
  {
    Cookie("token", t, true, production, "strict", WeekMs)
  }
}

=== FILE: upload.dfy ===
/**
 * The in-memory image upload: the mimetype filter and the size limit applied
 * to an uploaded file before a handler sees it.
 */
module Upload {
  import opened Wrappers
  import opened Text

  /** The largest accepted file, in bytes: two mebibytes. */
  const MaxFileSize: nat := 2 * 1024 * 1024

  const TypeError := "Only JPEG/PNG images are allowed"

  /** The error multer raises for a file over the size limit. */
  const SizeError := "File too large"

  /** The uploaded file as the filter sees it: an optional mimetype and the byte count. */
  datatype File = File(mimetype: Option<string>, size: nat)

  datatype Verdict = Accept | Reject(error: string)

  /**
   * `file.mimetype && file.mimetype.split("/")[1]`: an absent mimetype stays
   * absent, an empty one stays empty, and otherwise the segment after the
   * first "/" (absent when there is none).
   */
  function Extension(mimetype: Option<string>): (r: Option<string>)
    ensures mimetype.None? ==> r.None?
    ensures mimetype == Some("") ==> r == Some("")
    ensures r.Some? ==> '/' !in r.value
  {
    match mimetype
    case None => None
    case Some(m) =>
      if m == "" then Some("")
      else
        var parts := Split(m, '/');
        if |parts| >= 2 then Some(parts[1]) else None
  }

  /** The text a regular expression test reads: an absent value reads as "undefined". */
  function Tested(ext: Option<string>): string {
    match ext
    case None => "undefined"
    case Some(e) => e
  }

  /** `/jpeg|jpg|png/.test(t)`: an unanchored search for any of the three words. */
  predicate Admits(t: string) {
    Contains(t, "jpeg") || Contains(t, "jpg") || Contains(t, "png")
  }

  /** `fileFilter`: accept exactly when the tested extension admits, else reject with the type error. */
  function FileFilter(mimetype: Option<string>): (r: Verdict)
    ensures r.Reject? ==> r.error == TypeError
    ensures mimetype.None? || mimetype == Some("") ==> r.Reject?
    ensures r.Accept? ==> mimetype.Some? && '/' in mimetype.value
  {
    var ext := Extension(mimetype);
    UndefinedNotAdmitted();
    if Admits(Tested(ext)) then Accept else Reject(TypeError)
  }

  /**
   * What multer does with a file: the filter runs first, and a file the filter
   * accepts is still refused when it is larger than the limit.
   */
  function Receive(file: File): (r: Verdict)
    ensures r.Accept? <==> FileFilter(file.mimetype).Accept? && file.size <= MaxFileSize
    ensures r.Reject? ==> r.error in {TypeError, SizeError}
    ensures FileFilter(file.mimetype).Reject? ==> r == Reject(TypeError)
  {
    match FileFilter(file.mimetype)
    case Reject(e) => Reject(e)
    case Accept => if file.size <= MaxFileSize then Accept else Reject(SizeError)
  }

  /** The text an absent extension reads as is not an image type. */
  lemma UndefinedNotAdmitted()
    ensures !Admits("undefined") && !Admits("")
  {
    NotContainingLetter("undefined", "jpeg", 'p');
    NotContainingLetter("undefined", "jpg", 'p');
    NotContainingLetter("undefined", "png", 'p');
  }

  /** A word that has a letter the text lacks does not occur in the text. */
  lemma NotContainingLetter(s: string, needle: string, c: char)
    requires c in needle && c !in s
    ensures !Contains(s, needle)
  {
  }

  /**
   * The extension is the text between the first "/" and the next one: for a
   * mimetype `a/e` followed by nothing or by another "/", it is `e`.
   */
  lemma ExtensionIsSecondSegment(a: string, e: string, rest: string)
    requires '/' !in a && '/' !in e
    requires rest == [] || rest[0] == '/'
    ensures Extension(Some(a + "/" + e + rest)) == Some(e)
  {
    var m := a + "/" + e + rest;
    assert m == a + ['/'] + (e + rest);
    BeforeSeparator(a, '/', e + rest);
    var tail := m[|a| + 1..];
    assert tail == e + rest;
    if rest == [] {
      BeforeWithout(e, '/');
      assert e + rest == e;
    } else {
      assert e + rest == e + ['/'] + rest[1..];
      BeforeSeparator(e, '/', rest[1..]);
    }
    assert Split(tail, '/')[0] == e;
  }

  /** A mimetype without any "/" has no extension and is rejected. */
  lemma NoSlashRejected(m: string)
    requires '/' !in m
    ensures Extension(Some(m)) == (if m == "" then Some("") else None)
    ensures FileFilter(Some(m)).Reject?
  {
    if m != "" {
      BeforeWithout(m, '/');
    }
  }

  /**
   * For a mimetype `a/e` (optionally followed by "/…"), the filter accepts
   * exactly when `e` contains jpeg, jpg or png anywhere.
   */
  lemma FilterAcceptsExactly(a: string, e: string, rest: string)
    requires '/' !in a && '/' !in e
    requires rest == [] || rest[0] == '/'
    ensures FileFilter(Some(a + "/" + e + rest)).Accept? <==> Admits(e)
  {
    ExtensionIsSecondSegment(a, e, rest);
  }

  /**
   * Concrete subtypes: png and jpeg pass, gif and svg+xml do not, and since
   * the pattern is unanchored a subtype that merely contains "png" passes.
   */
  lemma SubtypeExamples()
    ensures Admits("png") && Admits("jpeg") && Admits("x-pngish")
    ensures !Admits("gif") && !Admits("svg+xml")
  {
    assert OccursAt("png", "png", 0);
    assert OccursAt("jpeg", "jpeg", 0);
    assert OccursAt("x-pngish", "png", 2);
    NotContainingLetter("gif", "png", 'p');
    NotContainingLetter("svg+xml", "jpeg", 'p');
    NotContainingLetter("svg+xml", "jpg", 'p');
    NotContainingLetter("svg+xml", "png", 'p');
  }

  /** A png image passes the filter and a gif is refused with the type error. */
  lemma ImageExamples()
    ensures FileFilter(Some("image/png")).Accept?
    ensures FileFilter(Some("image/gif")) == Reject(TypeError)
  {
    SubtypeExamples();
    assert "image/png" == "image" + "/" + "png" + "";
    FilterAcceptsExactly("image", "png", "");
    assert "image/gif" == "image" + "/" + "gif" + "";
    FilterAcceptsExactly("image", "gif", "");
  }

  /** A file of exactly the limit is received; one byte more is refused with the size error. */
  lemma SizeBoundary(mimetype: Option<string>)
    requires FileFilter(mimetype).Accept?
    ensures Receive(File(mimetype, 2097152)) == Accept
    ensures Receive(File(mimetype, 2097153)) == Reject(SizeError)
  {
  }
}

=== FILE: validators.dfy ===
/**
 * Request validation: the rule sets written with express-validator, and the
 * middleware that runs a rule set and answers 422 with every failure or
 * passes the request on.
 */
module Validators {
  import opened Wrappers
  import opened Text
  import opened Http

  /** A request value as parsed JSON or URL text. */
  datatype Value =
    | Absent                          // undefined
    | Null
    | Str(s: string)
    | Num(text: string)               // a number, kept as the text `String(n)` gives
    | Bool(b: bool)
    | Arr(items: seq<Value>)
    | Obj(props: seq<Prop>)           // the properties in `Object.keys` order

  /** One property of a parsed object; a parsed object names each property once. */
  datatype Prop = Prop(name: string, value: Value)

  /** The text a standard check reads from a scalar value. */
  function ToText(v: Value): string {
    match v
    case Absent => []
    case Null => []
    case Str(s) => s
    case Num(t) => t
    case Bool(b) => if b then "true" else "false"
    case Arr(_) => []
    case Obj(_) => "[object Object]"
  }

  /**
   * Library predicates whose definitions are not part of this model:
   * `isMongoId`, `isURL`, and the number a text reads as when it is a float.
   */
  datatype Library = Library(mongoId: string -> bool, url: string -> bool, float: string -> Option<real>)

  datatype Check =
    | IsString
    | Length(shortest: nat, longest: Option<nat>)
    | FloatAbove(bound: int)
    | IntWithin(least: Option<int>, most: Option<int>)
    | IsArray(minItems: nat)
    | MongoId
    | Url
    | NotEmpty

  /** An integer literal as `isInt` accepts it: an optional sign, then one or more digits. */
  predicate IntText(t: string) {
    var u := Unsigned(t);
    u != [] && AllDigits(u)
  }

  function IntValue(t: string): int
    requires IntText(t)
  {
    var u := Unsigned(t);
    if t[0] == '-' then -(DigitsValue(u) as int) else DigitsValue(u)
  }

  /** A standard check on the text of a scalar. */
  predicate TextPasses(lib: Library, c: Check, t: string) {
    match c
    case Length(min, max) => min <= |t| && (max.None? || |t| <= max.value)
    case FloatAbove(b) => lib.float(t).Some? && lib.float(t).value > b as real
    case IntWithin(lo, hi) => IntText(t) && (lo.None? || IntValue(t) >= lo.value) && (hi.None? || IntValue(t) <= hi.value)
    case MongoId => lib.mongoId(t)
    case Url => lib.url(t)
    case NotEmpty => t != []
    case IsString => true
    case IsArray(_) => true
  }

  /** One check on one value; a standard check on an array checks every element. */
  predicate Passes(lib: Library, c: Check, v: Value)
    decreases v
  {
    match c
    case IsString => v.Str?
    case IsArray(min) => v.Arr? && |v.items| >= min
    case _ =>
      if v.Arr? then forall i :: 0 <= i < |v.items| ==> Passes(lib, c, v.items[i])
      else TextPasses(lib, c, ToText(v))
  }

  datatype Location = Body | Params | Query

  /** What a rule looks at: a field, every element of an array field, or one member of every element. */
  datatype Target = Field(name: string) | Each(name: string) | EachMember(name: string, member: string)

  /** `body("x").optional().isString()…`: where, what, whether an absent value is skipped, and the checks in order. */
  datatype Rule = Rule(loc: Location, target: Target, optional: bool, checks: seq<Check>)

  datatype Request = Request(body: map<string, Value>, params: map<string, Value>, query: map<string, Value>)

  function Get(fields: map<string, Value>, name: string): Value {
    if name in fields then fields[name] else Absent
  }

  function Source(req: Request, loc: Location): map<string, Value> {
    match loc
    case Body => req.body
    case Params => req.params
    case Query => req.query
  }

  /** The value of the property `name` in an object's property list, or undefined. */
  function Lookup(props: seq<Prop>, name: string): (r: Value)
    ensures (forall i :: 0 <= i < |props| ==> props[i].name != name) ==> r == Absent
    ensures forall i :: 0 <= i < |props| && props[i].name == name && (forall j :: 0 <= j < i ==> props[j].name != name) ==>
      r == props[i].value
  {
    if props == [] then Absent
    else if props[0].name == name then props[0].value
    else Lookup(props[1..], name)
  }

  /** `_.get(element, name)`: an object's property, undefined in any other value. */
  function Member(v: Value, name: string): Value {
    if v.Obj? then Lookup(v.props, name) else Absent
  }

  /** What a wildcard `*` stands for in one selected path: an array position or an object's property name. */
  datatype Segment = Position(i: nat) | Property(name: string)

  /**
   * The values a wildcard reaches, in `Object.keys` order: an array's
   * elements, an object's property values, and nothing in a scalar.
   */
  function Elements(v: Value): (r: seq<Value>)
    ensures v.Arr? ==> r == v.items
    ensures v.Obj? ==> |r| == |v.props| && forall i :: 0 <= i < |r| ==> r[i] == v.props[i].value
    ensures !v.Arr? && !v.Obj? ==> r == []
  {
    match v
    case Arr(items) => items
    case Obj(props) => seq(|props|, i requires 0 <= i < |props| => props[i].value)
    case _ => []
  }

  /** The segment that names each of `Elements(v)`. */
  function Segments(v: Value): (r: seq<Segment>)
    ensures |r| == |Elements(v)|
    ensures v.Arr? ==> forall i :: 0 <= i < |r| ==> r[i] == Position(i)
    ensures v.Obj? ==> forall i :: 0 <= i < |r| ==> r[i] == Property(v.props[i].name)
  {
    match v
    case Arr(items) => seq(|items|, i requires 0 <= i < |items| => Position(i))
    case Obj(props) => seq(|props|, i requires 0 <= i < |props| => Property(props[i].name))
    case _ => []
  }

  /** One selected value; `index` is what the wildcard stood for, for a wildcard target. */
  datatype Instance = Instance(index: Option<Segment>, value: Value)

  /**
   * The values a rule selects. A wildcard selects one value per array element
   * or per object property, in order, and nothing in a scalar.
   */
  function Instances(req: Request, rule: Rule): (r: seq<Instance>)
    ensures rule.target.Field? ==> r == [Instance(None, Get(Source(req, rule.loc), rule.target.name))]
    ensures var v := Get(Source(req, rule.loc), rule.target.name);
      !rule.target.Field? ==>
        && |r| == |Elements(v)|
        && forall i :: 0 <= i < |r| ==> r[i].index == Some(Segments(v)[i])
    ensures var v := Get(Source(req, rule.loc), rule.target.name);
      rule.target.Each? ==> forall i :: 0 <= i < |r| ==> r[i].value == Elements(v)[i]
    ensures var v := Get(Source(req, rule.loc), rule.target.name);
      rule.target.EachMember? ==> forall i :: 0 <= i < |r| ==> r[i].value == Member(Elements(v)[i], rule.target.member)
  {
    var v := Get(Source(req, rule.loc), rule.target.name);
    var vs, ks := Elements(v), Segments(v);
    match rule.target
    case Field(_) => [Instance(None, v)]
    case Each(_) => seq(|vs|, i requires 0 <= i < |vs| => Instance(Some(ks[i]), vs[i]))
    case EachMember(_, m) => seq(|vs|, i requires 0 <= i < |vs| => Instance(Some(ks[i]), Member(vs[i], m)))
  }

  /** One entry of `validationResult(req).array()`. */
  datatype Failure = Failure(loc: Location, target: Target, index: Option<Segment>, value: Value, check: Check)

  /** A selected value satisfies the rule: absent and optional, or passing every check of the chain. */
  predicate ValueOk(lib: Library, rule: Rule, v: Value) {
    (rule.optional && v.Absent?) || forall c :: c in rule.checks ==> Passes(lib, c, v)
  }

  /** A rule holds of a request, stated over the request's fields rather than over selected instances. */
  predicate Holds(lib: Library, req: Request, rule: Rule) {
    var v := Get(Source(req, rule.loc), rule.target.name);
    match rule.target
    case Field(_) => ValueOk(lib, rule, v)
    case Each(_) => forall i :: 0 <= i < |Elements(v)| ==> ValueOk(lib, rule, Elements(v)[i])
    case EachMember(_, m) => forall i :: 0 <= i < |Elements(v)| ==> ValueOk(lib, rule, Member(Elements(v)[i], m))
  }

  /** Every rule of a set holds. */
  predicate AllHold(lib: Library, req: Request, rules: seq<Rule>) {
    forall rule :: rule in rules ==> Holds(lib, req, rule)
  }

  /** The failing checks on one value, in chain order; every check runs, none stops the chain. */
  function Failing(lib: Library, rule: Rule, inst: Instance, checks: seq<Check>): (r: seq<Failure>)
    ensures r == [] <==> forall c :: c in checks ==> Passes(lib, c, inst.value)
    ensures forall f :: f in r ==>
      f.check in checks && !Passes(lib, f.check, inst.value) && f == Failure(rule.loc, rule.target, inst.index, inst.value, f.check)
  {
    if checks == [] then []
    else
      var rest := Failing(lib, rule, inst, checks[1..]);
      assert forall c :: c in checks <==> c == checks[0] || c in checks[1..] by {
        assert checks == [checks[0]] + checks[1..];
      }
      if Passes(lib, checks[0], inst.value) then rest
      else [Failure(rule.loc, rule.target, inst.index, inst.value, checks[0])] + rest
  }

  /** The failures of one rule over the values it selected, skipping absent values when optional. */
  function RunOn(lib: Library, rule: Rule, insts: seq<Instance>): (r: seq<Failure>)
    ensures r == [] <==> forall k :: 0 <= k < |insts| ==> ValueOk(lib, rule, insts[k].value)
  {
    if insts == [] then []
    else
      var here := if rule.optional && insts[0].value.Absent? then [] else Failing(lib, rule, insts[0], rule.checks);
      here + RunOn(lib, rule, insts[1..])
  }

  /** `rule.run(req)`: the failures of one rule, none exactly when it holds. */
  function RunRule(lib: Library, req: Request, rule: Rule): (r: seq<Failure>)
    ensures r == [] <==> Holds(lib, req, rule)
  {
    RunOn(lib, rule, Instances(req, rule))
  }

  /** A one-check rule on a field: the value is skipped when optional and absent, else the check decides. */
  lemma OneCheckRule(lib: Library, req: Request, loc: Location, name: string, optional: bool, c: Check)
    ensures var v := Get(Source(req, loc), name);
      Holds(lib, req, Rule(loc, Field(name), optional, [c])) <==> (optional && v.Absent?) || Passes(lib, c, v)
  {
    var v := Get(Source(req, loc), name);
    assert (forall d :: d in [c] ==> Passes(lib, d, v)) <==> Passes(lib, c, v);
  }

  /** A bounded string rule on a body field: a string whose length is within the bounds. */
  lemma TextRule(lib: Library, req: Request, name: string, optional: bool, shortest: nat, longest: nat)
    ensures var v := Get(req.body, name);
      Holds(lib, req, Rule(Body, Field(name), optional, [IsString, Length(shortest, Some(longest))])) <==>
      (optional && v.Absent?) || (v.Str? && shortest <= |v.s| <= longest)
  {
    var v := Get(req.body, name);
    var checks := [IsString, Length(shortest, Some(longest))];
    assert (forall d :: d in checks ==> Passes(lib, d, v)) <==> Passes(lib, checks[0], v) && Passes(lib, checks[1], v);
  }

  /**
   * A one-check rule on every element of a body array or every property of a
   * body object; a scalar has nothing to check.
   */
  lemma EachRule(lib: Library, req: Request, name: string, optional: bool, c: Check)
    ensures var v := Get(req.body, name);
      v.Arr? ==>
        (Holds(lib, req, Rule(Body, Each(name), optional, [c])) <==>
         forall i :: 0 <= i < |v.items| ==> (optional && v.items[i].Absent?) || Passes(lib, c, v.items[i]))
    ensures var v := Get(req.body, name);
      v.Obj? ==>
        (Holds(lib, req, Rule(Body, Each(name), optional, [c])) <==>
         forall i :: 0 <= i < |v.props| ==> (optional && v.props[i].value.Absent?) || Passes(lib, c, v.props[i].value))
    ensures var v := Get(req.body, name);
      !v.Arr? && !v.Obj? ==> Holds(lib, req, Rule(Body, Each(name), optional, [c]))
  {
    var v, rule := Get(req.body, name), Rule(Body, Each(name), optional, [c]);
    SingleCheck(lib, rule, c);
    var es := Elements(v);
    assert Holds(lib, req, rule) <==> forall i :: 0 <= i < |es| ==> ValueOk(lib, rule, es[i]);
    if v.Obj? {
      assert forall i :: 0 <= i < |es| ==> es[i] == v.props[i].value;
    } else if !v.Arr? {
      assert es == [];
    }
  }

  /**
   * A required one-check rule on a member of every element of a body array or
   * every property value of a body object.
   */
  lemma MemberRule(lib: Library, req: Request, name: string, member: string, c: Check)
    ensures var v := Get(req.body, name);
      v.Arr? ==>
        (Holds(lib, req, Rule(Body, EachMember(name, member), false, [c])) <==>
         forall i :: 0 <= i < |v.items| ==> Passes(lib, c, Member(v.items[i], member)))
    ensures var v := Get(req.body, name);
      v.Obj? ==>
        (Holds(lib, req, Rule(Body, EachMember(name, member), false, [c])) <==>
         forall i :: 0 <= i < |v.props| ==> Passes(lib, c, Member(v.props[i].value, member)))
    ensures var v := Get(req.body, name);
      !v.Arr? && !v.Obj? ==> Holds(lib, req, Rule(Body, EachMember(name, member), false, [c]))
  {
    var v, rule := Get(req.body, name), Rule(Body, EachMember(name, member), false, [c]);
    SingleCheck(lib, rule, c);
    var es := Elements(v);
    assert Holds(lib, req, rule) <==> forall i :: 0 <= i < |es| ==> ValueOk(lib, rule, Member(es[i], member));
    if v.Obj? {
      assert forall i :: 0 <= i < |es| ==> es[i] == v.props[i].value;
    }
  }

  /** A rule with the one check `c` accepts a value when it is absent and optional, or passes `c`. */
  lemma SingleCheck(lib: Library, rule: Rule, c: Check)
    requires rule.checks == [c]
    ensures forall w :: ValueOk(lib, rule, w) <==> (rule.optional && w.Absent?) || Passes(lib, c, w)
  {
    assert forall w :: (forall d :: d in [c] ==> Passes(lib, d, w)) <==> Passes(lib, c, w);
  }

  /** A required non-empty string rule on a body field. */
  lemma FilledRule(lib: Library, req: Request, name: string)
    ensures Holds(lib, req, Rule(Body, Field(name), false, [IsString, NotEmpty])) <==> FilledText(Get(req.body, name))
  {
    var v := Get(req.body, name);
    var checks := [IsString, NotEmpty];
    assert (forall d :: d in checks ==> Passes(lib, d, v)) <==> Passes(lib, checks[0], v) && Passes(lib, checks[1], v);
  }

  /** A rule set holds exactly when each of its rules, by position, holds. */
  lemma AllHoldEach(lib: Library, req: Request, rules: seq<Rule>)
    ensures AllHold(lib, req, rules) <==> forall i :: 0 <= i < |rules| ==> Holds(lib, req, rules[i])
  {
  }

  /** Two rule sets run one after the other hold exactly when each does. */
  lemma AllHoldConcat(lib: Library, req: Request, a: seq<Rule>, b: seq<Rule>)
    ensures AllHold(lib, req, a + b) <==> AllHold(lib, req, a) && AllHold(lib, req, b)
  {
  }

  /** All failures of all rules, rule by rule. */
  function RunAll(lib: Library, req: Request, rules: seq<Rule>): (r: seq<Failure>)
    ensures r == [] <==> AllHold(lib, req, rules)
  {
    if rules == [] then []
    else
      assert rules == [rules[0]] + rules[1..];
      RunRule(lib, req, rules[0]) + RunAll(lib, req, rules[1..])
  }

  datatype Outcome = Next | Reject(reply: Reply<seq<Failure>>)

  /**
   * `validate(rules)`: every rule is run first; then 422 "Validation failed"
   * with the whole list of failures, or `next`.
   */
  function Validate(lib: Library, rules: seq<Rule>, req: Request): (o: Outcome)
    ensures o.Next? <==> AllHold(lib, req, rules)
    ensures o.Reject? ==>
      o.reply.status == 422 && o.reply.message == Text("Validation failed") && o.reply.payload == Some(RunAll(lib, req, rules))
  {
    var failures := RunAll(lib, req, rules);
    if failures == [] then Next else Reject(Done(422, "Validation failed", failures))
  }

  /** Each failure in a rejection names a check of some rule that the value it names does not pass. */
  lemma RejectionListsFailedChecks(lib: Library, rules: seq<Rule>, req: Request)
    ensures forall f :: f in RunAll(lib, req, rules) ==> !Passes(lib, f.check, f.value)
  {
    if rules != [] {
      RejectionListsFailedChecks(lib, rules[1..], req);
      RuleFailuresFailed(lib, rules[0], Instances(req, rules[0]));
    }
  }

  lemma RuleFailuresFailed(lib: Library, rule: Rule, insts: seq<Instance>)
    ensures forall f :: f in RunOn(lib, rule, insts) ==> !Passes(lib, f.check, f.value)
  {
    if insts != [] {
      RuleFailuresFailed(lib, rule, insts[1..]);
    }
  }

  // ---------------------------------------------------------------------------
  // The rule sets
  // ---------------------------------------------------------------------------

  /** The optional product fields, checked the same way on create and on update. */
  const ProductFieldRules: seq<Rule> := [
    Rule(Body, Field("description"), true, [IsString, Length(0, Some(2000))]),
    Rule(Body, Field("category"), true, [IsString, Length(0, Some(120))]),
    Rule(Body, Field("images"), true, [IsArray(0)]),
    Rule(Body, Each("images"), true, [Url]),
    Rule(Body, Field("stock"), true, [IntWithin(Some(0), None)])
  ]

  const ProductCreateRules: seq<Rule> := [
    Rule(Body, Field("name"), false, [IsString, Length(2, Some(120))]),
    Rule(Body, Field("price"), false, [FloatAbove(0)])
  ] + ProductFieldRules

  const ProductUpdateRules: seq<Rule> := [
    Rule(Params, Field("id"), false, [MongoId]),
    Rule(Body, Field("name"), true, [IsString, Length(2, Some(120))]),
    Rule(Body, Field("price"), true, [FloatAbove(0)])
  ] + ProductFieldRules

  const PaginationRules: seq<Rule> := [
    Rule(Query, Field("page"), true, [IntWithin(Some(1), None)]),
    Rule(Query, Field("limit"), true, [IntWithin(Some(1), Some(100))])
  ]

  const CartAddRules: seq<Rule> := [
    Rule(Body, Field("productId"), false, [MongoId]),
    Rule(Body, Field("quantity"), false, [IntWithin(Some(1), None)])
  ]

  const CartUpdateRules: seq<Rule> := [
    Rule(Body, Field("items"), false, [IsArray(1)]),
    Rule(Body, EachMember("items", "productId"), false, [MongoId]),
    Rule(Body, EachMember("items", "quantity"), false, [IntWithin(Some(0), None)])
  ]

  const PaymentVerifyRules: seq<Rule> := [
    Rule(Body, Field("razorpay_order_id"), false, [IsString, NotEmpty]),
    Rule(Body, Field("razorpay_payment_id"), false, [IsString, NotEmpty]),
    Rule(Body, Field("razorpay_signature"), false, [IsString, NotEmpty]),
    Rule(Body, Field("orderId"), false, [MongoId])
  ]

  // ---------------------------------------------------------------------------
  // What each rule set demands, stated directly
  // ---------------------------------------------------------------------------

  /** A string field of bounded length, or absent. */
  predicate OptionalText(v: Value, longest: nat) {
    v.Absent? || (v.Str? && |v.s| <= longest)
  }

  predicate NameOk(v: Value) {
    v.Str? && 2 <= |v.s| <= 120
  }

  /** Absent, or an array whose present elements are all URLs. */
  predicate ImagesOk(lib: Library, v: Value) {
    v.Absent? || (v.Arr? && forall i :: 0 <= i < |v.items| ==> v.items[i].Absent? || Passes(lib, Url, v.items[i]))
  }

  /** The optional product fields: description, category, images and a stock of at least 0. */
  predicate ProductExtrasOk(lib: Library, b: map<string, Value>) {
    && OptionalText(Get(b, "description"), 2000)
    && OptionalText(Get(b, "category"), 120)
    && ImagesOk(lib, Get(b, "images"))
    && (Get(b, "stock").Absent? || Passes(lib, IntWithin(Some(0), None), Get(b, "stock")))
  }

  /** A product to create: a 2..120 character name, a price above zero, and the optional fields within bounds. */
  predicate ProductCreateOk(lib: Library, b: map<string, Value>) {
    NameOk(Get(b, "name")) && Passes(lib, FloatAbove(0), Get(b, "price")) && ProductExtrasOk(lib, b)
  }

  /** A product update: an id parameter, and every body field optional with the create bounds. */
  predicate ProductUpdateOk(lib: Library, req: Request) {
    && Passes(lib, MongoId, Get(req.params, "id"))
    && (Get(req.body, "name").Absent? || NameOk(Get(req.body, "name")))
    && (Get(req.body, "price").Absent? || Passes(lib, FloatAbove(0), Get(req.body, "price")))
    && ProductExtrasOk(lib, req.body)
  }

  /** A non-empty string. */
  predicate FilledText(v: Value) {
    v.Str? && v.s != []
  }

  /** The shared optional product fields hold exactly when `ProductExtrasOk` holds of the body. */
  lemma ProductFieldsAccept(lib: Library, req: Request)
    ensures AllHold(lib, req, ProductFieldRules) <==> ProductExtrasOk(lib, req.body)
  {
    var R := ProductFieldRules;
    assert R == R[..2] + R[2..];
    AllHoldConcat(lib, req, R[..2], R[2..]);
    ProductTextFields(lib, req);
    ProductImagesAndStock(lib, req);
  }

  /** The description and category rules. */
  lemma ProductTextFields(lib: Library, req: Request)
    ensures AllHold(lib, req, ProductFieldRules[..2]) <==>
      OptionalText(Get(req.body, "description"), 2000) && OptionalText(Get(req.body, "category"), 120)
  {
    var R := ProductFieldRules[..2];
    AllHoldEach(lib, req, R);
    TextRule(lib, req, "description", true, 0, 2000);
    TextRule(lib, req, "category", true, 0, 120);
    assert AllHold(lib, req, R) <==> Holds(lib, req, R[0]) && Holds(lib, req, R[1]);
  }

  /** The images and stock rules. */
  lemma ProductImagesAndStock(lib: Library, req: Request)
    ensures AllHold(lib, req, ProductFieldRules[2..]) <==>
      ImagesOk(lib, Get(req.body, "images"))
      && (Get(req.body, "stock").Absent? || Passes(lib, IntWithin(Some(0), None), Get(req.body, "stock")))
  {
    var R := ProductFieldRules[2..];
    AllHoldEach(lib, req, R);
    OneCheckRule(lib, req, Body, "images", true, IsArray(0));
    EachRule(lib, req, "images", true, Url);
    OneCheckRule(lib, req, Body, "stock", true, IntWithin(Some(0), None));
    assert AllHold(lib, req, R) <==> Holds(lib, req, R[0]) && Holds(lib, req, R[1]) && Holds(lib, req, R[2]);
  }

  /** `productCreateRules` hold exactly when `ProductCreateOk` holds of the body. */
  lemma ProductCreateAccepts(lib: Library, req: Request)
    ensures AllHold(lib, req, ProductCreateRules) <==> ProductCreateOk(lib, req.body)
  {
    var head := ProductCreateRules[..2];
    assert ProductCreateRules == head + ProductFieldRules;
    AllHoldConcat(lib, req, head, ProductFieldRules);
    ProductFieldsAccept(lib, req);
    AllHoldEach(lib, req, head);
    TextRule(lib, req, "name", false, 2, 120);
    OneCheckRule(lib, req, Body, "price", false, FloatAbove(0));
  }

  /** `productUpdateRules` hold exactly when `ProductUpdateOk` holds. */
  lemma ProductUpdateAccepts(lib: Library, req: Request)
    ensures AllHold(lib, req, ProductUpdateRules) <==> ProductUpdateOk(lib, req)
  {
    var head := ProductUpdateRules[..3];
    assert ProductUpdateRules == head + ProductFieldRules;
    AllHoldConcat(lib, req, head, ProductFieldRules);
    ProductFieldsAccept(lib, req);
    ProductUpdateHead(lib, req);
  }

  /** The id, name and price rules that open `productUpdateRules`. */
  lemma ProductUpdateHead(lib: Library, req: Request)
    ensures AllHold(lib, req, ProductUpdateRules[..3]) <==>
      && Passes(lib, MongoId, Get(req.params, "id"))
      && (Get(req.body, "name").Absent? || NameOk(Get(req.body, "name")))
      && (Get(req.body, "price").Absent? || Passes(lib, FloatAbove(0), Get(req.body, "price")))
  {
    var head := ProductUpdateRules[..3];
    AllHoldEach(lib, req, head);
    OneCheckRule(lib, req, Params, "id", false, MongoId);
    TextRule(lib, req, "name", true, 2, 120);
    OneCheckRule(lib, req, Body, "price", true, FloatAbove(0));
  }

  /** Pagination: `page` at least 1 and `limit` within 1..100, each optional. */
  lemma PaginationAccepts(lib: Library, req: Request)
    ensures AllHold(lib, req, PaginationRules) <==>
      && (Get(req.query, "page").Absent? || Passes(lib, IntWithin(Some(1), None), Get(req.query, "page")))
      && (Get(req.query, "limit").Absent? || Passes(lib, IntWithin(Some(1), Some(100)), Get(req.query, "limit")))
  {
    AllHoldEach(lib, req, PaginationRules);
    OneCheckRule(lib, req, Query, "page", true, IntWithin(Some(1), None));
    OneCheckRule(lib, req, Query, "limit", true, IntWithin(Some(1), Some(100)));
  }

  /** Adding to the cart needs a product id and a quantity of at least 1. */
  lemma CartAddAccepts(lib: Library, req: Request)
    ensures AllHold(lib, req, CartAddRules) <==>
      Passes(lib, MongoId, Get(req.body, "productId")) && Passes(lib, IntWithin(Some(1), None), Get(req.body, "quantity"))
  {
    AllHoldEach(lib, req, CartAddRules);
    OneCheckRule(lib, req, Body, "productId", false, MongoId);
    OneCheckRule(lib, req, Body, "quantity", false, IntWithin(Some(1), None));
    var R := CartAddRules;
    assert AllHold(lib, req, R) <==> Holds(lib, req, R[0]) && Holds(lib, req, R[1]);
  }

  /**
   * Updating the cart needs a non-empty item array whose every item has a
   * product id and a quantity of at least 0, so a quantity of 0 is allowed.
   */
  lemma CartUpdateAccepts(lib: Library, req: Request)
    ensures var items := Get(req.body, "items");
      AllHold(lib, req, CartUpdateRules) <==>
      && items.Arr? && |items.items| >= 1
      && forall i :: 0 <= i < |items.items| ==>
           Passes(lib, MongoId, Member(items.items[i], "productId"))
           && Passes(lib, IntWithin(Some(0), None), Member(items.items[i], "quantity"))
  {
    AllHoldEach(lib, req, CartUpdateRules);
    OneCheckRule(lib, req, Body, "items", false, IsArray(1));
    MemberRule(lib, req, "items", "productId", MongoId);
    MemberRule(lib, req, "items", "quantity", IntWithin(Some(0), None));
    var R := CartUpdateRules;
    assert AllHold(lib, req, R) <==> Holds(lib, req, R[0]) && Holds(lib, req, R[1]) && Holds(lib, req, R[2]);
  }

  /** Verifying a payment needs three non-empty razorpay strings and an order id. */
  lemma PaymentVerifyAccepts(lib: Library, req: Request)
    ensures AllHold(lib, req, PaymentVerifyRules) <==>
      && FilledText(Get(req.body, "razorpay_order_id"))
      && FilledText(Get(req.body, "razorpay_payment_id"))
      && FilledText(Get(req.body, "razorpay_signature"))
      && Passes(lib, MongoId, Get(req.body, "orderId"))
  {
    AllHoldEach(lib, req, PaymentVerifyRules);
    FilledRule(lib, req, "razorpay_order_id");
    FilledRule(lib, req, "razorpay_payment_id");
    FilledRule(lib, req, "razorpay_signature");
    OneCheckRule(lib, req, Body, "orderId", false, MongoId);
    var R := PaymentVerifyRules;
    assert AllHold(lib, req, R) <==> Holds(lib, req, R[0]) && Holds(lib, req, R[1]) && Holds(lib, req, R[2]) && Holds(lib, req, R[3]);
  }

  /** The numbers the concrete examples read. */
  lemma SmallIntValues()
    ensures IntText("0") && IntValue("0") == 0
    ensures IntText("100") && IntValue("100") == 100
    ensures IntText("101") && IntValue("101") == 101
  {
    assert Unsigned("0") == "0" && Unsigned("100") == "100" && Unsigned("101") == "101";
    assert "0"[..0] == [] && "1"[..0] == [];
    assert "100"[..2] == "10" && "101"[..2] == "10" && "10"[..1] == "1";
    assert DigitsValue("1") == 1;
    assert DigitsValue("10") == 10;
  }

  /** The page size limit: "100" is accepted, "101" and "0" are not, and a limit of 100 passes the pagination rules. */
  lemma LimitBoundary(lib: Library)
    ensures Passes(lib, IntWithin(Some(1), Some(100)), Str("100"))
    ensures !Passes(lib, IntWithin(Some(1), Some(100)), Str("101"))
    ensures !Passes(lib, IntWithin(Some(1), Some(100)), Num("0"))
    ensures AllHold(lib, Request(map[], map[], map["limit" := Num("100")]), PaginationRules)
  {
    SmallIntValues();
    LimitOfHundred(lib);
  }

  lemma LimitOfHundred(lib: Library)
    ensures AllHold(lib, Request(map[], map[], map["limit" := Num("100")]), PaginationRules)
  {
    SmallIntValues();
    var req := Request(map[], map[], map["limit" := Num("100")]);
    assert Get(req.query, "limit") == Num("100") && Get(req.query, "page") == Absent;
    PaginationAccepts(lib, req);
  }

  /** An update of the cart may set a quantity of zero, but not leave the list empty. */
  lemma CartQuantityZero(lib: Library, id: string)
    requires lib.mongoId(id)
    ensures var item := Obj([Prop("productId", Str(id)), Prop("quantity", Num("0"))]);
      AllHold(lib, Request(map["items" := Arr([item])], map[], map[]), CartUpdateRules)
    ensures !AllHold(lib, Request(map["items" := Arr([])], map[], map[]), CartUpdateRules)
  {
    SmallIntValues();
    var item := Obj([Prop("productId", Str(id)), Prop("quantity", Num("0"))]);
    var one := Request(map["items" := Arr([item])], map[], map[]);
    assert Get(one.body, "items") == Arr([item]);
    assert "productId"[0] != "quantity"[0] && item.props[1..] == [Prop("quantity", Num("0"))];
    assert Lookup(item.props, "quantity") == Lookup([Prop("quantity", Num("0"))], "quantity");
    assert Member(item, "productId") == Str(id) && Member(item, "quantity") == Num("0");
    assert Passes(lib, MongoId, Str(id)) && Passes(lib, IntWithin(Some(0), None), Num("0"));
    CartUpdateAccepts(lib, one);
    var none := Request(map["items" := Arr([])], map[], map[]);
    assert Get(none.body, "items") == Arr([]);
    CartUpdateAccepts(lib, none);
  }

  /** A one-check rule over one selected value that fails it reports exactly that failure. */
  lemma SingleFailure(lib: Library, rule: Rule, inst: Instance)
    requires |rule.checks| == 1 && !rule.optional && !Passes(lib, rule.checks[0], inst.value)
    ensures RunOn(lib, rule, [inst]) == [Failure(rule.loc, rule.target, inst.index, inst.value, rule.checks[0])]
  {
    assert rule.checks[1..] == [];
    assert [inst][1..] == [];
  }

  /** Three rules report their failures one after the other. */
  lemma RunThree(lib: Library, req: Request, a: Rule, b: Rule, c: Rule)
    ensures RunAll(lib, req, [a, b, c]) == RunRule(lib, req, a) + RunRule(lib, req, b) + RunRule(lib, req, c)
  {
    var x, y, z := RunRule(lib, req, a), RunRule(lib, req, b), RunRule(lib, req, c);
    assert [a, b, c][1..] == [b, c] && [b, c][1..] == [c] && [c][1..] == [];
    RunAllCons(lib, req, [c]);
    assert RunAll(lib, req, [c]) == z;
    RunAllCons(lib, req, [b, c]);
    assert RunAll(lib, req, [b, c]) == y + z;
    RunAllCons(lib, req, [a, b, c]);
    assert x + (y + z) == x + y + z;
  }

  lemma RunAllCons(lib: Library, req: Request, rules: seq<Rule>)
    requires rules != []
    ensures RunAll(lib, req, rules) == RunRule(lib, req, rules[0]) + RunAll(lib, req, rules[1..])
  {
  }

  /** A member wildcard over a one-property object selects that property's member, named by the property. */
  lemma OnePropertyMember(req: Request, rule: Rule, key: string, inner: Value)
    requires rule.target.EachMember? && Get(Source(req, rule.loc), rule.target.name) == Obj([Prop(key, inner)])
    ensures Instances(req, rule) == [Instance(Some(Property(key)), Member(inner, rule.target.member))]
  {
    var items := Obj([Prop(key, inner)]);
    assert Elements(items) == [inner] && Segments(items) == [Property(key)];
  }

  /**
   * A cart update whose `items` is an object rather than an array: the array
   * check fails, and the wildcard still reaches the object's property "a", so
   * its missing product id and its negative quantity are reported as well.
   */
  lemma ObjectItemsReported(lib: Library, req: Request)
    requires !lib.mongoId([])
    requires Get(req.body, "items") == Obj([Prop("a", Obj([Prop("quantity", Num("-1"))]))])
    ensures RunAll(lib, req, CartUpdateRules) == [
      Failure(Body, Field("items"), None, Get(req.body, "items"), IsArray(1)),
      Failure(Body, EachMember("items", "productId"), Some(Property("a")), Absent, MongoId),
      Failure(Body, EachMember("items", "quantity"), Some(Property("a")), Num("-1"), IntWithin(Some(0), None))]
  {
    var R := CartUpdateRules;
    var shape, id, quantity := R[0], R[1], R[2];
    assert R == [shape, id, quantity];
    RunThree(lib, req, shape, id, quantity);
    ObjectItemsShape(lib, req, Get(req.body, "items"));
    ObjectItemsMembers(lib, req, Obj([Prop("quantity", Num("-1"))]));
  }

  /** The array check on an `items` object fails once, naming the whole object. */
  lemma ObjectItemsShape(lib: Library, req: Request, items: Value)
    requires Get(req.body, "items") == items && items.Obj?
    ensures RunRule(lib, req, CartUpdateRules[0]) == [Failure(Body, Field("items"), None, items, IsArray(1))]
  {
    SingleFailure(lib, CartUpdateRules[0], Instance(None, items));
  }

  /** The member checks on an `items` object with the one property "a": the absent id and the quantity -1 fail. */
  lemma ObjectItemsMembers(lib: Library, req: Request, inner: Value)
    requires !lib.mongoId([])
    requires Get(req.body, "items") == Obj([Prop("a", inner)]) && inner == Obj([Prop("quantity", Num("-1"))])
    ensures RunRule(lib, req, CartUpdateRules[1]) ==
      [Failure(Body, EachMember("items", "productId"), Some(Property("a")), Absent, MongoId)]
    ensures RunRule(lib, req, CartUpdateRules[2]) ==
      [Failure(Body, EachMember("items", "quantity"), Some(Property("a")), Num("-1"), IntWithin(Some(0), None))]
  {
    var id, quantity := CartUpdateRules[1], CartUpdateRules[2];
    OnePropertyMember(req, id, "a", inner);
    assert Member(inner, "productId") == Absent;
    SingleFailure(lib, id, Instance(Some(Property("a")), Absent));
    OnePropertyMember(req, quantity, "a", inner);
    assert Member(inner, "quantity") == Num("-1");
    NegativeOneRefused(lib);
    SingleFailure(lib, quantity, Instance(Some(Property("a")), Num("-1")));
  }

  /** "-1" is an integer literal, below the least quantity 0. */
  lemma NegativeOneRefused(lib: Library)
    ensures !Passes(lib, IntWithin(Some(0), None), Num("-1"))
  {
    assert Unsigned("-1") == "1" && "1"[..0] == [];
    assert IntText("-1") && IntValue("-1") == -1;
  }
}

=== FILE: wrappers.dfy ===
/** Optional values, the model's stand-in for JavaScript's `undefined`/`null`. */
module Wrappers {

  datatype Option<+T> = None | Some(value: T) {

    /** The value, or `default` when absent (JavaScript's `x ?? default`). */
    function GetOr(default: T): T {
      match this
      case Some(v) => v
      case None => default
    }
  }
}
